=== FILE: README.md ===
# Storefront core in Dafny

This project models the core of a small online shop: an Express/Mongoose backend (products,
carts, orders and user accounts) and the React storefront that talks to it (sign-up checks, the
product catalog context, the products page, the session context, the product page, the cart page,
the home-page carousel, the order history and checkout). Each handler, hook or context function
becomes a pure Dafny function over immutable data. Each schema becomes a validity predicate, and
the properties the code promises are stated as contracts and lemmas.

Conventions used throughout:

- Money is integer cents. The schemas' price ceiling of $999999 is `ProductModel.MaxPrice`, held in cents.
- The database is a value (`Database.Db`): products and orders are held in insertion order, and
  carts are a map keyed by owner. A handler takes a `Db` and gives back the `Db` it leaves,
  together with its answer or the error it throws (`Errors.Error`, one kind per HTTP status).
- Anything that is not part of the code's own logic is a parameter: ids and timestamps the
  database or clock assigns, JWT signing and verification, bcrypt, zod's e-mail check,
  MongoDB's `$text` matching, browser storage.
- Ids are strings. A stored id is written as MongoDB writes an ObjectId: twenty-four lower-case
  hexadecimal digits. A lookup by id first casts the request's id as Mongoose does
  (`Database.CastId`), so upper-case hexadecimal digits find the same document; a comparison
  the code makes on strings (`item.product.toString() === productId`) is made on the raw string.
- JavaScript semantics the code relies on are written out: `parseInt(q) || d`, truncating `%`
  and its `NaN` for a zero divisor, `slice` with out-of-range bounds, `Array.from(new Set(xs))`,
  `String.prototype.trim` and `includes`, and `Math.ceil`.

Modules, following the repository's structure:

- `Wrappers`, `Errors`, `Seqs`, `Sorting`, `Text`, `Pagination`: shared helpers.
- `ProductModel`, `CartModel`, `OrderModel`, `UserModel`, `Database`: the Mongoose models.
- `ProductValidator`, `OrderValidator`: the request validators.
- `ProductController`, `CartController`, `OrderController`, `AuthController`: the controllers.
- `ShopTypes`, `AuthValidation`, `ProductProvider`, `ProductsPage`, `AuthProvider`,
  `ProductDetails`, `CartProvider`, `CartPage`, `Carousel`, `OrderHistory`, `Checkout`: the
  storefront.

## Model

| member | source | states |
|---|---|---|
| ProductModel.Create | backend/src/models/Product.ts:16-68 | The product is created exactly when every required field is present and the candidate document passes the schema, otherwise the answer is a 400. A created product is valid: a trimmed non-empty name of at most 100 UTF-16 code units, a description of at most 2000 code units, a price in [0, 999999] and a category from the five-value enum. Stock, ratings and review count default to 0. A body without a name or a price is refused. |
| ProductModel.ApplyPatch | backend/src/controllers/product.controller.ts:151-154 | Patching a valid product with a body that passes the update validators gives a valid product. The id and creation time are kept. Every field the body gives takes the given value, the name trimmed, and every field it leaves out keeps its value; an empty patch changes nothing. |
| CartModel.FindLine | backend/src/controllers/cart.controller.ts:62-64 | `findIndex` comparing each line's product id with the given string: the first line holding it, or none exactly when no line does. |
| CartModel.TotalsBounds | backend/src/models/Cart.ts:40-45 | With every line at least 1 unit at a non-negative price, `totalItems` is at least the number of lines and `totalPrice` is non-negative, so the totals' `min: 0` can never fail. |
| CartModel.SetQuantityDelta | backend/src/models/Cart.ts:76-80 | Changing one line's quantity moves the recomputed item total by exactly the difference. |
| CartModel.Save | backend/src/models/Cart.ts:76-92 | `save()` succeeds exactly when every line passes the item schema. The saved cart keeps its owner and lines, and its two totals are the recomputed sums, so the saved cart is valid. |
| CartModel.Empty | backend/src/controllers/cart.controller.ts:21-24 | The cart `Cart.create` makes for a user is valid, empty, and has zero totals. |
| OrderModel.ParseStatus | backend/src/models/Order.ts:168-172 | The status enum accepts exactly the five names, and each accepted string names the status it parses to. |
| OrderModel.StatusRoundTrip | backend/src/models/Order.ts:36 | Every status's name is in the enum and parses back to that status. |
| OrderModel.ParseMethod | backend/src/models/Order.ts:111-115 | The payment method enum accepts exactly `card` and `paypal`. |
| OrderModel.WithDefaultCountry | backend/src/models/Order.ts:100-104 | A shipping record without a country gets `United States`, and a given country is kept. The name, email, phone, address, city, state and zip code are stored as given. |
| OrderModel.TotalIsNotChecked | backend/src/models/Order.ts:148-167 | The schema bounds each money field separately, so an order whose total is not subtotal + tax + shipping is still a valid document. |
| Database.FindProduct | backend/src/controllers/product.controller.ts:84 | The lookup by a stored id gives the first product with exactly that id, or none exactly when no product has it. Every handler looks up the id its request casts to. |
| Database.FindOrder | backend/src/controllers/order.controller.ts:120 | The lookup by a stored id gives the first order with exactly that id, or none exactly when no order has it. Every handler looks up the id its request casts to. |
| Database.CastId | backend/src/controllers/product.controller.ts:84 | The ObjectId cast before `findById`: a spelling of twenty-four hexadecimal digits keeps its length and its shape and becomes lower-case, digit by digit; any other string is kept as it is. |
| Database.CastIdAsStored | backend/src/controllers/order.controller.ts:120 | Every id the cast produces is spelled as stored, so casting twice is casting once. |
| Database.SameObjectId | backend/src/controllers/order.controller.ts:144 | Two hexadecimal spellings cast to the same id exactly when they differ at most in the case of their letters. |
| Database.AppendKeepsProductsValid | backend/src/controllers/product.controller.ts:136 | Appending a valid product under an unused id keeps the catalog's ids unique and every product valid. |
| Database.RemoveKeepsProductsValid | backend/src/controllers/product.controller.ts:173 | Removing one product keeps the catalog valid. |
| ProductController.ParseSort | backend/src/controllers/product.controller.ts:42-58 | The `sort` query selects one of the four known orders exactly when it is one of the four strings. Anything else means newest first. |
| ProductController.BeforeIsPreorder | backend/src/controllers/product.controller.ts:42-58 | Each sort key is total and transitive, so sorting by it is well defined. |
| ProductController.Selection | backend/src/controllers/product.controller.ts:61 | `find(filter).sort(sort)`: exactly the kept products, each as often as in the catalog, in the key's order. |
| ProductController.Listing | backend/src/controllers/product.controller.ts:61-73 | A listing page is the window of the sorted selection that starts at `(page - 1) * limit` and holds at most `limit` items, so it holds only selected products in the sort order. The page info carries the page, the limit, the count of every selected product and `ceil(total / limit)`. It fails exactly when the skip is negative. |
| ProductController.GetProducts | backend/src/controllers/product.controller.ts:12-76 | Every listed product is in the catalog and meets every filter given: category, each price bound, and text search. The page is the window at `(page - 1) * limit` of the matching products in the requested order, and the page info carries the page, the limit, the count of every matching product and `ceil(total / limit)`. |
| ProductController.GetProductsPlacesEach | backend/src/controllers/product.controller.ts:61-73 | With a positive limit, the i-th matching product in listing order is on page `i / limit + 1`, at position `i % limit`, and on no other page. |
| ProductController.GetProductsByCategory | backend/src/controllers/product.controller.ts:100-127 | Every listed product has exactly the category. The page is the window at `(page - 1) * limit` of that category's products, newest first, and the page info carries the page, the limit, the category's product count and `ceil(total / limit)`. |
| ProductController.ByCategoryIsFilteredListing | backend/src/controllers/product.controller.ts:100-127 | The category route answers exactly what the general listing answers for a query naming only that category. |
| ProductController.GetProduct | backend/src/controllers/product.controller.ts:83-93 | The product is found exactly when some product has the id the request casts to, and it is that product. Otherwise the answer is a 404 "Product not found". |
| ProductController.GetProductIgnoresCase | backend/src/controllers/product.controller.ts:84 | Two hexadecimal spellings of an id that differ only in letter case fetch the same product, or both get the 404. |
| ProductController.CreateProduct | backend/src/controllers/product.controller.ts:134-142 | Creation succeeds exactly when the schema accepts the body, and then appends that product. Otherwise it is a 400 and nothing is written. |
| ProductController.UpdateProduct | backend/src/controllers/product.controller.ts:149-164 | An invalid body is a 400 even for a missing id, then an id that casts to no stored one is a 404. Otherwise only the product found is patched, and carts and orders are untouched. |
| ProductController.DeleteProduct | backend/src/controllers/product.controller.ts:171-181 | An id that casts to no stored one is a 404. Otherwise exactly the position found is removed, the rest keep their order, and carts and orders keep their snapshots. |
| ProductController.DeleteRemovesExactly | backend/src/controllers/product.controller.ts:171-181 | With unique ids, deleting is filtering out the id the request casts to, and afterwards that id is no longer found. |
| ProductController.CreateKeepsValid | backend/src/controllers/product.controller.ts:134-142 | Creating under a fresh id keeps the catalog valid. |
| ProductController.UpdateKeepsValid | backend/src/controllers/product.controller.ts:149-164 | Updating keeps the catalog valid, because the update validators guard every field being set. |
| ProductController.DeleteKeepsValid | backend/src/controllers/product.controller.ts:171-181 | Deleting keeps the catalog valid. |
| CartController.CartOf | backend/src/controllers/cart.controller.ts:53-59 | The requester's stored cart, or the empty cart that `Cart.create` would make for them. |
| CartController.Store | backend/src/controllers/cart.controller.ts:84 | Saving succeeds exactly when the lines pass the schema, and then replaces only the requester's cart. A rejected save is a 400 and writes nothing. |
| CartController.GetCart | backend/src/controllers/cart.controller.ts:14-30 | An existing cart is answered unchanged. Otherwise an empty cart is created and stored, and no other cart, product or order changes. |
| CartController.Merge | backend/src/controllers/cart.controller.ts:61-82 | The line whose product id equals the request's id as a string is raised by the quantity, unless that exceeds the stock (400 "Insufficient stock"). When no line matches, a snapshot line of the found product, under its stored id, is appended. |
| CartController.MergeFacts | backend/src/controllers/cart.controller.ts:61-84 | After a merge, the item total grows by the quantity, existing lines keep their products, and the merged line holds the new quantity; matched by the stored id, it is the product's line. The lines stay valid exactly when that quantity is at least 1. Products stay distinct exactly when the request's id matched a line or the cart held no line of the product. |
| CartController.AddFound | backend/src/controllers/cart.controller.ts:52-88 | After the stock check, only the requester's cart may change. On success the saved cart is valid, `totalItems` grew by the quantity, and the merged line holds the new quantity, within stock. Products stay distinct exactly when the request's id matched a line or the cart held no line of the product. A failure may still leave the newly created empty cart. With valid lines, success happens exactly when the new quantity is in [1, stock]. |
| CartController.AddToCart | backend/src/controllers/cart.controller.ts:37-89 | As written. An id that casts to no product: 404. Stock below the requested quantity, 1 by default: 400. Otherwise the found-product step runs, matching the cart line by the request's id as a string. |
| CartController.AddToCartByStoredId | backend/src/controllers/cart.controller.ts:37-89 | Corrected. The same checks, with the cart line matched by the found product's stored id. |
| CartController.UpdateCartItem | backend/src/controllers/cart.controller.ts:96-136 | Checks run in this order: quantity below 1 is a 400, no cart is a 404, no line whose product id equals the request's id as a string is a 404, an id that casts to no product is a 404, and stock below the quantity is the 400 "Insufficient stock". Every error leaves the database as it was. When every check passes on a cart whose lines are valid, the update succeeds. On success exactly that line takes the quantity, the total moves by the difference, and the cart stays valid. |
| CartController.UpdateSucceeds | backend/src/controllers/cart.controller.ts:96-136 | With valid carts, an update succeeds exactly when a quantity is given, the requester's cart has a line matching the request's id, that id casts to a product, and the quantity is in [1, stock]. |
| CartController.OtherThan | backend/src/controllers/cart.controller.ts:152-154 | The filter predicate keeps exactly the lines for another product. |
| CartController.RemoveFromCart | backend/src/controllers/cart.controller.ts:143-163 | No cart: 404. Otherwise the saved lines are the old ones without the product, in order, the product is no longer found, and the cart is valid. An absent product still succeeds. |
| CartController.ClearCart | backend/src/controllers/cart.controller.ts:170-184 | No cart is a 404, and the answer is a 404 only then. Otherwise the cart is saved with no lines and zero totals. |
| CartController.FilterUnique | backend/src/controllers/cart.controller.ts:152-154 | Filtering keeps distinct products distinct. |
| CartController.GetCartStable | backend/src/controllers/cart.controller.ts:14-30 | Getting the cart keeps every stored cart valid, and a second read answers the same. |
| CartController.AddKeepsCartsValid | backend/src/controllers/cart.controller.ts:37-89 | With the line matched by the stored id, every outcome of `addToCart`, success or failure, leaves every stored cart valid and free of duplicate products. |
| CartController.AddAsStoredAgrees | backend/src/controllers/cart.controller.ts:61-64 | For an id spelled as stored, the handler as written and the corrected one give the same answer and state. |
| CartController.AddAsWrittenKeepsCartsValid | backend/src/controllers/cart.controller.ts:37-89 | For an id spelled as stored, `addToCart` as written leaves every stored cart valid and free of duplicate products. |
| CartController.AddDuplicatesLine | backend/src/controllers/cart.controller.ts:42-82 | As written: an id spelled with upper-case letters finds the product but misses the line the cart holds for it, so a second line for the same product is saved and the stored carts are no longer valid. |
| CartController.AddSucceeds | backend/src/controllers/cart.controller.ts:37-89 | With valid products and carts, `addToCart` succeeds exactly when the id casts to a product and the new quantity of the line matching the request's id is in [1, stock]. |
| CartController.RemoveUndoesAdd | backend/src/controllers/cart.controller.ts:37-163 | Adding a product the cart did not hold, under any spelling of its id, and then removing it by its stored id answers with the original cart: its lines and totals. |
| CartController.RemoveIdempotent | backend/src/controllers/cart.controller.ts:143-163 | Removing twice is removing once. |
| CartController.RemoveKeepsCartsValid | backend/src/controllers/cart.controller.ts:143-163 | Removing keeps every stored cart valid. |
| CartController.UpdateIdempotent | backend/src/controllers/cart.controller.ts:96-136 | Setting a line to the quantity it already has answers with the same cart. |
| CartController.UpdateKeepsCartsValid | backend/src/controllers/cart.controller.ts:96-136 | Updating keeps every stored cart valid. |
| CartController.ClearThenGet | backend/src/controllers/cart.controller.ts:170-184 | After clearing, the cart read back has no lines and zero items, and clearing again changes nothing. |
| CartController.AddNegativeQuantityLowers | backend/src/controllers/cart.controller.ts:48-72 | A negative quantity passes the stock check and lowers an existing line. |
| CartProvider.FindItem | frontend/src/context/CartProvider.tsx:73 | `find` on the id: the first line with the id, or none exactly when no line has it. |
| CartProvider.IsInCart | frontend/src/context/CartProvider.tsx:135-137 | `some`: true exactly when some line carries the id. |
| CartProvider.GetItemQuantity | frontend/src/context/CartProvider.tsx:145-148 | 0 for an id not in the cart. Otherwise the quantity of a line with the id. |
| CartProvider.MapQuantity | frontend/src/context/CartProvider.tsx:77-81 | The `map` over lines: the lines with the id get the new quantity, and every other line stays as it was, in place. |
| CartProvider.AddToCart | frontend/src/context/CartProvider.tsx:70-87 | A present id has each of its lines raised by the quantity and nothing else changes. An absent id gets one line, with the product and the quantity, appended at the end. |
| CartProvider.OtherItem | frontend/src/context/CartProvider.tsx:96 | The filter predicate keeps exactly the lines with another id. |
| CartProvider.RemoveFromCart | frontend/src/context/CartProvider.tsx:94-98 | Afterwards the id is not in the cart. A line survives exactly when it carries another id, and removing an absent id changes nothing. |
| CartProvider.UpdateQuantity | frontend/src/context/CartProvider.tsx:107-119 | A quantity of 0 or less removes the id. A positive one sets the quantity on the id's lines and keeps every other line. |
| CartProvider.ClearCart | frontend/src/context/CartProvider.tsx:125-127 | The cart is empty, and both totals are 0. |
| CartProvider.SumsAppend | frontend/src/context/CartProvider.tsx:51-60 | `totalItems`, `totalPrice` and an id's summed quantity each split over a concatenation. |
| CartProvider.SameIdsSameFind | frontend/src/context/CartProvider.tsx:73 | Two carts with the same ids in the same order find every id at the same position. |
| CartProvider.MapKeepsIds | frontend/src/context/CartProvider.tsx:77-81 | Changing quantities keeps ids unique and every lookup where it was. |
| CartProvider.AddThenGet | frontend/src/context/CartProvider.tsx:70-87 | After `addToCart`, `getItemQuantity` of the product grew by exactly the quantity, the product is in the cart, and every other id's quantity is unchanged. |
| CartProvider.AppendNewLine | frontend/src/context/CartProvider.tsx:84 | An appended line for an absent id is found at the end, and every other id is found where it was. |
| CartProvider.AddKeepsUnique | frontend/src/context/CartProvider.tsx:51-87 | With unique ids, `addToCart` keeps ids unique and raises `totalItems` by the quantity. |
| CartProvider.MapAddTotal | frontend/src/context/CartProvider.tsx:51-81 | With unique ids, raising a present id's line raises `totalItems` by exactly that amount. |
| CartProvider.RemoveTotal | frontend/src/context/CartProvider.tsx:51-98 | Removing an id takes exactly its summed quantity off `totalItems`. |
| CartProvider.QtyOfUnique | frontend/src/context/CartProvider.tsx:145-148 | With unique ids, `getItemQuantity` is the id's summed quantity. |
| CartProvider.FindIndexShift | frontend/src/context/CartProvider.tsx:73 | A lookup that misses the first line finds the id one position further than in the rest. |
| CartProvider.RemoveLowersTotal | frontend/src/context/CartProvider.tsx:51-98 | With unique ids, `removeFromCart` lowers `totalItems` by the `getItemQuantity` of the id. |
| CartProvider.RemoveUndoesAdd | frontend/src/context/CartProvider.tsx:70-98 | Removing an id that was just added to a cart without it gives the cart back. |
| CartProvider.RemoveKeepsUnique | frontend/src/context/CartProvider.tsx:94-98 | Removing keeps ids unique. |
| CartProvider.FilterUniqueIds | frontend/src/context/CartProvider.tsx:96 | Any filter keeps ids unique. |
| CartProvider.UpdateThenGet | frontend/src/context/CartProvider.tsx:107-119 | A positive update on a present id makes that its quantity. Other ids keep theirs, an absent id changes nothing, and ids stay unique. |
| CartProvider.InCartIffQuantity | frontend/src/context/CartProvider.tsx:135-148 | When every line holds at least one unit, `isInCart` holds exactly when `getItemQuantity` is at least 1. |
| CartPage.HandleIncrease | frontend/src/pages/cart/CardPage.tsx:18-26 | Below the stock, the line is set to one more. At or above the stock, nothing changes. Other lines and every product are kept, and a quantity passed in below zero removes the line. |
| CartPage.HandleDecrease | frontend/src/pages/cart/CardPage.tsx:28-32 | Above one, the line is set to one fewer. Otherwise nothing changes, so the decrease button never removes a line. |
| CartPage.ApplyKeepsBounded | frontend/src/pages/cart/CardPage.tsx:18-32 | One press on a cart with unique ids and quantities in [1, stock] keeps every line, its product, unique ids and those bounds. |
| CartPage.ApplyAllKeepsBounded | frontend/src/pages/cart/CardPage.tsx:18-32 | Any run of presses keeps the lines, their products, unique ids and quantities in [1, stock]. |
| Carousel.TotalSlides | frontend/src/pages/home/Home.tsx:21-22 | `Math.ceil(count / 4)`: zero exactly for an empty catalog. Otherwise the fewest slides of four that hold the catalog. |
| Carousel.JsRem | frontend/src/pages/home/Home.tsx:24-30 | JavaScript's `%`: the remainder takes the sign of the dividend. |
| Carousel.NextSlide | frontend/src/pages/home/Home.tsx:24-26 | An in-range slide moves one on and wraps from the last slide to the first. With no slides the slide becomes `NaN` and stays `NaN`. |
| Carousel.PrevSlide | frontend/src/pages/home/Home.tsx:28-30 | An in-range slide moves one back and wraps from the first slide to the last. With no slides the slide becomes `NaN`. |
| Carousel.ArrowsUndoEachOther | frontend/src/pages/home/Home.tsx:24-30 | On an in-range slide, "next" then "previous", or the reverse, returns to the slide. |
| Carousel.NextTimesAdd | frontend/src/pages/home/Home.tsx:24-26 | `a` presses of "next" followed by `b` more are `a + b` presses. |
| Carousel.NextTimesNoWrap | frontend/src/pages/home/Home.tsx:24-26 | Short of the last slide, `k` presses move exactly `k` slides on. |
| Carousel.FullCycle | frontend/src/pages/home/Home.tsx:24-26 | As many presses of "next" as there are slides return to the starting slide. |
| Carousel.SliceBound | frontend/src/pages/home/Home.tsx:34 | Where `slice` starts or ends: a negative index counts from the end, and the result is clamped to the length. |
| Carousel.JsSlice | frontend/src/pages/home/Home.tsx:34 | `slice` is never longer than the sequence, and for in-range bounds it is the sub-sequence. |
| Carousel.CurrentProducts | frontend/src/pages/home/Home.tsx:32-35 | The current slide shows at most four products, none for `NaN`. An in-range slide shows its own four, or the remaining ones on the last slide. |
| Carousel.EachProductOnItsSlide | frontend/src/pages/home/Home.tsx:20-35 | Product `k` is shown on slide `k / 4`, which exists, at position `k % 4`. |
| OrderHistory.NewerOrSameIsPreorder | frontend/src/pages/order/hooks/useOrders.ts:11-14 | The comparator `b - a` on dates orders the orders totally and transitively. |
| OrderHistory.LoadOrders | frontend/src/pages/order/hooks/useOrders.ts:5-15 | With no `orders` entry the list is empty. Otherwise it is a permutation of the stored orders, sorted newest first. |
| OrderHistory.LoadOrdersFromStore | frontend/src/pages/order/hooks/useOrders.ts:5-15 | An empty store lists nothing, and an order is listed exactly when it is stored. |
| OrderHistory.FirstIsNewest | frontend/src/pages/order/hooks/useOrders.ts:11-14 | The first listed order is at least as new as every stored order. |
| ProductDetails.IncreaseQuantity | frontend/src/pages/productDetails/hooks/useProductDetails.ts:25-29 | One more, only with a product and while below its stock. Otherwise unchanged. |
| ProductDetails.DecreaseQuantity | frontend/src/pages/productDetails/hooks/useProductDetails.ts:31-35 | One fewer while above one. Otherwise unchanged. |
| ProductDetails.QuantityStaysInRange | frontend/src/pages/productDetails/hooks/useProductDetails.ts:14-35 | The selector starts at 1, and both buttons keep it within [1, max(1, stock)]. |
| ProductDetails.RunStaysInRange | frontend/src/pages/productDetails/hooks/useProductDetails.ts:25-35 | Any run of presses keeps the selector within [1, max(1, stock)]. |
| ProductDetails.IncreaseThenDecrease | frontend/src/pages/productDetails/hooks/useProductDetails.ts:25-35 | When going up was allowed, going up and back down returns to where the selector was. |
| ProductDetails.OtherProduct | frontend/src/pages/productDetails/hooks/useProductDetails.ts:40 | The removal keeps exactly the entries with another id. |
| ProductDetails.ToggleWishlist | frontend/src/pages/productDetails/hooks/useProductDetails.ts:37-44 | With no product, nothing changes. A listed product is removed. An unlisted one is appended. Every entry with another id stays. |
| ProductDetails.ToggleFlips | frontend/src/pages/productDetails/hooks/useProductDetails.ts:37-46 | Toggling flips whether the product is listed, and toggling twice restores it. |
| ProductDetails.ToggleTwiceRestores | frontend/src/pages/productDetails/hooks/useProductDetails.ts:37-44 | An unlisted product toggled on and then off leaves the wishlist exactly as it was. |
| ProductDetails.HandleAddToCart | frontend/src/pages/productDetails/hooks/useProductDetails.ts:17-23 | With no product, nothing happens. Otherwise the success note shows. |
| ProductDetails.AddToCartAddsQuantity | frontend/src/pages/productDetails/hooks/useProductDetails.ts:17-23 | The cart then holds exactly the selected quantity more of the product, and the same of every other product. |
| AuthProvider.Login | frontend/src/context/AuthProvider.tsx:7-10 | Signed in as the given record, with the token stored. |
| AuthProvider.UpdateUser | frontend/src/context/AuthProvider.tsx:12-14 | Signed out, nothing changes. Signed in, exactly the supplied fields are replaced. The token and the signed-in state are kept. |
| AuthProvider.UpdateIdempotent | frontend/src/context/AuthProvider.tsx:12-14 | Applying the same update twice is applying it once. |
| AuthProvider.EmptyUpdateKeeps | frontend/src/context/AuthProvider.tsx:12-14 | An update supplying no field changes nothing. |
| AuthProvider.Logout | frontend/src/context/AuthProvider.tsx:16-19 | Signed out, with no stored token. |
| AuthProvider.LogoutUndoesLogin | frontend/src/context/AuthProvider.tsx:7-22 | Logging in and then out gives a fresh session, with no user and no token, and an update made while signed out signs nobody in. |
| AuthProvider.LoginThenUpdate | frontend/src/context/AuthProvider.tsx:7-14 | An update after login is a login with the merged record. |
| AuthValidation.EmailShapedIffPattern | frontend/src/utils/validation/authValidation.ts:4 | The e-mail regular expression accepts exactly the strings that have no whitespace, exactly one `@` with something before it, and a dot with something on each side after the `@`. |
| AuthValidation.ShapedSplit | frontend/src/utils/validation/authValidation.ts:4 | A whitespace-free string with its only `@` at `a` and an inner dot at `j` matches the pattern split at `a` and `j`. |
| AuthValidation.PatternChars | frontend/src/utils/validation/authValidation.ts:4 | A string the pattern matches has no whitespace and only the one `@`. |
| AuthValidation.ValidateEmail | frontend/src/utils/validation/authValidation.ts:3-8 | An empty e-mail is "Email is required", a non-matching one is the invalid-address message, and there is no error exactly when the pattern matches. |
| AuthValidation.ValidatePassword | frontend/src/utils/validation/authValidation.ts:10-14 | No error exactly for a `length` of 6 or more UTF-16 code units. An empty password is "Password is required", and a shorter one is the 6-characters message. |
| AuthValidation.ThreeEmojiPassword | frontend/src/utils/validation/authValidation.ts:12 | Three emoji are three characters but six code units, and `validatePassword` accepts them. |
| AuthValidation.ErrorMapSnoc | frontend/src/utils/validation/authValidation.ts:40-44 | Each issue writes its message under its first path segment, over any earlier entry. An issue with an empty path writes nothing. |
| AuthValidation.ErrorMapKeys | frontend/src/utils/validation/authValidation.ts:40-44 | A field has an entry exactly when some issue with a non-empty path names it. |
| AuthValidation.ErrorMapLastWins | frontend/src/utils/validation/authValidation.ts:40-44 | A field's entry is the message of the last issue naming it. |
| AuthValidation.SignupIssues | frontend/src/utils/validation/authValidation.ts:16-26 | The schema reports no issue exactly when the name has at least 2 UTF-16 code units, the e-mail passes, the password has at least 6, and the confirmation equals it. |
| AuthValidation.ErrorMapOpt | frontend/src/utils/validation/authValidation.ts:40-44 | An optional issue on a field adds its message exactly when it is reported. |
| AuthValidation.SignupErrorMap | frontend/src/utils/validation/authValidation.ts:16-26 | The error record for a set of failing checks has an entry, with that check's message, exactly for each failing check, and no other keys. |
| AuthValidation.ValidateSignupIsErrorMap | frontend/src/utils/validation/authValidation.ts:36-48 | `validateSignup` answers the error record of exactly the checks the form fails. |
| AuthValidation.ValidateSignupFields | frontend/src/utils/validation/authValidation.ts:36-48 | Each of `name`, `email`, `password` and `confirmPassword` has an error exactly when its check fails, and there are no other keys. |
| AuthValidation.ValidateSignupEmptyIffValid | frontend/src/utils/validation/authValidation.ts:36-48 | `validateSignup` returns `{}` exactly when every check passes. |
| ProductProvider.GetProductById | frontend/src/context/ProductProvider.tsx:54-56 | `find`: a product with the id that no earlier product shares, or none exactly when no product has the id. |
| ProductProvider.InCategory | frontend/src/context/ProductProvider.tsx:65-67 | The filter keeps exactly the products whose category equals the given one after lower-casing both. |
| ProductProvider.GetProductsByCategory | frontend/src/context/ProductProvider.tsx:64-68 | A product is listed exactly when it is in the catalog and its category matches up to letter case, and it is listed as often as it occurs. |
| ProductProvider.CategoryIgnoresCase | frontend/src/context/ProductProvider.tsx:64-68 | Two category names that agree up to letter case select the same list. |
| ProductProvider.CategoryKeepsOrder | frontend/src/context/ProductProvider.tsx:64-68 | The selection keeps catalog order: filtering a concatenation filters each part in place. |
| ProductProvider.Matching | frontend/src/context/ProductProvider.tsx:80-84 | The search filter keeps exactly the products whose lower-cased name or description contains the lower-cased query. |
| ProductProvider.SearchProducts | frontend/src/context/ProductProvider.tsx:77-85 | A product is found exactly when it is in the catalog and its name or description contains the query, ignoring letter case. |
| ProductProvider.SearchEmptyReturnsAll | frontend/src/context/ProductProvider.tsx:77-85 | The empty query returns the whole catalog. |
| ProductProvider.SearchIgnoresCase | frontend/src/context/ProductProvider.tsx:77-85 | Queries that agree up to letter case find the same products. |
| ProductProvider.Categories | frontend/src/context/ProductProvider.tsx:95 | `map` to the category: one entry per product, in order. |
| ProductProvider.GetAllCategories | frontend/src/context/ProductProvider.tsx:93-97 | `Array.from(new Set(...))`: every category that occurs, each once, in order of first appearance, and nothing else. |
| ProductsPage.NameOf | frontend/src/pages/product/hooks/useProductsPage.ts:13-23 | The display name the slug table gives one of its own slugs, or none exactly when the slug is not among the table's keys. |
| ProductsPage.SlugOf | frontend/src/pages/product/hooks/useProductsPage.ts:34-36 | `Object.keys(...).find`: the slug whose display name is the given one, or none exactly when no entry has it. |
| ProductsPage.SelectedCategory | frontend/src/pages/product/hooks/useProductsPage.ts:25-27 | A given slug among the table's keys selects its display name. A slug naming a property every object inherits (`constructor`, `toString`, `__proto__`, ...) selects that inherited value. Any other slug, or none, selects `All`. |
| ProductsPage.MappingNotInherited | frontend/src/pages/product/hooks/useProductsPage.ts:13-27 | No slug of the table is an inherited property name, and no display name is `All`. |
| ProductsPage.Hyphenate | frontend/src/pages/product/hooks/useProductsPage.ts:40 | `replace(/\s+/g, '-')` leaves no whitespace and never lengthens the text. |
| ProductsPage.HyphenateNoSpace | frontend/src/pages/product/hooks/useProductsPage.ts:40 | Text without whitespace is left unchanged. |
| ProductsPage.Param | frontend/src/pages/product/hooks/useProductsPage.ts:8 | The router's `:category` parameter: present only on a `/products/...` path, which it rebuilds. Absent on `/products`. |
| ProductsPage.ParamOfPath | frontend/src/pages/product/hooks/useProductsPage.ts:8 | The parameter read back from a category path is the slug it was built from. |
| ProductsPage.HandleCategoryChange | frontend/src/pages/product/hooks/useProductsPage.ts:29-42 | `All` goes to `/products`, a mapped display name to its slug's path, and any other name to its lower-cased, hyphenated path. |
| ProductsPage.MappingDistinct | frontend/src/pages/product/hooks/useProductsPage.ts:13-23 | The slug table's slugs are distinct, and so are its display names. |
| ProductsPage.SlugOfMapped | frontend/src/pages/product/hooks/useProductsPage.ts:34-36 | The reverse lookup of a mapped display name finds its own slug. |
| ProductsPage.NameOfMapped | frontend/src/pages/product/hooks/useProductsPage.ts:26 | The lookup of a mapped slug finds its own display name. |
| ProductsPage.CategoryRoundTrip | frontend/src/pages/product/hooks/useProductsPage.ts:25-42 | Picking a mapped category navigates to its slug's path, and that path selects the category again. |
| ProductsPage.UnmappedCategory | frontend/src/pages/product/hooks/useProductsPage.ts:25-42 | An unmapped name navigates to a path whose selection is the table's name for the hyphenated slug, the inherited value when that slug is an inherited property name, or `All`, so the pick is not kept. |
| ProductsPage.FilteredProducts | frontend/src/pages/product/hooks/useProductsPage.ts:44-58 | A query that is not blank searches. Otherwise a selected category filters, and `All` shows the whole catalog. An inherited value reaches the category filter, whose `toLowerCase` call throws as soon as there is a product to compare. |
| ProductsPage.InheritedSlugThrows | frontend/src/context/ProductProvider.tsx:64-68 | On the path of an inherited property name, a blank search over a non-empty catalog throws, and a search that is not blank still shows its result. |
| ProductsPage.ShownFromCatalog | frontend/src/pages/product/hooks/useProductsPage.ts:44-58 | Every product shown is in the catalog. |
| ProductsPage.SearchOverridesCategory | frontend/src/pages/product/hooks/useProductsPage.ts:44-58 | With a query that is not blank, the route does not matter: the page shows the search result. |
| ProductsPage.PickCategoryShows | frontend/src/pages/product/hooks/useProductsPage.ts:25-58 | With an empty search, picking a mapped category shows exactly that category's products. |
| ProductsPage.ClearFilters | frontend/src/pages/product/hooks/useProductsPage.ts:64-67 | The query becomes empty and the route carries no category. |
| ProductsPage.ClearFiltersShowsAll | frontend/src/pages/product/hooks/useProductsPage.ts:44-67 | After clearing the filters the whole catalog is shown. |
| ProductsPage.CategoryList | frontend/src/pages/product/hooks/useProductsPage.ts:60-62 | `All` comes first, followed by exactly the catalog's categories. |
| ProductsPage.CategoryListCovers | frontend/src/pages/product/hooks/useProductsPage.ts:60-62 | Every product's category is offered, and everything offered besides `All` is some product's category. |
| ProductsPage.CategoryListDistinct | frontend/src/pages/product/hooks/useProductsPage.ts:60-62 | When no product's category is `All`, no button is offered twice. |
| OrderController.FirstShortLine | backend/src/controllers/order.controller.ts:21-29 | The line where the stock loop stops: the first line whose product is missing or holds less than that line's quantity, or none exactly when every line passes. |
| OrderController.StockError | backend/src/controllers/order.controller.ts:23-28 | A missing product is a 404 "Product <id> not found". A short one is a 400 "Insufficient stock for <name>". |
| OrderController.LineFor | backend/src/controllers/order.controller.ts:33-42 | A line's snapshot carries the found product's stored id, name, price and image, with the requested quantity. |
| OrderController.Requested | backend/src/controllers/order.controller.ts:164-168 | The product and quantity of each stored line: what cancelling puts back. |
| OrderController.Snapshot | backend/src/controllers/order.controller.ts:32-43 | One snapshot per requested line, in order, and reading back product and quantity gives the request with each id cast. |
| OrderController.QtyOfCastLines | backend/src/controllers/order.controller.ts:62-66 | Casting the lines' ids first asks the same quantity of every product. |
| OrderController.QtyOfAbsent | backend/src/controllers/order.controller.ts:62-66 | A product no line names is asked for nothing. |
| OrderController.QtyOfDistinct | backend/src/controllers/order.controller.ts:62-66 | When no product is named twice, under any spelling, each line's product is asked for exactly that line's quantity. |
| OrderController.Restock | backend/src/controllers/order.controller.ts:63-65 | `$inc` on one product: only the products with the id the request casts to move, each by the delta. A missing id changes nothing, and no validator runs. |
| OrderController.AdjustAll | backend/src/controllers/order.controller.ts:62-66 | The loop of `$inc` updates moves each product by the total of the lines naming it. |
| OrderController.AdjustCastLines | backend/src/controllers/order.controller.ts:164-167 | Moving stock by the lines or by their cast lines is the same. |
| OrderController.Negate | backend/src/controllers/order.controller.ts:64 | Negated lines ask for minus each product's quantity. |
| OrderController.EmptyCartOf | backend/src/controllers/order.controller.ts:69-72 | The user's cart, if any, is emptied with zero totals, no cart is created, and every other cart is untouched. |
| OrderController.NewOrder | backend/src/controllers/order.controller.ts:46-59 | The created order has the snapshot lines, whose products and quantities are the request's lines with each id cast, the body's shipping and money fields, a pending payment by the requested method, and pending status. |
| OrderController.Commit | backend/src/controllers/order.controller.ts:45-76 | After the check: the order is stored exactly when the schema accepts it, and otherwise the answer is a 400. Each product's stock drops by the total its lines ask, and the user's cart is emptied. |
| OrderController.CreateOrder | backend/src/controllers/order.controller.ts:15-78 | The handler as written: the first line failing the per-line check gives its 404 or 400. When no line fails, the answer is exactly the commit of the order. |
| OrderController.FirstUncoveredLine | backend/src/controllers/order.controller.ts:21-29 | The first line whose product is missing or holds less than the combined quantity of all lines naming it, or none exactly when every line is covered. |
| OrderController.CreateOrderChecked | backend/src/controllers/order.controller.ts:15-78 | The corrected handler checks each product against its combined quantity: the first uncovered line gives its 404 or 400, and when none fails the answer is exactly the commit. On success no stock goes below zero, so valid products stay valid. |
| OrderController.CheckedKeepsStock | backend/src/controllers/order.controller.ts:62-66 | When every line is covered, taking the lines out of stock keeps every product valid. |
| OrderController.SnapshotLinesValid | backend/src/models/Order.ts:41-68 | Snapshots of valid products with positive quantities pass the order-line schema. |
| OrderController.ValidatedOrderIsPlaced | backend/src/controllers/order.controller.ts:15-78 | With valid products, a body within the validator's bounds, and every line in stock, `createOrder` succeeds. |
| OrderController.CheckedAgreesOnDistinctLines | backend/src/controllers/order.controller.ts:15-78 | When no product is named twice, under any spelling, the corrected handler answers exactly as the original does. |
| OrderController.FirstLinesAgree | backend/src/controllers/order.controller.ts:21-29 | When no product is named twice, both checks stop at the same line. |
| OrderController.TwoSingleLinesQty | backend/src/controllers/order.controller.ts:62-66 | Two lines of one unit each ask for two units of the product. |
| OrderController.TwoSingleLinesPlaced | backend/src/controllers/order.controller.ts:21-29 | Two one-unit lines for a product with one unit in stock pass the per-line check. |
| OrderController.DuplicateLinesOversell | backend/src/controllers/order.controller.ts:21-66 | As written: a valid product with one unit in stock and its id written as stored, ordered as two one-unit lines, is accepted and left at stock -1, so it is no longer valid. |
| OrderController.DuplicateLinesRefusedWhenChecked | backend/src/controllers/order.controller.ts:26-28 | The corrected handler refuses that request with "Insufficient stock for <name>". |
| OrderController.GetOrder | backend/src/controllers/order.controller.ts:118-135 | The answer is 404 exactly when no order has the id the request casts to, and 403 when the order belongs to someone else. Otherwise it is the requester's stored order with that id. |
| OrderController.CancelOrder | backend/src/controllers/order.controller.ts:142-174 | Checks run as 404 for an id that casts to no order, then 403, then 400 unless pending or processing. A valid order of the requester that is pending or processing is always cancelled. On success only that order changes, to cancelled, and each product's stock rises by its lines' total. Carts are untouched. |
| OrderController.CancelPlacedOrder | backend/src/controllers/order.controller.ts:15-174 | An order just placed under a new id written as stored can be cancelled by its owner, and the cancellation puts back the request's own lines. |
| OrderController.CancelRestoresStock | backend/src/controllers/order.controller.ts:15-174 | Placing an order with the corrected check and then cancelling it puts every product's stock back exactly where it was. |
| OrderController.CancelPlacedOrderAsWritten | backend/src/controllers/order.controller.ts:15-174 | An order placed by `createOrder` as written under a new id written as stored can be cancelled by its owner, and the cancellation puts back the request's own lines. |
| OrderController.CancelRestoresStockAsWritten | backend/src/controllers/order.controller.ts:15-174 | Placing an order with the check as written and then cancelling it puts every product's stock back exactly where it was, even after duplicate lines oversold a product. |
| OrderController.CancelIsFinal | backend/src/controllers/order.controller.ts:155-158 | A cancelled order cannot be cancelled again: the answer is a 400. |
| OrderController.UpdateOrderStatus | backend/src/controllers/order.controller.ts:181-214 | An id that casts to no order is a 404, and a status outside the five names is a 400. Otherwise the order takes the status and keeps every other field, and a delivered order's payment becomes completed. On a valid order a known status always succeeds. |
| OrderController.ReopenedOrderRestocksTwice | backend/src/controllers/order.controller.ts:142-214 | Any status may follow any other, so an admin can reopen a cancelled order. Cancelling it again puts its quantities back a second time. |
| OrderController.NewestFirstIsPreorder | backend/src/controllers/order.controller.ts:92 | `createdAt` descending is total and transitive. |
| OrderController.GetOrders | backend/src/controllers/order.controller.ts:85-111 | The page is the window at `(page - 1) * limit` of the requester's own orders, newest first, so at most as many as they have. The total counts all of them, and pages is `ceil(total / limit)`, with page 1 and limit 10 by default. It fails exactly when the skip is negative. |
| OrderController.OrdersOf | backend/src/controllers/order.controller.ts:91-92 | `find({ user }).sort({ createdAt: -1 })`: exactly the requester's orders, newest first. |
| OrderController.GetOrdersPlacesEach | backend/src/controllers/order.controller.ts:85-111 | With a positive limit, the requester's i-th order, newest first, is on page `i / limit + 1`, at position `i % limit`, and on no other page. |
| UserModel.LowerKeepsTrimmed | backend/src/models/User.ts:25-31 | Lower-casing a trimmed string keeps it trimmed. |
| UserModel.NormalizeEmail | backend/src/models/User.ts:25-31 | The e-mail setters `trim` then `lowercase`: the result is trimmed, and it is empty exactly when the input is all whitespace. |
| UserModel.NormalizeIdempotent | backend/src/models/User.ts:25-31 | Normalizing a normalized e-mail changes nothing. |
| UserModel.FindById | backend/src/controllers/auth.controller.ts:129 | `findById`: the first account with the id, or none exactly when no account has it. |
| UserModel.FindByEmail | backend/src/controllers/auth.controller.ts:18 | `findOne({ email })` runs the query through the setters: it finds an account whose stored e-mail is the normalized query, or none exactly when no account has it. |
| UserModel.FindIdAt | backend/src/controllers/auth.controller.ts:184 | An id first held at position k is found at k. |
| UserModel.FindOwnId | backend/src/controllers/auth.controller.ts:184 | With unique ids, each account is found under its own id. |
| UserModel.SetTokenKeepsValid | backend/src/models/User.ts:43-46 | Setting or clearing an account's refresh token keeps the collection valid. |
| UserModel.UpdateKeepsUnique | backend/src/models/User.ts:28-29 | Replacing an account under the same id with an e-mail no other account has keeps ids and e-mails unique. |
| UserModel.UpdateKeepsStored | backend/src/models/User.ts:20-31 | Replacing an account with one that passes the schema keeps every account passing it. |
| UserModel.AppendKeepsUnique | backend/src/models/User.ts:28-29 | Adding an account with a fresh id and a fresh e-mail keeps both unique. |
| UserModel.AppendKeepsStored | backend/src/models/User.ts:20-31 | Adding an account that passes the schema keeps every account passing it. |
| UserModel.AppendKeepsValid | backend/src/models/User.ts:18-49 | Adding a stored account with a fresh id and e-mail keeps the collection valid. |
| UserModel.ReplaceKeepsValid | backend/src/models/User.ts:18-49 | Replacing an account under its own id with a stored one whose e-mail is not taken keeps the collection valid. |
| AuthController.ProfileOf | backend/src/controllers/auth.controller.ts:40-45 | The user part of an answer: id, name, e-mail and role. |
| AuthController.Register | backend/src/controllers/auth.controller.ts:13-51 | A taken e-mail is a 400 "User already exists with this email". Registration succeeds exactly when the e-mail is free and the schema accepts the fields: a non-blank name and e-mail, and a password of at least 6 UTF-16 code units. The new account is appended with a trimmed name, a normalized e-mail, the hash, role `user` and the issued refresh token. |
| AuthController.Login | backend/src/controllers/auth.controller.ts:58-93 | Login succeeds exactly when the e-mail is known and the password matches its hash. Either failure is the same 401 "Invalid credentials", and success stores only the new refresh token on that account. |
| AuthController.Edited | backend/src/controllers/auth.controller.ts:136-148 | A profile edit takes a given name, trimmed, and the new e-mail, normalized, and keeps everything else. It saves exactly when both stay non-empty. |
| AuthController.ApplyProfile | backend/src/controllers/auth.controller.ts:135-160 | Changing to an e-mail another account holds is a 400 "Email already in use", and any error writes nothing. Otherwise only that account is replaced by its edit. |
| AuthController.UpdateProfile | backend/src/controllers/auth.controller.ts:125-161 | An unknown user is a 404. The e-mail counts as changed when it differs from the stored one as typed, and a changed e-mail some account holds is a 400. Success replaces only that account and answers its profile. |
| AuthController.UpdateProfileNormalized | backend/src/controllers/auth.controller.ts:125-161 | The corrected update compares the normalized e-mail with the stored one, so only a real change is checked for collisions. |
| AuthController.RefreshToken | backend/src/controllers/auth.controller.ts:168-208 | A missing token is a 400. Any other failure is the 401 "Invalid or expired refresh token". The refresh succeeds exactly when the token verifies to an existing account that holds that very token, and then only the stored refresh token is rotated. |
| AuthController.Logout | backend/src/controllers/auth.controller.ts:215-227 | An unknown user is a 404; a known user is logged out. Only that account's refresh token is cleared. |
| AuthController.RegisterKeepsValid | backend/src/controllers/auth.controller.ts:13-51 | Registering keeps ids and e-mails unique and every account stored. |
| AuthController.RefreshAccepts | backend/src/controllers/auth.controller.ts:184-196 | A token that verifies to an account holding it is accepted. |
| AuthController.RefreshRefuses | backend/src/controllers/auth.controller.ts:186-188 | A token that verifies but is not the one the account holds is refused with a 401 and writes nothing. |
| AuthController.AppendThenRefresh | backend/src/controllers/auth.controller.ts:35-36 | An account appended with its refresh token can refresh with it. |
| AuthController.SetTokenThenRefresh | backend/src/controllers/auth.controller.ts:78-79 | After a refresh token is stored on an account, refreshing with it succeeds. |
| AuthController.RegisterThenRefresh | backend/src/controllers/auth.controller.ts:13-51 | The refresh token issued at registration is accepted. |
| AuthController.LoginThenRefresh | backend/src/controllers/auth.controller.ts:58-93 | The refresh token issued at login is accepted. |
| AuthController.RefreshRotates | backend/src/controllers/auth.controller.ts:190-196 | After a refresh, the old token is refused. |
| AuthController.LogoutRevokes | backend/src/controllers/auth.controller.ts:222-224 | After logout, no refresh token for that account is accepted. |
| AuthController.LoginKeepsValid | backend/src/controllers/auth.controller.ts:58-93 | Login keeps the collection valid. |
| AuthController.RefreshAndLogoutKeepValid | backend/src/controllers/auth.controller.ts:168-227 | Refresh and logout keep the collection valid. |
| AuthController.EditedIsStorable | backend/src/controllers/auth.controller.ts:136-148 | An edit that saves passes the schema, and its e-mail is held by no other account. |
| AuthController.ApplyProfileKeepsValid | backend/src/controllers/auth.controller.ts:135-148 | A profile update keeps ids and e-mails unique and every account stored. |
| AuthController.OwnEmailRecasedRejected | backend/src/controllers/auth.controller.ts:136-140 | As written: resubmitting one's own e-mail with different case or surrounding spaces is refused with "Email already in use", because the lookup normalizes and finds the requester. |
| AuthController.OwnEmailRecasedAccepted | backend/src/controllers/auth.controller.ts:136-142 | The corrected update accepts the same request and keeps the stored e-mail. |
| AuthController.OwnEmailRecasedExample | backend/src/controllers/auth.controller.ts:136-142 | For a store whose only account holds "a@b.c" and resubmits "A@b.c", the update as written answers 400 "Email already in use", and the corrected update succeeds with the profile unchanged. |
| OrderValidator.ToLine | backend/src/validators/order.validator.ts:8-16 | An item that passes the checks gives a line with a 24-hex-digit product id and a quantity of at least 1. |
| OrderValidator.ToLines | backend/src/validators/order.validator.ts:8-16 | One line per item, in order, every quantity at least 1. |
| OrderValidator.TrimmedValue | backend/src/validators/order.validator.ts:18-21 | A `.trim().notEmpty()` field yields its trimmed, non-empty value. |
| OrderValidator.SanitizeShipping | backend/src/validators/order.validator.ts:18-52 | The trimmed shipping fields pass the shipping schema, and the e-mail is one. |
| OrderValidator.Accept | backend/src/validators/order.validator.ts:3-73 | An accepted request gives the handler a body of at least one line, positive quantities, valid shipping, the requested method and non-negative money fields. |
| OrderValidator.Validate | backend/src/validators/order.validator.ts:3-73 | The request passes exactly when every chain passes. A failure is a 400. |
| OrderValidator.TotalNotCrossChecked | backend/src/validators/order.validator.ts:60-72 | The total is not compared with subtotal + tax + shipping: any non-negative total is accepted with the rest unchanged. |
| ProductValidator.TrimField | backend/src/validators/product.validator.ts:5-6 | The `trim()` sanitizer trims a given field and leaves an absent one absent. |
| ProductValidator.SanitizeCreate | backend/src/validators/product.validator.ts:3-43 | The create chain trims name, description, image and category, and leaves the numbers alone. |
| ProductValidator.SanitizeUpdate | backend/src/validators/product.validator.ts:45-79 | The update chain trims the name, description, image and category when they are given. |
| ProductValidator.CreateValidIsStored | backend/src/validators/product.validator.ts:3-43 | A body the corrected create validator accepts, with its two length bounds in UTF-16 code units, is stored by the product schema with the requested stock. The exception is a body whose unvalidated ratings or review count are out of range. |
| ProductValidator.InUnitsRefinesCreateValid | backend/src/validators/product.validator.ts:4-16 | The corrected validator accepts only what the validator as written accepts, and the two agree when the name and description have no astral character and no variation selector. |
| ProductValidator.CreateValidOverlongName | backend/src/validators/product.validator.ts:4-9 | As written, a name of 99 letters and an emoji passes the validator's name chain but not the corrected one. Whatever the other fields hold, the schema's `maxlength` refuses the create. |
| ProductValidator.OverlongNameLengths | backend/src/models/Product.ts:22 | That name is its own trim, 100 long for `isLength` and 101 UTF-16 code units long. |
| ProductValidator.SanitizedIsStored | backend/src/models/Product.ts:16-68 | A sanitized body meeting the schema's bounds, with lengths in UTF-16 code units, is created with its stock. |
| ProductValidator.UpdateValidatorAdmitsBlankName | backend/src/validators/product.validator.ts:46-50 | The update validator accepts a blank name, which the schema's `required` then refuses. |
| ProductValidator.UpdateKeepsValid | backend/src/validators/product.validator.ts:45-79 | A valid product patched with a body both validators accept stays valid. |
| Checkout.ShippingFee | frontend/src/pages/checkout/hooks/useCheckout.ts:36 | Shipping is free exactly from a $50 subtotal. Otherwise it is the flat $10. |
| Checkout.OrderTotal | frontend/src/pages/checkout/hooks/useCheckout.ts:35-37 | The total is subtotal + tax + $10 below $50, and exactly subtotal + tax from $50 on. |
| Checkout.ShippingMonotone | frontend/src/pages/checkout/hooks/useCheckout.ts:36 | A larger subtotal never costs more shipping. |
| Checkout.GroupDigitsStrip | frontend/src/pages/checkout/hooks/useCheckout.ts:58 | `replace(/(\d{4})/g, '$1 ')` only inserts spaces: removing whitespace afterwards gives what removing it before gives. |
| Checkout.GroupStripBlock | frontend/src/pages/checkout/hooks/useCheckout.ts:58 | The step for a leading group of four digits keeps that property. |
| Checkout.GroupStripChar | frontend/src/pages/checkout/hooks/useCheckout.ts:58 | The step for any other first character keeps that property. |
| Checkout.FormatCardNumber | frontend/src/pages/checkout/hooks/useCheckout.ts:55-60 | The formatted card number has no leading or trailing whitespace. |
| Checkout.FormatCardNumberRoundTrip | frontend/src/pages/checkout/hooks/useCheckout.ts:55-60 | Removing whitespace from the formatted number gives the input without its whitespace, so no digit is lost or added. |
| Checkout.FormatCardNumberIdempotent | frontend/src/pages/checkout/hooks/useCheckout.ts:55-60 | Formatting a formatted number changes nothing. |
| Checkout.Prefix | frontend/src/pages/checkout/hooks/useCheckout.ts:65 | `substr(0, n)` is the longest prefix of at most n characters. |
| Checkout.FormatExpiry | frontend/src/pages/checkout/hooks/useCheckout.ts:61-66 | At most 5 characters. With three or more digits, the first two digits, then `/`. With fewer, just the digits. |
| Checkout.DigitsAroundSlash | frontend/src/pages/checkout/hooks/useCheckout.ts:63-64 | Removing non-digits from digits around a `/` leaves the digits. |
| Checkout.FormatExpiryDigits | frontend/src/pages/checkout/hooks/useCheckout.ts:61-66 | The formatted expiry holds exactly the first four digits of the input. |
| Checkout.FormatExpiryIdempotent | frontend/src/pages/checkout/hooks/useCheckout.ts:61-66 | Formatting a formatted expiry changes nothing. |
| Checkout.FormatExpiryShaped | frontend/src/pages/checkout/hooks/useCheckout.ts:61-66 | The formatted expiry matches `MM/YY` exactly when the input has at least four digits. |
| Checkout.FormatCvv | frontend/src/pages/checkout/hooks/useCheckout.ts:67-69 | The CVV keeps only the first four digits of the input. |
| Checkout.FormatCvvIdempotent | frontend/src/pages/checkout/hooks/useCheckout.ts:67-69 | Formatting a formatted CVV changes nothing. |
| Checkout.FormatCvvShaped | frontend/src/pages/checkout/hooks/useCheckout.ts:67-69 | The formatted CVV matches `^\d{3,4}$` exactly when the input has at least three digits. |
| Checkout.ShippingErrorMap | frontend/src/pages/checkout/hooks/useCheckout.ts:80-91 | The shipping error map has an entry for exactly the failing fields, and for no key outside the seven. |
| Checkout.ShippingErrors | frontend/src/pages/checkout/hooks/useCheckout.ts:79-94 | Each field has an error exactly when it is blank after trimming. The e-mail also errs when it fails the loose pattern. |
| Checkout.ValidateShipping | frontend/src/pages/checkout/hooks/useCheckout.ts:79-94 | The shipping check passes exactly when every field is filled and the e-mail has the loose pattern. |
| Checkout.CountryNotChecked | frontend/src/pages/checkout/hooks/useCheckout.ts:79-94 | The country never affects the shipping check. |
| Checkout.PaymentErrorMap | frontend/src/pages/checkout/hooks/useCheckout.ts:98-106 | The payment error map has an entry for exactly the failing card fields, and no others. |
| Checkout.PaymentErrors | frontend/src/pages/checkout/hooks/useCheckout.ts:96-109 | Card number, name, expiry and CVV each err exactly when they fail their pattern or are blank. |
| Checkout.ValidatePayment | frontend/src/pages/checkout/hooks/useCheckout.ts:96-109 | PayPal always passes. A card passes exactly when all four card checks pass. |
| Checkout.FormattedCardPasses | frontend/src/pages/checkout/hooks/useCheckout.ts:55-109 | Formatted inputs with 16 card digits, a name, four expiry digits and three CVV digits pass the card check. |
| Checkout.PlaceOrder | frontend/src/pages/checkout/hooks/useCheckout.ts:111-137 | A failed shipping check shows its errors, and a failed payment check then shows its own. Only when both pass is the order appended, with the cart's total price as subtotal, the fee and the total, and the cart cleared. |
| Checkout.Placed | frontend/src/pages/checkout/hooks/useCheckout.ts:117-127 | The stored order holds the cart's lines and its total price as subtotal, and its total is subtotal + tax + shipping. |
| Checkout.PlaceOrderGate | frontend/src/pages/checkout/hooks/useCheckout.ts:111-137 | The stored orders grow exactly when both checks pass. Otherwise orders and cart are untouched. |
| Checkout.PaymentIgnoredWhenShippingFails | frontend/src/pages/checkout/hooks/useCheckout.ts:113 | When shipping fails, the payment method and fields make no difference. |
| Pagination.OrDefault | backend/src/controllers/product.controller.ts:13-14 | `parseInt(q)` falling back to `d`: a given non-zero number is used, and an absent or zero one falls back to the default. |
| Pagination.CeilDiv | backend/src/controllers/product.controller.ts:72 | `Math.ceil(a / b)` for either sign of a non-zero divisor. |
| Pagination.CeilBounds | backend/src/controllers/product.controller.ts:72 | The rounding-up step for a positive divisor. |
| Pagination.FloorBounds | backend/src/controllers/product.controller.ts:72 | The rounding-up step for a negative divisor. |
| Pagination.Window | backend/src/controllers/product.controller.ts:61 | `.skip(s).limit(l)`: refused exactly for a negative skip. Past the end it is empty. Otherwise it is the slice starting at the skip, at most the limit's magnitude long, and non-empty. |
| Pagination.Paginate | backend/src/controllers/product.controller.ts:13-73 | The page and limit default to 1 and the route's default, and the skip is `(page - 1) * limit`. The page info carries the count of all items and `ceil(total / limit)`. |
| Pagination.PageOfSorted | backend/src/controllers/product.controller.ts:61 | A page cut from a sorted list is sorted. |
| Pagination.PageOfIndex | backend/src/controllers/product.controller.ts:15-61 | With a positive limit, item i lies in page p's window exactly when p is `i / limit + 1`, and then at position `i % limit`. |
| Pagination.IndexPage | backend/src/controllers/product.controller.ts:13-15 | With a positive limit, the skip `(page - 1) * limit` is not negative, and index i is among the `limit` positions after it exactly on page `i / limit + 1`, at offset `i % limit`. |
| Pagination.PagesAreExact | backend/src/controllers/product.controller.ts:61-72 | With a positive limit, every page up to `pages` is non-empty and every page beyond it is empty. |
| Sorting.SortBy | backend/src/controllers/product.controller.ts:61 | The sorted list is a permutation of the input, ordered by the comparison when it is a total preorder. |
| Sorting.InsertSorted | backend/src/controllers/product.controller.ts:61 | Inserting into a sorted list keeps it sorted. |
| Sorting.SortedSlice | backend/src/controllers/product.controller.ts:61 | A slice of a sorted list is sorted. |
| Text.Trim | backend/src/validators/product.validator.ts:5 | `trim()`: the result has no surrounding whitespace, and it is empty exactly when the input is all whitespace. |
| Text.Utf16Length | frontend/src/utils/validation/authValidation.ts:12 | JavaScript's `length`: between the number of characters and twice that, and equal to it exactly when no character is astral. |
| Text.Utf16LengthAppend | frontend/src/utils/validation/authValidation.ts:12 | The code-unit length of a concatenation is the sum of the parts' lengths. |
| Text.IsLengthCount | backend/src/validators/product.validator.ts:8 | `isLength`'s count is at most the number of characters, and equal to it exactly when no character is a variation selector. |
| Text.IsLengthCountAppend | backend/src/validators/product.validator.ts:8 | `isLength`'s count of a concatenation is the sum of the parts' counts. |
| Text.LengthsAgree | backend/src/validators/product.validator.ts:8 | `isLength`'s count never exceeds the character count, which never exceeds the code-unit length, and all three agree exactly on text with no astral character and no variation selector. |
| Text.TrimIdempotent | backend/src/validators/product.validator.ts:5 | Trimming twice is trimming once. |
| Text.StripSpaces | frontend/src/pages/checkout/hooks/useCheckout.ts:57 | `replace(/\s/g, '')` keeps exactly the characters that are not whitespace. |
| Text.StripTrim | frontend/src/pages/checkout/hooks/useCheckout.ts:57-59 | Trimming first makes no difference to removing whitespace. |
| Text.DigitsOnly | frontend/src/pages/checkout/hooks/useCheckout.ts:63 | `replace(/\D/g, '')` keeps exactly the digits, in order. |
| Text.Lower | frontend/src/context/ProductProvider.tsx:66 | `toLowerCase` maps each ASCII capital to its small letter and leaves every other character alone. |
| Text.LowerIdempotent | frontend/src/context/ProductProvider.tsx:66 | Lower-casing twice is lower-casing once. |
| Text.Includes | frontend/src/context/ProductProvider.tsx:82-83 | `includes`: true exactly when the needle occurs at some index. |
| Text.LexTotal | backend/src/controllers/product.controller.ts:50-56 | Name order is total. |
| Text.LexTransitive | backend/src/controllers/product.controller.ts:50-56 | Name order is transitive. |
| Seqs.FindIndex | frontend/src/context/CartProvider.tsx:73 | `find`: the first position satisfying the test, or none exactly when no element does. |
| Seqs.Filter | frontend/src/context/CartProvider.tsx:96 | `filter`: the kept elements pass the test, and an element is kept exactly when it occurs and passes. |
| Seqs.FilterAppend | frontend/src/context/CartProvider.tsx:96 | Filtering a concatenation filters each part. |
| Seqs.FilterMultiset | frontend/src/context/ProductProvider.tsx:65-67 | Filtering keeps each passing element as often as it occurs, and none of the others. |
| Seqs.FilterRemovesOne | backend/src/controllers/product.controller.ts:173 | Filtering out one element leaves the others, in order. |
| Seqs.Distinct | frontend/src/context/ProductProvider.tsx:95-96 | `Array.from(new Set(xs))`: each element once, in order of first appearance. |
| Errors.Status | backend/src/controllers/cart.controller.ts:42-50 | Each error answers with its own status. Only an internal error is a 5xx, and 400 is exactly the stock and validation errors. |

## Left out

- `getMe` (backend/src/controllers/auth.controller.ts:100-118) only reads the caller's own record back; it has no logic beyond the lookup that `UpdateProfile` already models.
- Social sign-in, Firebase sign-in, passport set-up and the auth request validator are not part of this model.
- JWT signing and verification, and bcrypt hashing and comparison, are parameters: issued tokens are given to each handler, `verify` maps a token to the account it names, and `matches` compares a password with a stored hash.
- AuthController.RefreshRotates: requires the newly issued refresh token to differ from the old one. Two tokens signed for the same account within the same second may be equal strings, and then the old token stays usable.
- Tax is computed in floating point (10% of the subtotal, rounded for display); it is a parameter in cents, and no claim is made about rounding.
- Prices are integer cents. A price with a fraction of a cent, which the validators would accept, is not representable.
- MongoDB I/O, `populate`, and the order in which the database returns documents that tie on the sort key are left out. Ties keep their stored order here.
- The `$text` full-text search is a parameter deciding whether a search term matches a product.
- Express-validator's `isEmail` and `isURL` are parameters. `isMongoId` is modelled as its shape, twenty-four hexadecimal digits.
- A malformed id that Mongoose would reject with a cast error is not modelled: the cast keeps it as it is, so it finds nothing and the handler answers 404 where the server would answer with the cast error.
- `parseFloat` giving `NaN` for a price bound is not modelled: a price bound arrives already parsed, or absent.
- CartController.AddKeepsCartsValid: states the cart invariant for the corrected handler, which matches the cart line by the stored id. For `addToCart` as written it holds only for an id spelled as stored (`AddAsWrittenKeepsCartsValid`); see Findings.
- CartController.RemoveUndoesAdd: removes by the stored id. A removal by an upper-case spelling compares raw strings and removes nothing.
- Concurrent requests are left out. Every handler is one atomic step, so the check-then-decrement race between two orders does not arise.
- Browser storage, JSON parsing of stored values, navigation, `setTimeout` delays, `Date.now()` order ids and ISO date strings are parameters or left out. In the order history, dates are timestamps in milliseconds, and an unparsable date is not modelled.
- OrderHistory.LoadOrders: states the order and the permutation, but not which of two orders with the same timestamp comes first.
- zod's own e-mail check is a parameter of the sign-up validation. Issues are produced in schema order, with the password-match refinement last. As in zod 3, a failed length or format check does not stop the refinement from running.
- `toLowerCase` folds ASCII letters only; other scripts' case mappings are not modelled.
- Strings are sequences of Unicode scalar values. A lone surrogate, which a JavaScript string can hold, is not representable, so code-unit lengths are counted for well-formed text only.
- The wishlist context is not part of this model; the product page's wishlist is a list with membership by product id.
- An update body that names a field with an explicit `undefined` value is treated like one that leaves the field out.
- CartPage.HandleIncrease: for a quantity passed in below zero, only the removal that `updateQuantity` then performs is stated, not the position of the remaining lines.
- Rendering, styling, the checkout page's duplicate of the checkout hook, and the profile, login and register form hooks are left out. The form hooks only wire the validators above to inputs.
- Server set-up, routes, `asyncHandler`, `ApiResponse` and the seed and mock product data are left out.

## Findings

| source | as written | input that shows it | evidently intended | confidence | as-written member | corrected member |
|---|---|---|---|---|---|---|
| backend/src/controllers/order.controller.ts:21-29 | Each order line is checked against the product's stock on its own, and then every line's quantity is taken off. | A product with stock 1, ordered as two lines of one unit each: the order is placed and the stock becomes -1. | Check the total quantity the order asks of each product against its stock. | not executed | OrderController.DuplicateLinesOversell | OrderController.CreateOrderChecked |
| backend/src/validators/product.validator.ts:8-16 | The create validator bounds the trimmed name by 100 and the description by 2000 with `isLength`, which counts code points and skips the variation selectors U+FE0E and U+FE0F. The schema's `maxlength` at Product.ts:22 and 27 counts UTF-16 code units. | A name of 99 letters and an emoji: 100 for `isLength` and 101 code units, so the validator passes a body the schema then refuses. | The validator passes only bodies the schema stores; its messages repeat the schema's bounds. | not executed | ProductValidator.CreateValidOverlongName | ProductValidator.CreateValidIsStored |
| backend/src/controllers/cart.controller.ts:42-82 | The product is found by `findById`, which reads an id's hexadecimal digits in either case, but the cart line is matched by comparing the stored product id with the request's string. | A cart holding one unit of a product, and `addToCart` with the product's id in upper case: the product is found, no line matches, and a second line for the same product is saved. | Match the cart line by the found product's id, so every spelling of the id reaches the same line. | not executed | CartController.AddDuplicatesLine | CartController.AddToCartByStoredId |
| backend/src/controllers/auth.controller.ts:136-142 | The new e-mail is compared with the caller's stored one as typed, but the lookup for another holder normalizes it (trimmed, lower-case). | The caller's own address in different case or with surrounding spaces: the answer is 400 "Email already in use", because the lookup finds the caller. | Compare the normalized address, so the caller's own address is never "in use". | not executed | AuthController.OwnEmailRecasedExample | AuthController.UpdateProfileNormalized |

=== FILE: auth_controller.dfy ===
/** The account handlers of `controllers/auth.controller.ts` over a store of accounts. JWT signing
    and verification and bcrypt stay opaque: the tokens a handler issues are parameters, token
    verification is a function from a token to the account id it names (or nothing, for a bad
    signature or an expired token), and the password check is a function from a candidate and
    the stored hash to a verdict. */
module AuthController {
  import opened Wrappers
  import opened Text
  import opened Errors
  import opened UserModel

  /** The public part of an account that the handlers answer with. */
  datatype Profile = Profile(id: UserId, name: string, email: string, role: Role)

  /** A freshly issued access token and refresh token. */
  datatype Tokens = Tokens(access: string, refresh: string)

  /** The body of a successful register or login. */
  datatype Session = Session(user: Profile, token: string, refreshToken: string)

  /** The account store after a handler, and what the handler answers. */
  datatype Reply<T> = Reply(users: seq<User>, answer: Result<T, Error>)

  function ProfileOf(u: User): (p: Profile)
    ensures p.id == u.id && p.name == u.name && p.email == u.email && p.role == u.role
  {
    Profile(u.id, u.name, u.email, u.role)
  }

  /** The schema checks `User.create` runs on a new account: a name and an email left non-empty
      by their setters, and a password of at least six UTF-16 code units, as `minlength` counts
      them (checked before hashing). */
  predicate Registrable(name: string, email: string, password: string) {
    Trim(name) != [] && NormalizeEmail(email) != [] && Utf16Length(password) >= MinPasswordLength
  }

  /** `register`: a 400 when an account already holds the email; otherwise the account is
      created with the role `user` and the issued refresh token stored on it. `id` is the fresh
      document id and `hashed` the bcrypt hash of `password`. */
  function Register(us: seq<User>, name: string, email: string, password: string,
                    id: UserId, hashed: string, issued: Tokens): (r: Reply<Session>)
    requires FindById(us, id).None?
    ensures FindByEmail(us, email).Some? ==> r == Reply(us, Err(BadRequest("User already exists with this email")))
    ensures r.answer.Ok? <==> FindByEmail(us, email).None? && Registrable(name, email, password)
    ensures r.answer.Err? ==> r.users == us && r.answer.error.BadRequest?
    ensures r.answer.Ok? ==>
      && |r.users| == |us| + 1 && r.users[..|us|] == us
      && r.users[|us|] == User(id, Trim(name), NormalizeEmail(email), hashed, Customer, Some(issued.refresh))
      && r.answer.value == Session(ProfileOf(r.users[|us|]), issued.access, issued.refresh)
  {
    if FindByEmail(us, email).Some? then
      Reply(us, Err(BadRequest("User already exists with this email")))
    else if !Registrable(name, email, password) then
      Reply(us, Err(BadRequest("User validation failed")))
    else
      var u := User(id, Trim(name), NormalizeEmail(email), hashed, Customer, Some(issued.refresh));
      assert (us + [u])[..|us|] == us;
      Reply(us + [u], Ok(Session(ProfileOf(u), issued.access, issued.refresh)))
  }

  /** `login`: an unknown email and a wrong password both give the same 401; a success stores the
      newly issued refresh token in place of the old one. */
  function Login(us: seq<User>, email: string, password: string,
                 matches: (string, string) -> bool, issued: Tokens): (r: Reply<Session>)
    ensures r.answer.Ok? <==> FindByEmail(us, email).Some? && matches(password, us[FindByEmail(us, email).value].password)
    ensures r.answer.Err? ==> r == Reply(us, Err(Unauthorized("Invalid credentials")))
    ensures r.answer.Ok? ==> var k := FindByEmail(us, email).value;
      && r.users == us[k := us[k].(refreshToken := Some(issued.refresh))]
      && r.answer.value == Session(ProfileOf(us[k]), issued.access, issued.refresh)
  {
    match FindByEmail(us, email)
    case None => Reply(us, Err(Unauthorized("Invalid credentials")))
    case Some(k) =>
      if !matches(password, us[k].password) then Reply(us, Err(Unauthorized("Invalid credentials")))
      else
        var u := us[k].(refreshToken := Some(issued.refresh));
        Reply(us[k := u], Ok(Session(ProfileOf(u), issued.access, issued.refresh)))
  }

  /** The account after the profile fields are applied: the email when `changing`, the name when
      one is given; `None` when the result fails the schema's required checks. */
  function Edited(u: User, name: Option<string>, email: Option<string>, changing: bool): (r: Option<User>)
    requires changing ==> Given(email)
    ensures r.Some? ==> r.value.id == u.id && r.value.password == u.password && r.value.role == u.role
    ensures r.Some? ==> r.value.refreshToken == u.refreshToken
    ensures r.Some? ==> r.value.email == (if changing then NormalizeEmail(email.value) else u.email)
    ensures r.Some? ==> r.value.name == (if Given(name) then Trim(name.value) else u.name)
    ensures r.Some? <==> (if Given(name) then Trim(name.value) else u.name) != []
                         && (if changing then NormalizeEmail(email.value) else u.email) != []
  {
    var withEmail := if changing then u.(email := NormalizeEmail(email.value)) else u;
    var edited := if Given(name) then withEmail.(name := Trim(name.value)) else withEmail;
    if edited.name == [] || edited.email == [] then None else Some(edited)
  }

  /** The shared part of both profile updates, once the handler has decided whether the email is
      being changed: a 400 when a changed email is held by an account, else the edit and save. */
  function ApplyProfile(us: seq<User>, k: nat, name: Option<string>, email: Option<string>, changing: bool): (r: Reply<Profile>)
    requires k < |us|
    requires changing ==> Given(email)
    ensures changing && FindByEmail(us, email.value).Some? ==> r == Reply(us, Err(BadRequest("Email already in use")))
    ensures r.answer.Err? ==> r.users == us && r.answer.error.BadRequest?
    ensures r.answer.Ok? <==> !(changing && FindByEmail(us, email.value).Some?) && Edited(us[k], name, email, changing).Some?
    ensures r.answer.Ok? ==> var u := Edited(us[k], name, email, changing).value;
      r.users == us[k := u] && r.answer.value == ProfileOf(u)
  {
    if changing && FindByEmail(us, email.value).Some? then
      Reply(us, Err(BadRequest("Email already in use")))
    else match Edited(us[k], name, email, changing)
      case None => Reply(us, Err(BadRequest("User validation failed")))
      case Some(u) => Reply(us[k := u], Ok(ProfileOf(u)))
  }

  /** `updateProfile` as written: the email counts as changed when the submitted string differs
      from the stored one character for character. */
  function UpdateProfile(us: seq<User>, me: UserId, name: Option<string>, email: Option<string>): (r: Reply<Profile>)
    ensures FindById(us, me).None? <==> r == Reply(us, Err(NotFound("User not found")))
    ensures r.answer.Err? ==> r.users == us
    ensures |r.users| == |us|
    ensures FindById(us, me).Some? ==> var k := FindById(us, me).value;
      var changing := Given(email) && email.value != us[k].email;
      && (r.answer == Err(BadRequest("Email already in use")) <==> changing && FindByEmail(us, email.value).Some?)
      && (r.answer.Ok? ==> r.users == us[k := r.users[k]] && r.answer.value == ProfileOf(r.users[k]))
      && (r.answer.Ok? ==> r.users[k].email == if changing then NormalizeEmail(email.value) else us[k].email)
      && (r.answer.Ok? ==> r.users[k].name == if Given(name) then Trim(name.value) else us[k].name)
      && (r.answer.Ok? ==> r.users[k] == us[k].(name := r.users[k].name, email := r.users[k].email))
  {
    match FindById(us, me)
    case None => Reply(us, Err(NotFound("User not found")))
    case Some(k) => ApplyProfile(us, k, name, email, Given(email) && email.value != us[k].email)
  }

  /** `updateProfile` with the comparison made after the email setters, so an email that only
      differs from the stored one in letter case or surrounding spaces counts as unchanged. */
  function UpdateProfileNormalized(us: seq<User>, me: UserId, name: Option<string>, email: Option<string>): (r: Reply<Profile>)
    ensures FindById(us, me).None? <==> r == Reply(us, Err(NotFound("User not found")))
    ensures r.answer.Err? ==> r.users == us
    ensures |r.users| == |us|
    ensures FindById(us, me).Some? ==> var k := FindById(us, me).value;
      var changing := Given(email) && NormalizeEmail(email.value) != us[k].email;
      && (r.answer == Err(BadRequest("Email already in use")) <==> changing && FindByEmail(us, email.value).Some?)
      && (r.answer.Ok? ==> r.users == us[k := r.users[k]] && r.answer.value == ProfileOf(r.users[k]))
      && (r.answer.Ok? ==> r.users[k].email == if changing then NormalizeEmail(email.value) else us[k].email)
      && (r.answer.Ok? ==> r.users[k].name == if Given(name) then Trim(name.value) else us[k].name)
      && (r.answer.Ok? ==> r.users[k] == us[k].(name := r.users[k].name, email := r.users[k].email))
  {
    match FindById(us, me)
    case None => Reply(us, Err(NotFound("User not found")))
    case Some(k) => ApplyProfile(us, k, name, email, Given(email) && NormalizeEmail(email.value) != us[k].email)
  }

  /** `refreshToken`: a 400 when no token is sent; a 401 when it does not verify, names no
      account, or is not the one stored on that account; otherwise a new pair is issued and the
      new refresh token replaces the stored one. */
  function RefreshToken(us: seq<User>, token: Option<string>, verify: string -> Option<UserId>, issued: Tokens): (r: Reply<Tokens>)
    ensures !Given(token) <==> r == Reply(us, Err(BadRequest("Refresh token is required")))
    ensures r.answer.Err? ==> r.users == us
    ensures Given(token) && r.answer.Err? ==> r.answer.error == Unauthorized("Invalid or expired refresh token")
    ensures r.answer.Ok? <==>
      && Given(token) && verify(token.value).Some?
      && FindById(us, verify(token.value).value).Some?
      && us[FindById(us, verify(token.value).value).value].refreshToken == Some(token.value)
    ensures r.answer.Ok? ==> var k := FindById(us, verify(token.value).value).value;
      r.users == us[k := us[k].(refreshToken := Some(issued.refresh))] && r.answer.value == issued
  {
    if !Given(token) then Reply(us, Err(BadRequest("Refresh token is required")))
    else
      var rejected := Reply(us, Err(Unauthorized("Invalid or expired refresh token")));
      match verify(token.value)
      case None => rejected
      case Some(id) =>
        match FindById(us, id)
        case None => rejected
        case Some(k) =>
          if us[k].refreshToken != Some(token.value) then rejected
          else Reply(us[k := us[k].(refreshToken := Some(issued.refresh))], Ok(issued))
  }

  /** `logout`: the account's refresh token is cleared. */
  function Logout(us: seq<User>, me: UserId): (r: Reply<()>)
    ensures FindById(us, me).None? <==> r == Reply(us, Err(NotFound("User not found")))
    ensures FindById(us, me).Some? ==> r.answer.Ok?
    ensures r.answer.Ok? ==> var k := FindById(us, me).value;
      r.users == us[k := us[k].(refreshToken := None)]
  {
    match FindById(us, me)
    case None => Reply(us, Err(NotFound("User not found")))
    case Some(k) => Reply(us[k := us[k].(refreshToken := None)], Ok(()))
  }

  /** Registering keeps the store valid: the new account's id and email are not held yet. */
  lemma RegisterKeepsValid(us: seq<User>, name: string, email: string, password: string,
                           id: UserId, hashed: string, issued: Tokens)
    requires Valid(us) && FindById(us, id).None?
    ensures Valid(Register(us, name, email, password, id, hashed, issued).users)
  {
    if FindByEmail(us, email).None? && Registrable(name, email, password) {
      var u := User(id, Trim(name), NormalizeEmail(email), hashed, Customer, Some(issued.refresh));
      NormalizeIdempotent(email);
      TrimmedIsFixed(Trim(name));
      AppendKeepsValid(us, u);
    }
  }

  /** A refresh presenting the token stored on the first account with the id it verifies as is
      accepted. */
  lemma RefreshAccepts(us: seq<User>, k: nat, t: string, verify: string -> Option<UserId>, next: Tokens)
    requires k < |us| && t != [] && verify(t) == Some(us[k].id)
    requires forall j :: 0 <= j < k ==> us[j].id != us[k].id
    requires us[k].refreshToken == Some(t)
    ensures RefreshToken(us, Some(t), verify, next).answer.Ok?
  {
    FindIdAt(us, us[k].id, k);
  }

  /** A refresh whose token verifies as the first account with that id, but is not the token
      stored there, is refused. */
  lemma RefreshRefuses(us: seq<User>, k: nat, t: string, verify: string -> Option<UserId>, next: Tokens)
    requires k < |us| && t != [] && verify(t) == Some(us[k].id)
    requires forall j :: 0 <= j < k ==> us[j].id != us[k].id
    requires us[k].refreshToken != Some(t)
    ensures RefreshToken(us, Some(t), verify, next) == Reply(us, Err(Unauthorized("Invalid or expired refresh token")))
  {
    FindIdAt(us, us[k].id, k);
  }

  /** An account appended with a refresh token under an id not held yet can refresh with it. */
  lemma AppendThenRefresh(us: seq<User>, u: User, verify: string -> Option<UserId>, next: Tokens)
    requires FindById(us, u.id).None?
    requires u.refreshToken.Some? && u.refreshToken.value != [] && verify(u.refreshToken.value) == Some(u.id)
    ensures RefreshToken(us + [u], u.refreshToken, verify, next).answer.Ok?
  {
    var after := us + [u];
    assert forall j :: 0 <= j < |us| ==> after[j] == us[j];
    RefreshAccepts(after, |us|, u.refreshToken.value, verify, next);
  }

  /** With unique ids, an account whose refresh token is set to `t` can refresh with it. */
  lemma SetTokenThenRefresh(us: seq<User>, k: nat, t: string, verify: string -> Option<UserId>, next: Tokens)
    requires UniqueIds(us) && k < |us|
    requires t != [] && verify(t) == Some(us[k].id)
    ensures RefreshToken(us[k := us[k].(refreshToken := Some(t))], Some(t), verify, next).answer.Ok?
  {
    var after := us[k := us[k].(refreshToken := Some(t))];
    assert forall j :: 0 <= j < |after| ==> after[j].id == us[j].id;
    RefreshAccepts(after, k, t, verify, next);
  }

  /** The refresh token a registration answers with is the one stored: presenting it, while it
      still verifies as the new account's, is accepted. */
  lemma RegisterThenRefresh(us: seq<User>, name: string, email: string, password: string,
                            id: UserId, hashed: string, issued: Tokens,
                            verify: string -> Option<UserId>, next: Tokens)
    requires FindById(us, id).None?
    requires Register(us, name, email, password, id, hashed, issued).answer.Ok?
    requires issued.refresh != [] && verify(issued.refresh) == Some(id)
    ensures RefreshToken(Register(us, name, email, password, id, hashed, issued).users,
                         Some(issued.refresh), verify, next).answer.Ok?
  {
    var u := User(id, Trim(name), NormalizeEmail(email), hashed, Customer, Some(issued.refresh));
    AppendThenRefresh(us, u, verify, next);
  }

  /** The same holds for the refresh token a login answers with. */
  lemma LoginThenRefresh(us: seq<User>, email: string, password: string,
                         matches: (string, string) -> bool, issued: Tokens,
                         verify: string -> Option<UserId>, next: Tokens)
    requires UniqueIds(us)
    requires Login(us, email, password, matches, issued).answer.Ok?
    requires issued.refresh != []
    requires verify(issued.refresh) == Some(Login(us, email, password, matches, issued).answer.value.user.id)
    ensures RefreshToken(Login(us, email, password, matches, issued).users,
                         Some(issued.refresh), verify, next).answer.Ok?
  {
    SetTokenThenRefresh(us, FindByEmail(us, email).value, issued.refresh, verify, next);
  }

  /** Rotation: once a refresh succeeds, the token it was given is refused from then on (as long
      as the newly issued token is a different string). */
  lemma RefreshRotates(us: seq<User>, t: string, verify: string -> Option<UserId>, issued: Tokens, next: Tokens)
    requires RefreshToken(us, Some(t), verify, issued).answer.Ok?
    requires issued.refresh != t
    ensures RefreshToken(RefreshToken(us, Some(t), verify, issued).users, Some(t), verify, next)
            == Reply(RefreshToken(us, Some(t), verify, issued).users, Err(Unauthorized("Invalid or expired refresh token")))
  {
    var k := FindById(us, verify(t).value).value;
    var after := us[k := us[k].(refreshToken := Some(issued.refresh))];
    assert RefreshToken(us, Some(t), verify, issued).users == after;
    assert forall j :: 0 <= j < |after| ==> after[j].id == us[j].id;
    RefreshRefuses(after, k, t, verify, next);
  }

  /** After a logout no refresh token that names the account is accepted. */
  lemma LogoutRevokes(us: seq<User>, me: UserId, t: Option<string>, verify: string -> Option<UserId>, next: Tokens)
    requires Logout(us, me).answer.Ok?
    requires Given(t) && verify(t.value) == Some(me)
    ensures RefreshToken(Logout(us, me).users, t, verify, next).answer.Err?
  {
    var k := FindById(us, me).value;
    var after := us[k := us[k].(refreshToken := None)];
    assert Logout(us, me).users == after;
    assert forall j :: 0 <= j < |after| ==> after[j].id == us[j].id;
    RefreshRefuses(after, k, t.value, verify, next);
  }

  /** A successful login keeps the store valid: only a refresh token changes. */
  lemma LoginKeepsValid(us: seq<User>, email: string, password: string, matches: (string, string) -> bool, issued: Tokens)
    requires Valid(us)
    ensures Valid(Login(us, email, password, matches, issued).users)
  {
    if Login(us, email, password, matches, issued).answer.Ok? {
      SetTokenKeepsValid(us, FindByEmail(us, email).value, Some(issued.refresh));
    }
  }

  /** Refresh and logout only touch refresh tokens, so they keep the store valid. */
  lemma RefreshAndLogoutKeepValid(us: seq<User>, token: Option<string>, verify: string -> Option<UserId>,
                                  issued: Tokens, me: UserId)
    requires Valid(us)
    ensures Valid(RefreshToken(us, token, verify, issued).users)
    ensures Valid(Logout(us, me).users)
  {
    if RefreshToken(us, token, verify, issued).answer.Ok? {
      SetTokenKeepsValid(us, FindById(us, verify(token.value).value).value, Some(issued.refresh));
    }
    if Logout(us, me).answer.Ok? {
      SetTokenKeepsValid(us, FindById(us, me).value, None);
    }
  }

  /** The edited account is well formed and holds an email no other account holds, whenever
      the email is either unchanged or was found free. */
  lemma EditedIsStorable(us: seq<User>, k: nat, name: Option<string>, email: Option<string>, changing: bool)
    requires Valid(us) && k < |us|
    requires changing ==> Given(email) && FindByEmail(us, email.value).None?
    requires Edited(us[k], name, email, changing).Some?
    ensures Stored(Edited(us[k], name, email, changing).value)
    ensures forall i :: 0 <= i < |us| && i != k ==> us[i].email != Edited(us[k], name, email, changing).value.email
  {
    var u := Edited(us[k], name, email, changing).value;
    assert Stored(us[k]);
    if changing {
      NormalizeIdempotent(email.value);
    }
    if Given(name) {
      TrimmedIsFixed(Trim(name.value));
    }
  }

  /** A profile update keeps emails unique and every account well formed, in either reading of
      "the email is being changed". */
  lemma ApplyProfileKeepsValid(us: seq<User>, k: nat, name: Option<string>, email: Option<string>, changing: bool)
    requires Valid(us) && k < |us|
    requires changing ==> Given(email)
    ensures Valid(ApplyProfile(us, k, name, email, changing).users)
  {
    if !(changing && FindByEmail(us, email.value).Some?) && Edited(us[k], name, email, changing).Some? {
      EditedIsStorable(us, k, name, email, changing);
      ReplaceKeepsValid(us, k, Edited(us[k], name, email, changing).value);
    }
  }

  /** As written, resubmitting one's own email in another letter case (or with surrounding
      spaces) is refused as "already in use": the raw string differs from the stored one, and
      the lookup, which normalizes, then finds the requester's own account. */
  lemma OwnEmailRecasedRejected(us: seq<User>, me: UserId, name: Option<string>, e: string)
    requires FindById(us, me).Some?
    requires e != us[FindById(us, me).value].email
    requires NormalizeEmail(e) == us[FindById(us, me).value].email
    ensures UpdateProfile(us, me, name, Some(e)) == Reply(us, Err(BadRequest("Email already in use")))
  {
    var k := FindById(us, me).value;
    assert FindByEmail(us, e).Some?;
  }

  /** With the comparison made after normalization, resubmitting one's own email in any case is
      not a change: the update succeeds whenever the name is acceptable, and the email stays. */
  lemma OwnEmailRecasedAccepted(us: seq<User>, me: UserId, name: Option<string>, e: string)
    requires Valid(us) && FindById(us, me).Some?
    requires NormalizeEmail(e) == us[FindById(us, me).value].email
    requires !Given(name) || Trim(name.value) != []
    ensures UpdateProfileNormalized(us, me, name, Some(e)).answer.Ok?
    ensures UpdateProfileNormalized(us, me, name, Some(e)).answer.value.email == us[FindById(us, me).value].email
  {
    var k := FindById(us, me).value;
    assert Stored(us[k]);
  }

  /** The address "a@b.c" and its recased spelling "A@b.c" normalize to the same stored
      address. */
  lemma RecasedSpellings(low: string, up: string)
    requires low == "a@b.c" && up == "A@b.c"
    ensures NormalizeEmail(low) == low && NormalizeEmail(up) == low
  {
    assert !IsSpace(low[0]) && !IsSpace(low[4]) && !IsSpace(up[0]);
    TrimmedIsFixed(low);
    TrimmedIsFixed(up);
    LowerSpelling(low);
    LowerSpelling(up);
  }

  lemma LowerSpelling(s: string)
    requires s == "a@b.c" || s == "A@b.c"
    ensures Lower(s) == "a@b.c"
  {
    var r := Lower(s);
    assert LowerChar('A') == 'a';
    assert r[0] == 'a' && r[1] == '@' && r[2] == 'b' && r[3] == '.' && r[4] == 'c';
  }

  /** A concrete case that shows both halves: the only account, holding "a@b.c", resubmits its
      own address as "A@b.c". As written the update is refused; corrected it succeeds and keeps
      the address. */
  lemma OwnEmailRecasedExample(u: User, e: string)
    requires u.name != [] && Trimmed(u.name) && u.email == "a@b.c" && e == "A@b.c"
    ensures UpdateProfile([u], u.id, None, Some(e)) == Reply([u], Err(BadRequest("Email already in use")))
    ensures UpdateProfileNormalized([u], u.id, None, Some(e)).answer == Ok(ProfileOf(u))
  {
    var us := [u];
    assert Valid(us) && FindById(us, u.id) == Some(0) && e != u.email && NormalizeEmail(e) == u.email by {
      RecasedSpellings(u.email, e);
      assert e[0] != u.email[0];
      assert Stored(us[0]);
      FindOwnId(us, 0);
    }
    OwnEmailRecasedRejected(us, u.id, None, e);
    OwnEmailRecasedAccepted(us, u.id, None, e);
  }
}

=== FILE: auth_provider.dfy ===
/** The storefront's session context (`context/AuthProvider.tsx`): the signed-in user record, or
    none, and the token kept in browser storage beside it. */
module AuthProvider {
  import opened Wrappers

  /** The session's user record (`AuthContext.User`): the optional contact fields are `None` when
      absent. */
  datatype SessionUser = SessionUser(
    id: string,
    name: string,
    email: string,
    phone: Option<string>,
    address: Option<string>,
    city: Option<string>,
    state: Option<string>,
    zipCode: Option<string>)

  /** A `Partial<User>`: each field `None` when the update does not supply it. */
  datatype Patch = Patch(
    id: Option<string>,
    name: Option<string>,
    email: Option<string>,
    phone: Option<string>,
    address: Option<string>,
    city: Option<string>,
    state: Option<string>,
    zipCode: Option<string>)

  /** The provider's state: the user, and the `token` entry of browser storage. */
  datatype Session = Session(user: Option<SessionUser>, token: Option<string>)

  /** `isAuthenticated`: `!!user`. */
  predicate IsAuthenticated(s: Session) {
    s.user.Some?
  }

  /** A fresh session: no stored user and no stored token. The provider mounts in this state only
      when the browser's storage holds neither from an earlier visit. */
  const Initial: Session := Session(None, None)

  /** `login`: the given record becomes the user and the token is stored. */
  function Login(s: Session, u: SessionUser, token: string): (r: Session)
    ensures IsAuthenticated(r) && r.user == Some(u) && r.token == Some(token)
  {
    Session(Some(u), Some(token))
  }

  /** A supplied field wins over the current one. */
  function Pick<T>(supplied: Option<T>, current: T): T {
    if supplied.Some? then supplied.value else current
  }

  /** A supplied optional field wins over the current one. */
  function PickOpt<T>(supplied: Option<T>, current: Option<T>): Option<T> {
    if supplied.Some? then supplied else current
  }

  /** `{ ...prev, ...userData }`. */
  function Merge(u: SessionUser, p: Patch): SessionUser {
    SessionUser(
      Pick(p.id, u.id), Pick(p.name, u.name), Pick(p.email, u.email),
      PickOpt(p.phone, u.phone), PickOpt(p.address, u.address), PickOpt(p.city, u.city),
      PickOpt(p.state, u.state), PickOpt(p.zipCode, u.zipCode))
  }

  /** `updateUser`: the supplied fields overwrite the user's, the rest stay; signed out, nothing
      changes. The stored token is untouched. */
  function UpdateUser(s: Session, p: Patch): (r: Session)
    ensures r.token == s.token
    ensures IsAuthenticated(r) <==> IsAuthenticated(s)
    ensures s.user.None? ==> r == s
    ensures s.user.Some? ==> Agrees(r.user.value, s.user.value, p)
  {
    match s.user
    case None => s
    case Some(u) => Session(Some(Merge(u, p)), s.token)
  }

  /** `v` is `u` with exactly the fields `p` supplies replaced. */
  predicate Agrees(v: SessionUser, u: SessionUser, p: Patch) {
    && v.id == (if p.id.Some? then p.id.value else u.id)
    && v.name == (if p.name.Some? then p.name.value else u.name)
    && v.email == (if p.email.Some? then p.email.value else u.email)
    && v.phone == (if p.phone.Some? then p.phone else u.phone)
    && v.address == (if p.address.Some? then p.address else u.address)
    && v.city == (if p.city.Some? then p.city else u.city)
    && v.state == (if p.state.Some? then p.state else u.state)
    && v.zipCode == (if p.zipCode.Some? then p.zipCode else u.zipCode)
  }

  /** Applying the same update twice is applying it once. */
  lemma UpdateIdempotent(s: Session, p: Patch)
    ensures UpdateUser(UpdateUser(s, p), p) == UpdateUser(s, p)
  {
  }

  /** An update that supplies nothing changes nothing. */
  lemma EmptyUpdateKeeps(s: Session)
    ensures UpdateUser(s, Patch(None, None, None, None, None, None, None, None)) == s
  {
  }

  /** `logout`: the user and the stored token are cleared. */
  function Logout(s: Session): (r: Session)
    ensures !IsAuthenticated(r) && r.token.None?
  {
    Initial
  }

  /** Signing in and then out leaves a fresh session, and an update made while signed out does not
      sign anyone in. */
  lemma LogoutUndoesLogin(s: Session, u: SessionUser, token: string, p: Patch)
    ensures Logout(Login(s, u, token)) == Initial
    ensures !IsAuthenticated(UpdateUser(Logout(s), p))
  {
  }

  /** After signing in, an update leaves the user signed in as the merged record. */
  lemma LoginThenUpdate(s: Session, u: SessionUser, token: string, p: Patch)
    ensures UpdateUser(Login(s, u, token), p) == Login(s, Merge(u, p), token)
  {
  }
}

=== FILE: auth_validation.dfy ===
/** The sign-in and sign-up form checks the storefront runs before calling the auth API
    (`utils/validation/authValidation.ts`): the hand-written email and password checks of the login
    form, and the sign-up schema whose issues are folded into a field-to-message map. */
module AuthValidation {
  import opened Wrappers
  import opened Text

  // ---- validateEmail ----

  /** A character the class `[^\s@]` accepts. */
  predicate PartChar(c: char) {
    !IsSpace(c) && c != '@'
  }

  /** A non-empty run of `[^\s@]`. */
  predicate Part(s: string) {
    s != [] && forall i :: 0 <= i < |s| ==> PartChar(s[i])
  }

  /** `@` occurs in `s` at position `a` and nowhere else. */
  predicate OnlyAt(s: string, a: int) {
    0 <= a < |s| && s[a] == '@' && forall k :: 0 <= k < |s| && s[k] == '@' ==> k == a
  }

  /** The domain has a dot with at least one character on each side. */
  predicate Dotted(d: string) {
    exists j :: 0 < j < |d| - 1 && d[j] == '.'
  }

  /** What `/^[^\s@]+@[^\s@]+\.[^\s@]+$/` accepts, stated field by field: no whitespace, exactly
      one `@` with something before it, and a dot inside what follows it. */
  predicate EmailShaped(s: string) {
    NoSpace(s) && exists a :: 0 < a < |s| && OnlyAt(s, a) && Dotted(s[a + 1..])
  }

  /** The regular expression read literally: `s[..a]`, `s[a + 1..j]` and `s[j + 1..]` are three
      `[^\s@]+` runs, joined by the `@` at `a` and the `.` at `j`. */
  predicate Split(s: string, a: int, j: int) {
    0 < a && a + 1 < j < |s| - 1 && s[a] == '@' && s[j] == '.'
    && Part(s[..a]) && Part(s[a + 1..j]) && Part(s[j + 1..])
  }

  ghost predicate MatchesEmailPattern(s: string) {
    exists a, j :: Split(s, a, j)
  }

  /** The field-by-field reading and the pattern accept exactly the same strings. */
  lemma EmailShapedIffPattern(s: string)
    ensures EmailShaped(s) <==> MatchesEmailPattern(s)
  {
    if EmailShaped(s) {
      var a :| 0 < a < |s| && OnlyAt(s, a) && Dotted(s[a + 1..]);
      var d := s[a + 1..];
      var j :| 0 < j < |d| - 1 && d[j] == '.';
      ShapedSplit(s, a, a + 1 + j);
    }
    if MatchesEmailPattern(s) {
      var a, j :| Split(s, a, j);
      PatternChars(s, a, j);
      var d := s[a + 1..];
      assert d[j - a - 1] == '.';
      assert OnlyAt(s, a) && Dotted(d);
    }
  }

  /** A whitespace-free string whose only `@` is at `a`, with a dot at `j` past the next position,
      splits there. */
  lemma ShapedSplit(s: string, a: int, j: int)
    requires NoSpace(s) && 0 < a && OnlyAt(s, a) && a + 1 < j < |s| - 1 && s[j] == '.'
    ensures Split(s, a, j)
  {
    var x, y, z := s[..a], s[a + 1..j], s[j + 1..];
    forall k | 0 <= k < |x| ensures PartChar(x[k]) { assert x[k] == s[k]; }
    forall k | 0 <= k < |y| ensures PartChar(y[k]) { assert y[k] == s[a + 1 + k]; }
    forall k | 0 <= k < |z| ensures PartChar(z[k]) { assert z[k] == s[j + 1 + k]; }
  }

  /** Inside a pattern match only position `a` holds `@`, and nothing is whitespace. */
  lemma PatternChars(s: string, a: int, j: int)
    requires Split(s, a, j)
    ensures NoSpace(s)
    ensures forall k :: 0 <= k < |s| && s[k] == '@' ==> k == a
  {
    forall k | 0 <= k < |s|
      ensures !IsSpace(s[k]) && (s[k] == '@' ==> k == a)
    {
      if k < a {
        assert s[k] == s[..a][k];
      } else if a < k < j {
        assert s[k] == s[a + 1..j][k - a - 1];
      } else if j < k {
        assert s[k] == s[j + 1..][k - j - 1];
      }
    }
  }

  /** `validateEmail`: `None` stands for `null`. The emptiness check comes first. */
  function ValidateEmail(email: string): (r: Option<string>)
    ensures email == [] ==> r == Some("Email is required")
    ensures email != [] && !MatchesEmailPattern(email) ==> r == Some("Please enter a valid email address")
    ensures r.None? <==> MatchesEmailPattern(email)
  {
    EmailShapedIffPattern(email);
    if email == [] then Some("Email is required")
    else if !EmailShaped(email) then Some("Please enter a valid email address")
    else None
  }

  // ---- validatePassword ----

  /** The length both password checks demand, in UTF-16 code units as JavaScript's `length` and
      zod's `min` count. */
  const MinPasswordLength: int := 6

  /** `validatePassword`: distinct messages for a missing and a short password. */
  function ValidatePassword(password: string): (r: Option<string>)
    ensures r.None? <==> Utf16Length(password) >= MinPasswordLength
    ensures password == [] ==> r == Some("Password is required")
    ensures password != [] && Utf16Length(password) < MinPasswordLength ==> r == Some("Password must be at least 6 characters")
  {
    if password == [] then Some("Password is required")
    else if Utf16Length(password) < MinPasswordLength then Some("Password must be at least 6 characters")
    else None
  }

  /** Three emoji are three characters but six code units, so `validatePassword` accepts them. */
  lemma ThreeEmojiPassword(p: string)
    requires p == ['\U{1F600}', '\U{1F600}', '\U{1F600}']
    ensures |p| == 3 && ValidatePassword(p) == None
  {
    assert Utf16Length(p[2..]) == 2;
    assert Utf16Length(p[1..]) == 2 + Utf16Length(p[2..]) by {
      assert p[1..][1..] == p[2..];
    }
    assert Utf16Length(p) == 2 + Utf16Length(p[1..]);
  }

  // ---- signupSchema and validateSignup ----

  /** One reported problem: the path of the offending field and its message. */
  datatype Issue = Issue(path: seq<string>, message: string)

  /** The position of the last issue reported for field `k`. */
  predicate LastFor(issues: seq<Issue>, k: string, i: int) {
    0 <= i < |issues| && issues[i].path != [] && issues[i].path[0] == k
    && forall j :: i < j < |issues| ==> issues[j].path == [] || issues[j].path[0] != k
  }

  /** The `forEach` in `validateSignup`: each issue with a non-empty path writes its message under
      its first path segment, in order. */
  function ErrorMap(issues: seq<Issue>): map<string, string>
  {
    if issues == [] then map[]
    else
      var m := ErrorMap(issues[..|issues| - 1]);
      var last := issues[|issues| - 1];
      if last.path != [] then m[last.path[0] := last.message] else m
  }

  /** One more issue writes one more entry, unless its path is empty. */
  lemma ErrorMapSnoc(issues: seq<Issue>, x: Issue)
    ensures ErrorMap(issues + [x]) == if x.path != [] then ErrorMap(issues)[x.path[0] := x.message] else ErrorMap(issues)
  {
    assert (issues + [x])[..|issues|] == issues;
  }

  /** A field has an entry exactly when some issue with a non-empty path names it. */
  lemma {:induction false} ErrorMapKeys(issues: seq<Issue>, k: string)
    ensures k in ErrorMap(issues) <==> exists i :: 0 <= i < |issues| && issues[i].path != [] && issues[i].path[0] == k
  {
    if issues != [] {
      var init := issues[..|issues| - 1];
      ErrorMapKeys(init, k);
      assert forall i :: 0 <= i < |init| ==> init[i] == issues[i];
    }
  }

  /** The entry for a field holds the message of the last issue that names it: later issues
      overwrite earlier ones. */
  lemma {:induction false} ErrorMapLastWins(issues: seq<Issue>, k: string, i: int)
    requires LastFor(issues, k, i)
    ensures k in ErrorMap(issues) && ErrorMap(issues)[k] == issues[i].message
  {
    var init := issues[..|issues| - 1];
    if i < |issues| - 1 {
      assert forall j :: 0 <= j < |init| ==> init[j] == issues[j];
      assert LastFor(init, k, i);
      ErrorMapLastWins(init, k, i);
    }
  }

  /** The sign-up form as submitted. */
  datatype SignupForm = SignupForm(name: string, email: string, password: string, confirmPassword: string)

  const NameMessage: string := "Full name must be at least 2 characters"
  const EmailMessage: string := "Please enter a valid email address"
  const PasswordMessage: string := "Password must be at least 6 characters"
  const MismatchMessage: string := "Passwords do not match"

  /** Maybe one more issue. */
  function Opt(b: bool, x: Issue): seq<Issue> {
    if b then [x] else []
  }

  /** The issues `signupSchema.safeParse` reports, in order: the field checks in declaration order,
      then the refinement keyed `confirmPassword`. The library's email format check is the
      parameter `emailOk`. */
  function SignupIssues(f: SignupForm, emailOk: string -> bool): (r: seq<Issue>)
    ensures r == [] <==>
      Utf16Length(f.name) >= 2 && emailOk(f.email) && Utf16Length(f.password) >= MinPasswordLength && f.password == f.confirmPassword
  {
    Opt(Utf16Length(f.name) < 2, Issue(["name"], NameMessage))
    + Opt(!emailOk(f.email), Issue(["email"], EmailMessage))
    + Opt(Utf16Length(f.password) < MinPasswordLength, Issue(["password"], PasswordMessage))
    + Opt(f.password != f.confirmPassword, Issue(["confirmPassword"], MismatchMessage))
  }

  /** `validateSignup`: `{}` on success, otherwise the error map of the reported issues. */
  function ValidateSignup(f: SignupForm, emailOk: string -> bool): (r: map<string, string>)
  {
    var issues := SignupIssues(f, emailOk);
    if issues == [] then map[] else ErrorMap(issues)
  }

  lemma ErrorMapOpt(issues: seq<Issue>, b: bool, field: string, msg: string)
    ensures ErrorMap(issues + Opt(b, Issue([field], msg))) ==
      if b then ErrorMap(issues)[field := msg] else ErrorMap(issues)
  {
    if b {
      ErrorMapSnoc(issues, Issue([field], msg));
    } else {
      assert issues + Opt(b, Issue([field], msg)) == issues;
    }
  }

  /** The map the four checks leave behind, written out entry by entry. */
  function SignupErrorMap(name: bool, email: bool, password: bool, mismatch: bool): (r: map<string, string>)
    ensures "name" in r <==> name
    ensures "email" in r <==> email
    ensures "password" in r <==> password
    ensures "confirmPassword" in r <==> mismatch
    ensures r.Keys <= {"name", "email", "password", "confirmPassword"}
    ensures "name" in r ==> r["name"] == NameMessage
    ensures "email" in r ==> r["email"] == EmailMessage
    ensures "password" in r ==> r["password"] == PasswordMessage
    ensures "confirmPassword" in r ==> r["confirmPassword"] == MismatchMessage
  {
    var m1 := if name then map["name" := NameMessage] else map[];
    var m2 := if email then m1["email" := EmailMessage] else m1;
    var m3 := if password then m2["password" := PasswordMessage] else m2;
    if mismatch then m3["confirmPassword" := MismatchMessage] else m3
  }

  /** Folding the schema's issues gives that map. */
  lemma ValidateSignupIsErrorMap(f: SignupForm, emailOk: string -> bool)
    ensures ValidateSignup(f, emailOk) == SignupErrorMap(
      Utf16Length(f.name) < 2, !emailOk(f.email), Utf16Length(f.password) < MinPasswordLength, f.password != f.confirmPassword)
  {
    var i1 := Opt(Utf16Length(f.name) < 2, Issue(["name"], NameMessage));
    var i2 := i1 + Opt(!emailOk(f.email), Issue(["email"], EmailMessage));
    var i3 := i2 + Opt(Utf16Length(f.password) < MinPasswordLength, Issue(["password"], PasswordMessage));
    var i4 := i3 + Opt(f.password != f.confirmPassword, Issue(["confirmPassword"], MismatchMessage));
    ErrorMapOpt([], Utf16Length(f.name) < 2, "name", NameMessage);
    assert [] + i1 == i1;
    ErrorMapOpt(i1, !emailOk(f.email), "email", EmailMessage);
    ErrorMapOpt(i2, Utf16Length(f.password) < MinPasswordLength, "password", PasswordMessage);
    ErrorMapOpt(i3, f.password != f.confirmPassword, "confirmPassword", MismatchMessage);
  }

  /** Each field is in the error map exactly when its check fails, with that check's message, and
      nothing else is. */
  lemma ValidateSignupFields(f: SignupForm, emailOk: string -> bool)
    ensures var r := ValidateSignup(f, emailOk);
      && ("name" in r <==> Utf16Length(f.name) < 2)
      && ("email" in r <==> !emailOk(f.email))
      && ("password" in r <==> Utf16Length(f.password) < MinPasswordLength)
      && ("confirmPassword" in r <==> f.password != f.confirmPassword)
      && r.Keys <= {"name", "email", "password", "confirmPassword"}
      && ("name" in r ==> r["name"] == NameMessage)
      && ("email" in r ==> r["email"] == EmailMessage)
      && ("password" in r ==> r["password"] == PasswordMessage)
      && ("confirmPassword" in r ==> r["confirmPassword"] == MismatchMessage)
  {
    ValidateSignupIsErrorMap(f, emailOk);
  }

  /** The sign-up form passes exactly when the map is empty. */
  lemma ValidateSignupEmptyIffValid(f: SignupForm, emailOk: string -> bool)
    ensures ValidateSignup(f, emailOk) == map[] <==>
      Utf16Length(f.name) >= 2 && emailOk(f.email) && Utf16Length(f.password) >= MinPasswordLength && f.password == f.confirmPassword
  {
    ValidateSignupFields(f, emailOk);
  }
}

=== FILE: carousel.dfy ===
/** The home page's featured-products carousel (`pages/home/Home.tsx`): the catalog cut into slides
    of four, a current slide that the arrows move with wrap-around, and the products of the
    current slide. JavaScript's `%` truncates toward zero and gives `NaN` for a zero divisor; both
    are written out here. */
module Carousel {
  import opened ShopTypes

  const ProductsPerSlide: int := 4

  /** `Math.ceil(count / productsPerSlide)`. */
  function TotalSlides(count: nat): (r: nat)
    ensures r == 0 <==> count == 0
    ensures count > 0 ==> ProductsPerSlide * (r - 1) < count <= ProductsPerSlide * r
  {
    (count + ProductsPerSlide - 1) / ProductsPerSlide
  }

  /** The current slide: an index, or `NaN` once an arrow was pressed with no slides at all. */
  datatype Slide = At(index: int) | NaN

  /** JavaScript's `a % b` for a positive divisor: the sign follows the dividend. */
  function JsRem(a: int, b: int): (r: int)
    requires b > 0
    ensures a >= 0 ==> 0 <= r < b
    ensures a < 0 ==> -b < r <= 0
  {
    if a >= 0 then a % b else -((-a) % b)
  }

  /** `nextSlide`: one on, wrapping from the last slide to the first. */
  function NextSlide(s: Slide, total: nat): (r: Slide)
    ensures total == 0 || s.NaN? ==> r.NaN?
    ensures total > 0 && s.At? && 0 <= s.index < total ==> r.At? && 0 <= r.index < total
    ensures total > 0 && s.At? && 0 <= s.index < total - 1 ==> r == At(s.index + 1)
    ensures total > 0 && s == At(total - 1) ==> r == At(0)
  {
    match s
    case NaN => NaN
    case At(c) => if total == 0 then NaN else At(JsRem(c + 1, total))
  }

  /** `prevSlide`: one back, wrapping from the first slide to the last. */
  function PrevSlide(s: Slide, total: nat): (r: Slide)
    ensures total == 0 || s.NaN? ==> r.NaN?
    ensures total > 0 && s.At? && 0 <= s.index < total ==> r.At? && 0 <= r.index < total
    ensures total > 0 && s.At? && 0 < s.index < total ==> r == At(s.index - 1)
    ensures total > 0 && s == At(0) ==> r == At(total - 1)
  {
    match s
    case NaN => NaN
    case At(c) => if total == 0 then NaN else At(JsRem(c - 1 + total, total))
  }

  /** On any in-range slide, the two arrows undo each other. */
  lemma ArrowsUndoEachOther(c: int, total: nat)
    requires 0 <= c < total
    ensures PrevSlide(NextSlide(At(c), total), total) == At(c)
    ensures NextSlide(PrevSlide(At(c), total), total) == At(c)
  {
  }

  /** The slide after `k` presses of "next". */
  function NextTimes(s: Slide, total: nat, k: nat): Slide
    decreases k
  {
    if k == 0 then s else NextSlide(NextTimes(s, total, k - 1), total)
  }

  /** Presses add up: `a` presses and then `b` more are `a + b` presses. */
  lemma {:induction false} NextTimesAdd(s: Slide, total: nat, a: nat, b: nat)
    ensures NextTimes(s, total, a + b) == NextTimes(NextTimes(s, total, a), total, b)
    decreases b
  {
    if b > 0 {
      NextTimesAdd(s, total, a, b - 1);
    }
  }

  /** Short of the last slide, each press moves one slide on. */
  lemma {:induction false} NextTimesNoWrap(c: int, total: nat, k: nat)
    requires 0 <= c && c + k < total
    ensures NextTimes(At(c), total, k) == At(c + k)
    decreases k
  {
    if k > 0 {
      NextTimesNoWrap(c, total, k - 1);
    }
  }

  /** Pressing "next" once per slide comes back to the slide it started from. */
  lemma FullCycle(c: int, total: nat)
    requires 0 <= c < total
    ensures NextTimes(At(c), total, total) == At(c)
  {
    var a := total - 1 - c;
    NextTimesNoWrap(c, total, a);
    NextTimesAdd(At(c), total, a, 1);
    assert NextTimes(At(c), total, a + 1) == At(0);
    NextTimesAdd(At(c), total, a + 1, c);
    NextTimesNoWrap(0, total, c);
  }

  /** Where JavaScript's `slice` starts or ends for an index: counted from the end when negative,
      clamped to the length. */
  function SliceBound(len: nat, i: int): (r: nat)
    ensures r <= len
  {
    if i < 0 then (if len + i < 0 then 0 else len + i) else if i > len then len else i
  }

  /** `xs.slice(start, end)`. */
  function JsSlice<T>(xs: seq<T>, start: int, end: int): (r: seq<T>)
    ensures |r| <= |xs|
    ensures 0 <= start <= end <= |xs| ==> r == xs[start..end]
  {
    var s := SliceBound(|xs|, start);
    var e := SliceBound(|xs|, end);
    if e <= s then [] else xs[s..e]
  }

  /** `getCurrentProducts`: the current slide's products; `slice(NaN, NaN)` is empty. */
  function CurrentProducts(ps: seq<Product>, s: Slide): (r: seq<Product>)
    ensures |r| <= ProductsPerSlide
    ensures s.NaN? ==> r == []
    ensures s.At? && 0 <= s.index < TotalSlides(|ps|) ==> SlideStart(s.index) < |ps|
    ensures s.At? && 0 <= s.index < TotalSlides(|ps|) ==> r == ps[SlideStart(s.index)..SlideEnd(|ps|, s.index)]
  {
    match s
    case NaN => []
    case At(c) =>
      var start := c * ProductsPerSlide;
      JsSlice(ps, start, start + ProductsPerSlide)
  }

  /** Where slide `c` starts in the catalog. */
  function SlideStart(c: int): int {
    ProductsPerSlide * c
  }

  /** Where slide `c` ends: four on, or the end of the catalog. */
  function SlideEnd(count: nat, c: int): int {
    if SlideStart(c) + ProductsPerSlide < count then SlideStart(c) + ProductsPerSlide else count
  }

  /** Product `k` is shown on slide `k / 4`, which exists, in position `k % 4`. */
  lemma EachProductOnItsSlide(ps: seq<Product>, k: nat)
    requires k < |ps|
    ensures 0 <= k / ProductsPerSlide < TotalSlides(|ps|)
    ensures k % ProductsPerSlide < |CurrentProducts(ps, At(k / ProductsPerSlide))|
    ensures CurrentProducts(ps, At(k / ProductsPerSlide))[k % ProductsPerSlide] == ps[k]
  {
    var c := k / ProductsPerSlide;
    assert k == SlideStart(c) + k % ProductsPerSlide;
  }
}

=== FILE: cart_controller.dfy ===
/** The cart handlers (`controllers/cart.controller.ts`). Each takes the database state and the
    requester and gives the state it leaves together with its answer: the saved cart or the error
    it throws. A handler can change the database and still fail, since `addToCart` creates the
    cart before its later checks. */
module CartController {
  import opened Wrappers
  import opened Errors
  import opened Seqs
  import opened ProductModel
  import opened CartModel
  import opened Database

  datatype Reply = Reply(db: Db, answer: Result<Cart, Error>)

  /** `Cart.findOne({ user })`, or the cart `Cart.create({ user, items: [] })` would make. */
  function CartOf(db: Db, user: UserId): (c: Cart)
    ensures c.user == user || user in db.carts
    ensures user !in db.carts ==> c == Empty(user)
  {
    if user in db.carts then db.carts[user] else Empty(user)
  }

  /** `cart.save()` followed by the write: the saved cart replaces the requester's; a cart the
      schema rejects is not written. */
  function Store(db: Db, user: UserId, c: Cart): (r: Reply)
    ensures r.answer.Ok? <==> LinesValid(c.items)
    ensures r.answer.Ok? ==> r.answer.value == Save(c).value && r.db == db.(carts := db.carts[user := r.answer.value])
    ensures r.answer.Err? ==> r.db == db && r.answer.error.BadRequest?
  {
    match Save(c)
    case Ok(s) => Reply(db.(carts := db.carts[user := s]), Ok(s))
    case Err(e) => Reply(db, Err(e))
  }

  /** Only the requester's cart may differ between `db` and `d`: products, orders and every other
      user's cart are as they were, and no cart disappears. */
  predicate TouchesOnly(db: Db, d: Db, user: UserId) {
    && d.products == db.products && d.orders == db.orders
    && db.carts.Keys <= d.carts.Keys <= db.carts.Keys + {user}
    && forall u :: u in db.carts && u != user ==> d.carts[u] == db.carts[u]
  }

  /** `getCart`: the requester's cart, created empty on first access. */
  function GetCart(db: Db, user: UserId): (r: Reply)
    ensures user in db.carts ==> r == Reply(db, Ok(db.carts[user]))
    ensures user !in db.carts ==> r.answer == Ok(Empty(user)) && r.db == db.(carts := db.carts[user := Empty(user)])
    ensures r.answer.Ok? && user in r.db.carts && r.db.carts[user] == r.answer.value
    ensures TouchesOnly(db, r.db, user)
  {
    var c := CartOf(db, user);
    Reply(db.(carts := db.carts[user := c]), Ok(c))
  }

  /** The quantity the line for `pid` has once `qty` more is added: the line's quantity plus
      `qty`, or `qty` for a product the cart does not hold yet. */
  function NewQuantity(items: seq<CartLine>, pid: ProductId, qty: int): int {
    match FindLine(items, pid)
    case Some(k) => items[k].quantity + qty
    case None => qty
  }

  /** Where the merge puts the product: the first line whose product id reads as `key`, or a new
      line at the end. */
  function Slot(items: seq<CartLine>, key: ProductId): (k: nat)
    ensures k <= |items|
  {
    match FindLine(items, key)
    case Some(k) => k
    case None => |items|
  }

  /** The merge step of `addToCart` for a product `p` whose stock covers `qty`. The line to raise is
      the first whose product id, as a string, equals `key`; when none does, a snapshot line of `p`
      under its own id is appended. The raise fails when it would exceed the stock. */
  function Merge(items: seq<CartLine>, key: ProductId, p: Product, qty: int): (r: Result<seq<CartLine>, Error>)
    requires qty <= p.stock
    ensures r.Ok? <==> NewQuantity(items, key, qty) <= p.stock
    ensures r.Err? ==> r.error == InsufficientStock("Insufficient stock")
    ensures r.Ok? && FindLine(items, key).None? ==> r.value == items + [CartLine(p.id, p.name, p.price, p.image, qty)]
    ensures r.Ok? && FindLine(items, key).Some? ==>
              var k := FindLine(items, key).value;
              r.value == items[k := items[k].(quantity := items[k].quantity + qty)]
  {
    match FindLine(items, key)
    case Some(k) =>
      var q := items[k].quantity + qty;
      if p.stock < q then Err(InsufficientStock("Insufficient stock"))
      else Ok(items[k := items[k].(quantity := q)])
    case None => Ok(items + [CartLine(p.id, p.name, p.price, p.image, qty)])
  }

  /** What a successful merge keeps: the item total grows by `qty`, every existing line keeps its
      product, the merged line holds the new quantity, and the lines stay valid exactly when that
      quantity is at least 1. Products stay distinct exactly when `key` finds a line or the cart
      holds no line of `p`: a `key` that misses the line `p` already has appends a second one. */
  lemma MergeFacts(items: seq<CartLine>, key: ProductId, p: Product, qty: int)
    requires qty <= p.stock && Merge(items, key, p, qty).Ok?
    ensures MergeKeeps(items, key, p, qty, Merge(items, key, p, qty).value)
  {
    var r := Merge(items, key, p, qty).value;
    match FindLine(items, key)
    case Some(k) => MergeRaises(items, key, p, qty, k, r);
    case None => MergeAppends(items, key, p, qty, r);
  }

  /** The facts `MergeFacts` states, about a merge result `r`. */
  predicate MergeKeeps(items: seq<CartLine>, key: ProductId, p: Product, qty: int, r: seq<CartLine>) {
    && SumQuantities(r) == SumQuantities(items) + qty
    && |items| <= |r| && (forall i :: 0 <= i < |items| ==> r[i].product == items[i].product)
    && Slot(items, key) < |r| && r[Slot(items, key)].quantity == NewQuantity(items, key, qty)
    && (key == p.id ==> FindLine(r, p.id) == Some(Slot(items, key)))
    && (UniqueProducts(items) && (FindLine(items, key).Some? || FindLine(items, p.id).None?) ==> UniqueProducts(r))
    && (FindLine(items, key).None? && FindLine(items, p.id).Some? ==> !UniqueProducts(r))
    && (LinesValid(items) && ProductModel.Valid(p) ==> (LinesValid(r) <==> NewQuantity(items, key, qty) >= 1))
  }

  /** The merge that raises the line at `k`. */
  lemma MergeRaises(items: seq<CartLine>, key: ProductId, p: Product, qty: int, k: nat, r: seq<CartLine>)
    requires qty <= p.stock && FindLine(items, key) == Some(k)
    requires Merge(items, key, p, qty) == Ok(r)
    ensures MergeKeeps(items, key, p, qty, r)
  {
    var q := items[k].quantity + qty;
    SetQuantityDelta(items, k, q);
    if key == p.id {
      FindLineAt(r, p.id, k);
    }
    if LinesValid(items) && q >= 1 {
      SetQuantityKeepsValid(items, k, q);
    }
  }

  /** The merge that appends a line because no line reads as `key`. */
  lemma MergeAppends(items: seq<CartLine>, key: ProductId, p: Product, qty: int, r: seq<CartLine>)
    requires qty <= p.stock && FindLine(items, key).None?
    requires Merge(items, key, p, qty) == Ok(r)
    ensures MergeKeeps(items, key, p, qty, r)
  {
    var line := CartLine(p.id, p.name, p.price, p.image, qty);
    SumsAppend(items, [line]);
    assert r[|items|] == line;
    if FindLine(items, p.id).None? {
      FindLineAt(r, p.id, |items|);
    } else {
      var m := FindLine(items, p.id).value;
      assert r[m] == items[m];
    }
    if LinesValid(items) && ProductModel.Valid(p) && qty >= 1 {
      AppendKeepsValid(items, line);
    }
  }

  /** The part of `addToCart` after the product `p` is found and its stock covers `qty`: the cart
      is fetched or created, merged with `p` at the line `key` finds, and saved. */
  function AddFound(db: Db, user: UserId, key: ProductId, p: Product, qty: int): (r: Reply)
    requires qty <= p.stock
    ensures TouchesOnly(db, r.db, user)
    ensures r.answer.Ok? ==> r.answer.value.user == CartOf(db, user).user
    ensures r.answer.Ok? ==> CartModel.Valid(r.answer.value) && r.db == db.(carts := db.carts[user := r.answer.value])
    ensures r.answer.Ok? ==> r.answer.value.totalItems == SumQuantities(CartOf(db, user).items) + qty
    ensures r.answer.Ok? ==> var k := Slot(CartOf(db, user).items, key);
              && k < |r.answer.value.items|
              && r.answer.value.items[k].quantity == NewQuantity(CartOf(db, user).items, key, qty)
              && r.answer.value.items[k].quantity <= p.stock
    ensures r.answer.Ok? && key == p.id ==> FindLine(r.answer.value.items, p.id) == Some(Slot(CartOf(db, user).items, key))
    ensures r.answer.Err? ==> r.db == db || (user !in db.carts && r.db == db.(carts := db.carts[user := Empty(user)]))
    ensures r.answer.Ok? && UniqueProducts(CartOf(db, user).items)
            && (FindLine(CartOf(db, user).items, key).Some? || FindLine(CartOf(db, user).items, p.id).None?) ==>
              UniqueProducts(r.answer.value.items)
    ensures r.answer.Ok? && FindLine(CartOf(db, user).items, key).None? && FindLine(CartOf(db, user).items, p.id).Some? ==>
              !UniqueProducts(r.answer.value.items)
    ensures LinesValid(CartOf(db, user).items) && ProductModel.Valid(p) ==>
              (r.answer.Ok? <==> 1 <= NewQuantity(CartOf(db, user).items, key, qty) <= p.stock)
  {
    var cart := CartOf(db, user);
    var db1 := db.(carts := db.carts[user := cart]);
    assert user in db.carts ==> db1 == db;
    match Merge(cart.items, key, p, qty)
    case Err(e) => Reply(db1, Err(e))
    case Ok(items) =>
      MergeFacts(cart.items, key, p, qty);
      Store(db1, user, cart.(items := items))
  }

  /** `addToCart` as written: 404 when the id casts to no product, 400 when its stock is below the
      requested quantity (1 when the body gives none); then the cart is fetched or created and
      merged with the product at the line whose stored product id equals the request's `productId`
      as a string, and saved. */
  function AddToCart(db: Db, user: UserId, productId: ProductId, quantity: Option<int>): (r: Reply)
    ensures FindProduct(db.products, CastId(productId)).None? ==> r == Reply(db, Err(NotFound("Product not found")))
    ensures FindProduct(db.products, CastId(productId)).Some?
            && db.products[FindProduct(db.products, CastId(productId)).value].stock < quantity.GetOr(1) ==>
              r == Reply(db, Err(InsufficientStock("Insufficient stock")))
    ensures FindProduct(db.products, CastId(productId)).Some?
            && db.products[FindProduct(db.products, CastId(productId)).value].stock >= quantity.GetOr(1) ==>
              r == AddFound(db, user, productId, db.products[FindProduct(db.products, CastId(productId)).value], quantity.GetOr(1))
  {
    var qty := quantity.GetOr(1);
    match FindProduct(db.products, CastId(productId))
    case None => Reply(db, Err(NotFound("Product not found")))
    case Some(j) =>
      var p := db.products[j];
      if p.stock < qty then Reply(db, Err(InsufficientStock("Insufficient stock")))
      else AddFound(db, user, productId, p, qty)
  }

  /** `addToCart` with the cart line matched by the found product's own id, so that every spelling
      of the id reaches the same line. */
  function AddToCartByStoredId(db: Db, user: UserId, productId: ProductId, quantity: Option<int>): (r: Reply)
    ensures FindProduct(db.products, CastId(productId)).None? ==> r == Reply(db, Err(NotFound("Product not found")))
    ensures FindProduct(db.products, CastId(productId)).Some?
            && db.products[FindProduct(db.products, CastId(productId)).value].stock < quantity.GetOr(1) ==>
              r == Reply(db, Err(InsufficientStock("Insufficient stock")))
    ensures FindProduct(db.products, CastId(productId)).Some?
            && db.products[FindProduct(db.products, CastId(productId)).value].stock >= quantity.GetOr(1) ==>
              r == AddFound(db, user, CastId(productId), db.products[FindProduct(db.products, CastId(productId)).value], quantity.GetOr(1))
  {
    var qty := quantity.GetOr(1);
    match FindProduct(db.products, CastId(productId))
    case None => Reply(db, Err(NotFound("Product not found")))
    case Some(j) =>
      var p := db.products[j];
      if p.stock < qty then Reply(db, Err(InsufficientStock("Insufficient stock")))
      else AddFound(db, user, p.id, p, qty)
  }

  /** `updateCartItem`: 400 for a quantity below 1, 404 without a cart, 404 when no line's product
      id equals `productId` as a string, 404 when the id casts to no product, 400 when its stock is
      below the quantity; otherwise that line takes the new quantity and the cart is saved. An absent quantity passes the first checks
      and is then refused by the schema's `required`. */
  function UpdateCartItem(db: Db, user: UserId, productId: ProductId, quantity: Option<int>): (r: Reply)
    ensures quantity.Some? && quantity.value < 1 ==> r == Reply(db, Err(BadRequest("Quantity must be at least 1")))
    ensures (quantity.None? || quantity.value >= 1) && user !in db.carts ==> r == Reply(db, Err(NotFound("Cart not found")))
    ensures (quantity.None? || quantity.value >= 1) && user in db.carts && FindLine(db.carts[user].items, productId).None? ==>
              r == Reply(db, Err(NotFound("Item not found in cart")))
    ensures (quantity.None? || quantity.value >= 1) && user in db.carts && FindLine(db.carts[user].items, productId).Some?
            && FindProduct(db.products, CastId(productId)).None? ==>
              r == Reply(db, Err(NotFound("Product not found")))
    ensures quantity.Some? && quantity.value >= 1 && user in db.carts && FindLine(db.carts[user].items, productId).Some?
            && FindProduct(db.products, CastId(productId)).Some?
            && db.products[FindProduct(db.products, CastId(productId)).value].stock < quantity.value ==>
              r == Reply(db, Err(InsufficientStock("Insufficient stock")))
    ensures quantity.Some? && quantity.value >= 1 && user in db.carts && FindLine(db.carts[user].items, productId).Some?
            && FindProduct(db.products, CastId(productId)).Some?
            && quantity.value <= db.products[FindProduct(db.products, CastId(productId)).value].stock
            && LinesValid(db.carts[user].items) ==>
              r.answer.Ok?
    ensures r.answer.Err? ==> r.db == db
    ensures quantity.None? ==> r.answer.Err?
    ensures r.answer.Ok? ==> var old_ := db.carts[user].items;
              var k := FindLine(old_, productId).value;
              && quantity.Some? && 1 <= quantity.value <= db.products[FindProduct(db.products, CastId(productId)).value].stock
              && r.answer.value.items == old_[k := old_[k].(quantity := quantity.value)]
              && r.answer.value.totalItems == SumQuantities(old_) - old_[k].quantity + quantity.value
              && CartModel.Valid(r.answer.value)
              && r.db == db.(carts := db.carts[user := r.answer.value])
  {
    if quantity.Some? && quantity.value < 1 then Reply(db, Err(BadRequest("Quantity must be at least 1")))
    else if user !in db.carts then Reply(db, Err(NotFound("Cart not found")))
    else
      var cart := db.carts[user];
      match FindLine(cart.items, productId)
      case None => Reply(db, Err(NotFound("Item not found in cart")))
      case Some(k) =>
        match FindProduct(db.products, CastId(productId))
        case None => Reply(db, Err(NotFound("Product not found")))
        case Some(j) =>
          if quantity.None? then Reply(db, Err(BadRequest("Cart validation failed")))
          else if db.products[j].stock < quantity.value then Reply(db, Err(InsufficientStock("Insufficient stock")))
          else
            SetQuantityDelta(cart.items, k, quantity.value);
            Store(db, user, cart.(items := cart.items[k := cart.items[k].(quantity := quantity.value)]))
  }

  /** The line filter of `removeFromCart`: every line for another product. */
  function OtherThan(productId: ProductId): (keep: CartLine -> bool)
    ensures forall l :: keep(l) <==> l.product != productId
  {
    (l: CartLine) => l.product != productId
  }

  /** `removeFromCart`: 404 without a cart; otherwise every line for the product is dropped, the
      rest kept in order, and the cart saved. Removing a product the cart does not hold succeeds. */
  function RemoveFromCart(db: Db, user: UserId, productId: ProductId): (r: Reply)
    ensures user !in db.carts ==> r == Reply(db, Err(NotFound("Cart not found")))
    ensures r.answer.Err? ==> r.db == db
    ensures user in db.carts && LinesValid(db.carts[user].items) ==> r.answer.Ok?
    ensures r.answer.Ok? ==> && user in db.carts
                             && r.answer.value.items == Filter(db.carts[user].items, OtherThan(productId))
                             && FindLine(r.answer.value.items, productId).None?
                             && CartModel.Valid(r.answer.value)
                             && r.db == db.(carts := db.carts[user := r.answer.value])
  {
    if user !in db.carts then Reply(db, Err(NotFound("Cart not found")))
    else
      var cart := db.carts[user];
      var kept := Filter(cart.items, OtherThan(productId));
      assert LinesValid(cart.items) ==> LinesValid(kept) by {
        if LinesValid(cart.items) {
          forall i | 0 <= i < |kept|
            ensures LineValid(kept[i])
          {
            assert kept[i] in cart.items;
          }
        }
      }
      Store(db, user, cart.(items := kept))
  }

  /** `clearCart`: 404 without a cart; otherwise the cart is saved with no lines and zero totals. */
  function ClearCart(db: Db, user: UserId): (r: Reply)
    ensures user !in db.carts <==> r == Reply(db, Err(NotFound("Cart not found")))
    ensures user in db.carts ==> && r.answer.Ok?
                                 && r.answer.value == db.carts[user].(items := [], totalItems := 0, totalPrice := 0)
                                 && r.db == db.(carts := db.carts[user := r.answer.value])
  {
    if user !in db.carts then Reply(db, Err(NotFound("Cart not found")))
    else Store(db, user, db.carts[user].(items := []))
  }

  /** Filtering keeps distinct products distinct. */
  lemma {:induction false} FilterUnique(items: seq<CartLine>, keep: CartLine -> bool)
    requires UniqueProducts(items)
    ensures UniqueProducts(Filter(items, keep))
  {
    if items != [] {
      var tail := Filter(items[1..], keep);
      assert UniqueProducts(items[1..]) by {
        forall i, j | 0 <= i < j < |items[1..]|
          ensures items[1..][i].product != items[1..][j].product
        {
          assert items[1..][i] == items[i + 1] && items[1..][j] == items[j + 1];
        }
      }
      FilterUnique(items[1..], keep);
      if keep(items[0]) {
        var r := [items[0]] + tail;
        forall i, j | 0 <= i < j < |r|
          ensures r[i].product != r[j].product
        {
          if i == 0 {
            assert r[j] in items[1..];
            var m :| 0 <= m < |items[1..]| && items[1..][m] == r[j];
            assert items[m + 1] == r[j];
          } else {
            assert r[i] == tail[i - 1] && r[j] == tail[j - 1];
          }
        }
      }
    }
  }

  /** Getting the cart never invalidates the stored carts, and a second read answers the same. */
  lemma GetCartStable(db: Db, user: UserId)
    requires CartsValid(db.carts)
    ensures CartsValid(GetCart(db, user).db.carts)
    ensures var r := GetCart(db, user);
            GetCart(r.db, user) == r
  {
  }

  /** With the line matched by the product's own id, every outcome of `addToCart`, success or
      failure, leaves the stored carts valid. */
  lemma AddKeepsCartsValid(db: Db, user: UserId, productId: ProductId, quantity: Option<int>)
    requires CartsValid(db.carts)
    ensures CartsValid(AddToCartByStoredId(db, user, productId, quantity).db.carts)
  {
    var qty := quantity.GetOr(1);
    match FindProduct(db.products, CastId(productId))
    case None =>
    case Some(j) =>
      var p := db.products[j];
      if p.stock >= qty {
        AddFoundKeepsCartsValid(db, user, p.id, p, qty);
      }
  }

  /** An id spelled as the database writes it reaches the same line either way, so `addToCart` as
      written agrees with the corrected handler on it. */
  lemma AddAsStoredAgrees(db: Db, user: UserId, productId: ProductId, quantity: Option<int>)
    requires AsStored(productId)
    ensures AddToCart(db, user, productId, quantity) == AddToCartByStoredId(db, user, productId, quantity)
  {
    match FindProduct(db.products, CastId(productId))
    case None =>
    case Some(j) =>
      assert db.products[j].id == productId;
  }

  /** `addToCart` as written keeps the stored carts valid for an id spelled as stored. */
  lemma AddAsWrittenKeepsCartsValid(db: Db, user: UserId, productId: ProductId, quantity: Option<int>)
    requires CartsValid(db.carts) && AsStored(productId)
    ensures CartsValid(AddToCart(db, user, productId, quantity).db.carts)
  {
    AddAsStoredAgrees(db, user, productId, quantity);
    AddKeepsCartsValid(db, user, productId, quantity);
  }

  /** `addToCart` as written duplicates a line: a spelling of a product's id that differs from the
      stored one only in letter case finds the product, misses the line the cart already holds
      for it, and appends a second line for the same product, so the saved cart no longer holds
      each product once. */
  lemma AddDuplicatesLine(db: Db, user: UserId, spelling: ProductId, j: nat)
    requires ProductsValid(db.products) && CartsValid(db.carts) && user in db.carts
    requires j < |db.products| && CastId(spelling) == db.products[j].id && spelling != db.products[j].id
    requires db.products[j].stock >= 1
    requires FindLine(db.carts[user].items, db.products[j].id).Some?
    requires FindLine(db.carts[user].items, spelling).None?
    ensures var r := AddToCart(db, user, spelling, None);
            && r.answer.Ok? && !UniqueProducts(r.answer.value.items) && !CartsValid(r.db.carts)
  {
    var p := db.products[j];
    FindOwnProduct(db.products, j);
    assert ProductModel.Valid(p);
    assert LinesValid(db.carts[user].items);
    var r := AddToCart(db, user, spelling, None);
    assert r == AddFound(db, user, spelling, p, 1);
    assert r.db.carts[user] == r.answer.value;
  }

  /** The part of `addToCart` after the stock check leaves the stored carts valid when `key`
      finds a line or the cart holds no line of `p`. */
  lemma AddFoundKeepsCartsValid(db: Db, user: UserId, key: ProductId, p: Product, qty: int)
    requires qty <= p.stock && CartsValid(db.carts)
    requires FindLine(CartOf(db, user).items, key).Some? || FindLine(CartOf(db, user).items, p.id).None?
    ensures CartsValid(AddFound(db, user, key, p, qty).db.carts)
  {
    var r := AddFound(db, user, key, p, qty);
    var cart := CartOf(db, user);
    assert UniqueProducts(cart.items);
    forall u | u in r.db.carts
      ensures r.db.carts[u].user == u && CartModel.Valid(r.db.carts[u]) && UniqueProducts(r.db.carts[u].items)
    {
      if u != user {
        assert r.db.carts[u] == db.carts[u];
      } else if r.answer.Ok? {
        assert r.db.carts[u] == r.answer.value;
      } else if user !in db.carts {
        assert r.db.carts[u] == Empty(user);
      }
    }
  }

  /** With valid stored products and carts, `addToCart` succeeds exactly when the id casts to a
      product and the new quantity of the line that `productId` matches is at least 1 and within
      the stock. */
  lemma AddSucceeds(db: Db, user: UserId, productId: ProductId, quantity: Option<int>)
    requires ProductsValid(db.products) && CartsValid(db.carts)
    ensures var q := NewQuantity(CartOf(db, user).items, productId, quantity.GetOr(1));
            AddToCart(db, user, productId, quantity).answer.Ok? <==>
              && FindProduct(db.products, CastId(productId)).Some?
              && 1 <= q <= db.products[FindProduct(db.products, CastId(productId)).value].stock
  {
    var qty := quantity.GetOr(1);
    var cart := CartOf(db, user);
    assert LinesValid(cart.items);
    match FindProduct(db.products, CastId(productId))
    case None =>
    case Some(j) =>
      assert ProductModel.Valid(db.products[j]);
      match FindLine(cart.items, productId)
      case Some(k) =>
        assert LineValid(cart.items[k]);
      case None =>
  }

  /** Adding a product the cart did not hold and then removing it by its stored id gives back the
      cart's lines and totals. */
  lemma RemoveUndoesAdd(db: Db, user: UserId, productId: ProductId, quantity: Option<int>)
    requires CartsValid(db.carts) && user in db.carts
    requires FindLine(db.carts[user].items, productId).None?
    requires FindLine(db.carts[user].items, CastId(productId)).None?
    requires AddToCart(db, user, productId, quantity).answer.Ok?
    ensures var added := AddToCart(db, user, productId, quantity).db;
            RemoveFromCart(added, user, CastId(productId)).answer == Ok(db.carts[user])
  {
    var cart := db.carts[user];
    var j := FindProduct(db.products, CastId(productId)).value;
    var p := db.products[j];
    var line := CartLine(p.id, p.name, p.price, p.image, quantity.GetOr(1));
    var c := AddToCart(db, user, productId, quantity).answer.value;
    var keep := OtherThan(CastId(productId));
    assert c.items == cart.items + [line];
    FilterAppend(cart.items, [line], keep);
    FilterKeepsAll(cart.items, keep);
    assert Filter([line], keep) == [];
    assert Filter(c.items, keep) == cart.items;
  }

  /** Removing twice is removing once. */
  lemma RemoveIdempotent(db: Db, user: UserId, productId: ProductId)
    requires RemoveFromCart(db, user, productId).answer.Ok?
    ensures var r := RemoveFromCart(db, user, productId);
            RemoveFromCart(r.db, user, productId) == r
  {
    var r := RemoveFromCart(db, user, productId);
    var items := r.answer.value.items;
    FilterKeepsAll(items, OtherThan(productId));
  }

  /** Removing keeps the stored carts valid. */
  lemma RemoveKeepsCartsValid(db: Db, user: UserId, productId: ProductId)
    requires CartsValid(db.carts)
    ensures CartsValid(RemoveFromCart(db, user, productId).db.carts)
  {
    if user in db.carts {
      FilterUnique(db.carts[user].items, OtherThan(productId));
    }
  }

  /** Setting a line to the quantity it already has answers with the same cart. */
  lemma UpdateIdempotent(db: Db, user: UserId, productId: ProductId, quantity: Option<int>)
    requires UpdateCartItem(db, user, productId, quantity).answer.Ok?
    ensures var r := UpdateCartItem(db, user, productId, quantity);
            UpdateCartItem(r.db, user, productId, quantity) == r
  {
    var r := UpdateCartItem(db, user, productId, quantity);
    var old_ := db.carts[user].items;
    var k := FindLine(old_, productId).value;
    var items := r.answer.value.items;
    assert forall i :: 0 <= i < |items| ==> items[i].product == old_[i].product;
    assert FindLine(items, productId) == Some(k);
    assert items[k := items[k].(quantity := quantity.value)] == items;
  }

  /** With valid carts, an update succeeds exactly when a quantity is given, the requester has a
      cart with a line for the product, the product exists, and the quantity is in [1, stock]. */
  lemma UpdateSucceeds(db: Db, user: UserId, productId: ProductId, quantity: Option<int>)
    requires CartsValid(db.carts)
    ensures UpdateCartItem(db, user, productId, quantity).answer.Ok? <==>
              && quantity.Some? && user in db.carts
              && FindLine(db.carts[user].items, productId).Some?
              && FindProduct(db.products, CastId(productId)).Some?
              && 1 <= quantity.value <= db.products[FindProduct(db.products, CastId(productId)).value].stock
  {
    if user in db.carts {
      assert CartModel.Valid(db.carts[user]);
    }
  }

  /** Updating keeps the stored carts valid. */
  lemma UpdateKeepsCartsValid(db: Db, user: UserId, productId: ProductId, quantity: Option<int>)
    requires CartsValid(db.carts)
    ensures CartsValid(UpdateCartItem(db, user, productId, quantity).db.carts)
  {
    var r := UpdateCartItem(db, user, productId, quantity);
    if r.answer.Ok? {
      var old_ := db.carts[user].items;
      assert forall i :: 0 <= i < |old_| ==> r.answer.value.items[i].product == old_[i].product;
    }
  }

  /** After clearing, reading the cart answers with an empty cart, and clearing again changes nothing. */
  lemma ClearThenGet(db: Db, user: UserId)
    requires user in db.carts
    ensures var d := ClearCart(db, user).db;
            && GetCart(d, user).answer.value.items == []
            && GetCart(d, user).answer.value.totalItems == 0
            && ClearCart(d, user) == ClearCart(db, user).(db := d)
  {
  }

  /** The body's quantity is not checked for sign: adding a negative quantity to a line already in
      the cart lowers it, so long as it stays at least 1. */
  lemma AddNegativeQuantityLowers(db: Db, user: UserId, productId: ProductId, q: int)
    requires ProductsValid(db.products) && CartsValid(db.carts) && user in db.carts
    requires FindProduct(db.products, CastId(productId)).Some?
    requires FindLine(db.carts[user].items, productId).Some?
    requires var line := db.carts[user].items[FindLine(db.carts[user].items, productId).value];
             q < 0 && line.quantity + q >= 1 && line.quantity <= db.products[FindProduct(db.products, CastId(productId)).value].stock
    ensures var r := AddToCart(db, user, productId, Some(q));
            && r.answer.Ok?
            && r.answer.value.totalItems == SumQuantities(db.carts[user].items) + q
            && r.answer.value.totalItems < db.carts[user].totalItems
  {
    var cart := db.carts[user];
    var k := FindLine(cart.items, productId).value;
    var j := FindProduct(db.products, CastId(productId)).value;
    assert LineValid(cart.items[k]);
    assert ProductModel.Valid(db.products[j]);
    AddSucceeds(db, user, productId, Some(q));
  }
}

=== FILE: cart_model.dfy ===
/** The server-side cart document (`models/Cart.ts`): lines that snapshot a product, and the
    two totals the pre-save hook recomputes from them. Money is held in integer cents. */
module CartModel {
  import opened Wrappers
  import opened Errors
  import opened Seqs
  import opened ProductModel
  import UserModel

  /** The owning account's id. */
  type UserId = UserModel.UserId

  datatype CartLine = CartLine(product: ProductId, name: string, price: int, image: string, quantity: int)

  datatype Cart = Cart(user: UserId, items: seq<CartLine>, totalItems: int, totalPrice: int)

  /** `items.reduce((sum, item) => sum + item.quantity, 0)`. */
  function SumQuantities(items: seq<CartLine>): int {
    if items == [] then 0 else items[0].quantity + SumQuantities(items[1..])
  }

  /** `items.reduce((sum, item) => sum + item.price * item.quantity, 0)`. */
  function SumPrices(items: seq<CartLine>): int {
    if items == [] then 0 else items[0].price * items[0].quantity + SumPrices(items[1..])
  }

  /** The line bounds of the item schema: a quantity of at least 1, a price of at least 0, and the
      required strings non-empty. */
  predicate LineValid(l: CartLine) {
    l.quantity >= 1 && l.price >= 0 && l.name != [] && l.image != []
  }

  predicate LinesValid(items: seq<CartLine>) {
    forall i :: 0 <= i < |items| ==> LineValid(items[i])
  }

  /** No two lines refer to the same product. */
  predicate UniqueProducts(items: seq<CartLine>) {
    forall i, j :: 0 <= i < j < |items| ==> items[i].product != items[j].product
  }

  predicate TotalsConsistent(c: Cart) {
    c.totalItems == SumQuantities(c.items) && c.totalPrice == SumPrices(c.items)
  }

  /** What every stored cart satisfies once written through `save()`. */
  predicate Valid(c: Cart) {
    LinesValid(c.items) && TotalsConsistent(c)
  }

  /** The index of the first line for `pid` (`findIndex`), or `None` for -1. */
  function FindLine(items: seq<CartLine>, pid: ProductId): (r: Option<nat>)
    ensures r.Some? ==> r.value < |items| && items[r.value].product == pid
    ensures r.Some? ==> forall k :: 0 <= k < r.value ==> items[k].product != pid
    ensures r.None? <==> forall k :: 0 <= k < |items| ==> items[k].product != pid
  {
    FindIndex(items, (l: CartLine) => l.product == pid)
  }

  /** The lookup finds a position exactly when it holds the product and no earlier one does. */
  lemma FindLineAt(items: seq<CartLine>, pid: ProductId, k: nat)
    requires k < |items| && items[k].product == pid
    requires forall j :: 0 <= j < k ==> items[j].product != pid
    ensures FindLine(items, pid) == Some(k)
  {
  }

  /** The sums split over concatenation. */
  lemma {:induction false} SumsAppend(a: seq<CartLine>, b: seq<CartLine>)
    ensures SumQuantities(a + b) == SumQuantities(a) + SumQuantities(b)
    ensures SumPrices(a + b) == SumPrices(a) + SumPrices(b)
  {
    if a == [] {
      assert a + b == b;
    } else {
      assert (a + b)[1..] == a[1..] + b;
      SumsAppend(a[1..], b);
    }
  }

  /** With valid lines the total item count is at least the number of lines, and both totals are
      non-negative: the schema's `min: 0` on the totals can never fail. */
  lemma {:induction false} TotalsBounds(items: seq<CartLine>)
    requires LinesValid(items)
    ensures SumQuantities(items) >= |items|
    ensures SumPrices(items) >= 0
  {
    if items != [] {
      assert LinesValid(items[1..]) by {
        forall i | 0 <= i < |items[1..]|
          ensures LineValid(items[1..][i])
        {
          assert items[1..][i] == items[i + 1];
        }
      }
      TotalsBounds(items[1..]);
      assert LineValid(items[0]);
      assert items[0].price * items[0].quantity >= 0;
    }
  }

  /** Changing one line's quantity moves the item total by exactly the difference. */
  lemma SetQuantityDelta(items: seq<CartLine>, k: nat, q: int)
    requires k < |items|
    ensures SumQuantities(items[k := items[k].(quantity := q)]) == SumQuantities(items) - items[k].quantity + q
  {
    var l := items[k].(quantity := q);
    var upd := items[k := l];
    assert items == items[..k] + [items[k]] + items[k + 1..];
    assert upd == items[..k] + [l] + items[k + 1..];
    SumsAppend(items[..k] + [items[k]], items[k + 1..]);
    SumsAppend(items[..k], [items[k]]);
    SumsAppend(items[..k] + [l], items[k + 1..]);
    SumsAppend(items[..k], [l]);
  }

  /** Raising or lowering one valid line to a quantity of at least 1 keeps every line valid. */
  lemma SetQuantityKeepsValid(items: seq<CartLine>, k: nat, q: int)
    requires LinesValid(items) && k < |items| && q >= 1
    ensures LinesValid(items[k := items[k].(quantity := q)])
  {
    var r := items[k := items[k].(quantity := q)];
    forall i | 0 <= i < |r|
      ensures LineValid(r[i])
    {
      assert LineValid(items[i]);
    }
  }

  /** Appending a valid line to valid lines gives valid lines. */
  lemma AppendKeepsValid(items: seq<CartLine>, l: CartLine)
    requires LinesValid(items) && LineValid(l)
    ensures LinesValid(items + [l])
  {
    var r := items + [l];
    forall i | 0 <= i < |r|
      ensures LineValid(r[i])
    {
      if i < |items| {
        assert r[i] == items[i];
      }
    }
  }

  /** `cart.save()`: the schema validates the lines, then the pre-save hook recomputes both totals. */
  function Save(c: Cart): (r: Result<Cart, Error>)
    ensures r.Ok? <==> LinesValid(c.items)
    ensures r.Ok? ==> Valid(r.value) && r.value.items == c.items && r.value.user == c.user
    ensures r.Ok? ==> r.value.totalItems >= |c.items| && r.value.totalPrice >= 0
    ensures r.Ok? && c.items == [] ==> r.value.totalItems == 0 && r.value.totalPrice == 0
  {
    if LinesValid(c.items) then
      TotalsBounds(c.items);
      Ok(Cart(c.user, c.items, SumQuantities(c.items), SumPrices(c.items)))
    else
      Err(BadRequest("Cart validation failed"))
  }

  /** `Cart.create({ user, items: [] })`. */
  function Empty(u: UserId): (c: Cart)
    ensures Valid(c) && c.user == u && c.items == []
    ensures c.totalItems == 0 && c.totalPrice == 0
  {
    Cart(u, [], 0, 0)
  }
}

=== FILE: cart_page.dfy ===
/** The cart page's plus and minus buttons (`pages/cart/CardPage.tsx`): each calls the cart's
    `updateQuantity` with one more or one fewer, guarded so a line never goes above its product's
    stock or below one. */
module CartPage {
  import opened ShopTypes
  import opened CartProvider

  /** `handleIncrease`: one more of the line, only while below the stock. Only lines with the id
      change, and no line is added or removed, except that a quantity passed in below zero makes
      `updateQuantity` drop the line. */
  function HandleIncrease(items: seq<CartItem>, id: string, q: int, stock: int): (r: seq<CartItem>)
    ensures q < stock && q + 1 <= 0 ==> r == RemoveFromCart(items, id)
    ensures q >= 0 || q >= stock ==> |r| == |items|
    ensures q >= 0 || q >= stock ==> forall i :: 0 <= i < |items| ==> r[i].product == items[i].product
    ensures q >= 0 || q >= stock ==> forall i :: 0 <= i < |items| && items[i].Id() != id ==> r[i] == items[i]
    ensures q >= 0 || q >= stock ==> forall i :: 0 <= i < |items| && items[i].Id() == id ==>
      r[i].quantity == if q < stock then q + 1 else items[i].quantity
  {
    if q < stock then UpdateQuantity(items, id, q + 1) else items
  }

  /** `handleDecrease`: one fewer of the line, only while above one, so it never reaches the
      removal that `updateQuantity` performs at zero. */
  function HandleDecrease(items: seq<CartItem>, id: string, q: int): (r: seq<CartItem>)
    ensures |r| == |items|
    ensures forall i :: 0 <= i < |items| ==> r[i].product == items[i].product
    ensures forall i :: 0 <= i < |items| && items[i].Id() != id ==> r[i] == items[i]
    ensures forall i :: 0 <= i < |items| && items[i].Id() == id ==>
      r[i].quantity == if q > 1 then q - 1 else items[i].quantity
  {
    if q > 1 then UpdateQuantity(items, id, q - 1) else items
  }

  /** A button press on the line at a position; the line passes its own quantity and stock. */
  datatype Click = Plus(line: nat) | Minus(line: nat)

  function Apply(items: seq<CartItem>, c: Click): seq<CartItem> {
    if c.line >= |items| then items
    else
      var it := items[c.line];
      match c
      case Plus(_) => HandleIncrease(items, it.Id(), it.quantity, it.product.stock)
      case Minus(_) => HandleDecrease(items, it.Id(), it.quantity)
  }

  /** Every line holds between one and its product's stock. */
  predicate Bounded(items: seq<CartItem>) {
    forall i :: 0 <= i < |items| ==> 1 <= items[i].quantity <= items[i].product.stock
  }

  /** One press keeps the lines, their ids and products, and keeps every line within bounds. */
  lemma ApplyKeepsBounded(items: seq<CartItem>, c: Click)
    requires UniqueIds(items) && Bounded(items)
    ensures |Apply(items, c)| == |items|
    ensures forall i :: 0 <= i < |items| ==> Apply(items, c)[i].product == items[i].product
    ensures UniqueIds(Apply(items, c)) && Bounded(Apply(items, c))
  {
    var r := Apply(items, c);
    if c.line < |items| {
      forall i | 0 <= i < |items|
        ensures 1 <= r[i].quantity <= r[i].product.stock
      {
        if i != c.line {
          assert items[i].Id() != items[c.line].Id();
        }
      }
      assert forall i :: 0 <= i < |items| ==> r[i].Id() == items[i].Id();
    }
  }

  /** The lines after a run of presses. */
  function ApplyAll(items: seq<CartItem>, cs: seq<Click>): seq<CartItem>
    decreases |cs|
  {
    if cs == [] then items else ApplyAll(Apply(items, cs[0]), cs[1..])
  }

  /** Whatever the presses, every line stays in `[1, stock]` and none appears or disappears. */
  lemma {:induction false} ApplyAllKeepsBounded(items: seq<CartItem>, cs: seq<Click>)
    requires UniqueIds(items) && Bounded(items)
    ensures UniqueIds(ApplyAll(items, cs)) && Bounded(ApplyAll(items, cs))
    ensures |ApplyAll(items, cs)| == |items|
    ensures forall i :: 0 <= i < |items| ==> ApplyAll(items, cs)[i].product == items[i].product
    decreases |cs|
  {
    if cs != [] {
      ApplyKeepsBounded(items, cs[0]);
      ApplyAllKeepsBounded(Apply(items, cs[0]), cs[1..]);
    }
  }
}

=== FILE: cart_provider.dfy ===
/** The client-side cart (`context/CartProvider.tsx`): each operation is the pure update the
    provider hands to `setItems`, from the current lines to the next ones, and the two totals are
    recomputed from the lines on every render. */
module CartProvider {
  import opened Wrappers
  import opened Seqs
  import opened ShopTypes

  /** `totalItems`: the sum of the quantities. */
  function TotalItems(items: seq<CartItem>): int {
    if items == [] then 0 else items[0].quantity + TotalItems(items[1..])
  }

  /** `totalPrice`: the sum of price times quantity. */
  function TotalPrice(items: seq<CartItem>): int {
    if items == [] then 0 else items[0].product.price * items[0].quantity + TotalPrice(items[1..])
  }

  /** The summed quantity of the lines that carry `id`. */
  function QtyOf(items: seq<CartItem>, id: string): int {
    if items == [] then 0 else (if items[0].Id() == id then items[0].quantity else 0) + QtyOf(items[1..], id)
  }

  predicate UniqueIds(items: seq<CartItem>) {
    forall i, j :: 0 <= i < j < |items| ==> items[i].Id() != items[j].Id()
  }

  /** `items.find(item => item.id === id)`, as a position. */
  function FindItem(items: seq<CartItem>, id: string): (r: Option<nat>)
    ensures r.Some? ==> r.value < |items| && items[r.value].Id() == id
    ensures r.Some? ==> forall k :: 0 <= k < r.value ==> items[k].Id() != id
    ensures r.None? <==> forall k :: 0 <= k < |items| ==> items[k].Id() != id
  {
    FindIndex(items, (it: CartItem) => it.Id() == id)
  }

  /** `isInCart`: some line carries the id. */
  function IsInCart(items: seq<CartItem>, id: string): (r: bool)
    ensures r <==> exists k :: 0 <= k < |items| && items[k].Id() == id
  {
    FindItem(items, id).Some?
  }

  /** `getItemQuantity`: the quantity of the first line with the id, or 0. */
  function GetItemQuantity(items: seq<CartItem>, id: string): (r: int)
    ensures !IsInCart(items, id) ==> r == 0
    ensures IsInCart(items, id) ==> exists k :: 0 <= k < |items| && items[k].Id() == id && r == items[k].quantity
  {
    match FindItem(items, id)
    case None => 0
    case Some(k) => items[k].quantity
  }

  /** Every line with the id gets its quantity raised by `q` (when `add`) or set to `q`; the
      others stay as they are. */
  function MapQuantity(items: seq<CartItem>, id: string, q: int, add: bool): (r: seq<CartItem>)
    ensures |r| == |items|
    ensures forall i :: 0 <= i < |items| ==>
      r[i] == if items[i].Id() == id then items[i].(quantity := if add then items[i].quantity + q else q) else items[i]
  {
    if items == [] then []
    else
      var head := if items[0].Id() == id then items[0].(quantity := if add then items[0].quantity + q else q) else items[0];
      [head] + MapQuantity(items[1..], id, q, add)
  }

  /** `addToCart(product, quantity)`: an id already present has its line raised by `quantity`;
      a new id is appended as one line at the end. */
  function AddToCart(items: seq<CartItem>, p: Product, quantity: int): (r: seq<CartItem>)
    ensures IsInCart(items, p.id) ==> |r| == |items|
    ensures IsInCart(items, p.id) ==> forall i :: 0 <= i < |items| ==>
      r[i] == if items[i].Id() == p.id then items[i].(quantity := items[i].quantity + quantity) else items[i]
    ensures !IsInCart(items, p.id) ==> r == items + [CartItem(p, quantity)]
  {
    if IsInCart(items, p.id) then MapQuantity(items, p.id, quantity, true) else items + [CartItem(p, quantity)]
  }

  /** The lines without the id. */
  function OtherItem(id: string): (keep: CartItem -> bool)
    ensures forall it :: keep(it) <==> it.Id() != id
  {
    (it: CartItem) => it.Id() != id
  }

  /** `removeFromCart(id)`: every line with the id goes, the others stay in order. */
  function RemoveFromCart(items: seq<CartItem>, id: string): (r: seq<CartItem>)
    ensures !IsInCart(r, id)
    ensures forall it :: it in r <==> it in items && it.Id() != id
    ensures !IsInCart(items, id) ==> r == items
  {
    var keep := OtherItem(id);
    if !IsInCart(items, id) then
      FilterKeepsAll(items, keep);
      Filter(items, keep)
    else
      Filter(items, keep)
  }

  /** `updateQuantity(id, quantity)`: a quantity of 0 or less removes the line; otherwise every
      line with the id gets that quantity and the rest stay. */
  function UpdateQuantity(items: seq<CartItem>, id: string, quantity: int): (r: seq<CartItem>)
    ensures quantity <= 0 ==> r == RemoveFromCart(items, id)
    ensures quantity > 0 ==> |r| == |items|
    ensures quantity > 0 ==> forall i :: 0 <= i < |items| ==>
      r[i] == if items[i].Id() == id then items[i].(quantity := quantity) else items[i]
  {
    if quantity <= 0 then RemoveFromCart(items, id) else MapQuantity(items, id, quantity, false)
  }

  /** `clearCart`. */
  function ClearCart(items: seq<CartItem>): (r: seq<CartItem>)
    ensures r == [] && TotalItems(r) == 0 && TotalPrice(r) == 0
  {
    []
  }

  /** The three sums split over a concatenation. */
  lemma {:induction false} SumsAppend(xs: seq<CartItem>, ys: seq<CartItem>, id: string)
    ensures TotalItems(xs + ys) == TotalItems(xs) + TotalItems(ys)
    ensures TotalPrice(xs + ys) == TotalPrice(xs) + TotalPrice(ys)
    ensures QtyOf(xs + ys, id) == QtyOf(xs, id) + QtyOf(ys, id)
  {
    if xs == [] {
      assert xs + ys == ys;
    } else {
      assert (xs + ys)[1..] == xs[1..] + ys;
      SumsAppend(xs[1..], ys, id);
    }
  }

  /** Two carts whose lines carry the same ids in the same order find every id at the same place. */
  lemma SameIdsSameFind(a: seq<CartItem>, b: seq<CartItem>, id: string)
    requires |a| == |b| && forall i :: 0 <= i < |a| ==> a[i].Id() == b[i].Id()
    ensures FindItem(a, id) == FindItem(b, id)
  {
    var fa, fb := FindItem(a, id), FindItem(b, id);
    if fa.Some? && fb.Some? {
      assert !(fa.value < fb.value) && !(fb.value < fa.value);
    }
  }

  /** Raising or setting quantities keeps the ids in place. */
  lemma MapKeepsIds(items: seq<CartItem>, id: string, q: int, add: bool)
    ensures UniqueIds(items) ==> UniqueIds(MapQuantity(items, id, q, add))
    ensures forall x :: FindItem(MapQuantity(items, id, q, add), x) == FindItem(items, x)
  {
    var r := MapQuantity(items, id, q, add);
    assert forall i :: 0 <= i < |r| ==> r[i].Id() == items[i].Id();
    forall x
      ensures FindItem(r, x) == FindItem(items, x)
    {
      SameIdsSameFind(r, items, x);
    }
  }

  /** `getItemQuantity` after `addToCart` is the quantity before plus the amount added, whether
      the id was present or not; no other id's quantity moves. */
  lemma AddThenGet(items: seq<CartItem>, p: Product, q: int, other: string)
    requires other != p.id
    ensures GetItemQuantity(AddToCart(items, p, q), p.id) == GetItemQuantity(items, p.id) + q
    ensures GetItemQuantity(AddToCart(items, p, q), other) == GetItemQuantity(items, other)
    ensures IsInCart(AddToCart(items, p, q), p.id)
  {
    var r := AddToCart(items, p, q);
    if IsInCart(items, p.id) {
      MapKeepsIds(items, p.id, q, true);
    } else {
      AppendNewLine(items, p, q, other);
    }
  }

  /** Appending the line of an absent id finds it at the end and every other id where it was. */
  lemma AppendNewLine(items: seq<CartItem>, p: Product, q: int, other: string)
    requires !IsInCart(items, p.id) && other != p.id
    ensures FindItem(items + [CartItem(p, q)], p.id) == Some(|items|)
    ensures FindItem(items + [CartItem(p, q)], other) == FindItem(items, other)
  {
    var r := items + [CartItem(p, q)];
    assert r[|items|] == CartItem(p, q);
    assert forall k :: 0 <= k < |items| ==> r[k] == items[k];
    match FindItem(items, other)
    case Some(k) =>
      assert FindItem(r, other) == Some(k);
    case None =>
      assert FindItem(r, other).None?;
  }

  /** With unique ids, `addToCart` raises `totalItems` by the amount added and keeps ids unique. */
  lemma AddKeepsUnique(items: seq<CartItem>, p: Product, q: int)
    requires UniqueIds(items)
    ensures UniqueIds(AddToCart(items, p, q))
    ensures TotalItems(AddToCart(items, p, q)) == TotalItems(items) + q
  {
    if IsInCart(items, p.id) {
      MapKeepsIds(items, p.id, q, true);
      MapAddTotal(items, p.id, q);
    } else {
      SumsAppend(items, [CartItem(p, q)], p.id);
    }
  }

  /** With unique ids, raising the line of a present id raises the total by exactly that much. */
  lemma {:induction false} MapAddTotal(items: seq<CartItem>, id: string, q: int)
    requires UniqueIds(items) && IsInCart(items, id)
    ensures TotalItems(MapQuantity(items, id, q, true)) == TotalItems(items) + q
  {
    var r := MapQuantity(items, id, q, true);
    assert r[1..] == MapQuantity(items[1..], id, q, true);
    UniqueTail(items);
    if items[0].Id() == id {
      MapAbsent(items[1..], id, q, true);
    } else {
      var k :| 0 <= k < |items| && items[k].Id() == id;
      assert items[1..][k - 1].Id() == id;
      MapAddTotal(items[1..], id, q);
    }
  }

  /** The lines after the first of a cart with unique ids have unique ids and none is the first's. */
  lemma UniqueTail(items: seq<CartItem>)
    requires UniqueIds(items) && items != []
    ensures UniqueIds(items[1..])
    ensures forall i :: 0 <= i < |items[1..]| ==> items[1..][i].Id() != items[0].Id()
  {
    forall i | 0 <= i < |items[1..]|
      ensures items[1..][i].Id() != items[0].Id()
    {
      assert items[1..][i] == items[i + 1];
    }
  }

  /** Raising or setting the quantity of an absent id changes no line. */
  lemma MapAbsent(items: seq<CartItem>, id: string, q: int, add: bool)
    requires forall i :: 0 <= i < |items| ==> items[i].Id() != id
    ensures MapQuantity(items, id, q, add) == items
  {
  }

  /** Removing an id takes exactly its quantity off `totalItems`. */
  lemma {:induction false} RemoveTotal(items: seq<CartItem>, id: string)
    ensures TotalItems(Filter(items, OtherItem(id))) == TotalItems(items) - QtyOf(items, id)
  {
    if items != [] {
      RemoveTotal(items[1..], id);
      assert Filter(items, OtherItem(id)) ==
        (if items[0].Id() != id then [items[0]] else []) + Filter(items[1..], OtherItem(id));
      SumsAppend(if items[0].Id() != id then [items[0]] else [], Filter(items[1..], OtherItem(id)), id);
    }
  }

  /** With unique ids, the summed quantity of an id is the one line's quantity. */
  lemma {:induction false} QtyOfUnique(items: seq<CartItem>, id: string)
    requires UniqueIds(items)
    ensures QtyOf(items, id) == GetItemQuantity(items, id)
  {
    if items != [] {
      var tail := items[1..];
      assert forall i :: 0 <= i < |tail| ==> tail[i] == items[i + 1];
      QtyOfUnique(tail, id);
      if items[0].Id() == id {
        assert !IsInCart(tail, id);
      } else {
        match FindItem(tail, id)
        case Some(k) =>
          FindIndexShift(items, id, k);
        case None =>
          assert FindItem(items, id).None?;
      }
    }
  }

  /** A lookup that misses the head finds the id one further along than in the tail. */
  lemma FindIndexShift(items: seq<CartItem>, id: string, k: nat)
    requires items != [] && items[0].Id() != id
    requires FindItem(items[1..], id) == Some(k)
    ensures FindItem(items, id) == Some(k + 1)
  {
    var tail := items[1..];
    assert items[k + 1] == tail[k];
    forall j | 0 <= j < k + 1
      ensures items[j].Id() != id
    {
      if j > 0 {
        assert items[j] == tail[j - 1];
      }
    }
    var f := FindItem(items, id);
    assert f.Some?;
    assert !(f.value < k + 1);
  }

  /** With unique ids, `removeFromCart` takes the line's quantity off `totalItems`. */
  lemma RemoveLowersTotal(items: seq<CartItem>, id: string)
    requires UniqueIds(items)
    ensures TotalItems(RemoveFromCart(items, id)) == TotalItems(items) - GetItemQuantity(items, id)
  {
    RemoveTotal(items, id);
    QtyOfUnique(items, id);
  }

  /** Removing an id that was added to a cart without it gives the cart back. */
  lemma RemoveUndoesAdd(items: seq<CartItem>, p: Product, q: int)
    requires !IsInCart(items, p.id)
    ensures RemoveFromCart(AddToCart(items, p, q), p.id) == items
  {
    var keep := OtherItem(p.id);
    FilterAppend(items, [CartItem(p, q)], keep);
    FilterKeepsAll(items, keep);
    assert Filter([CartItem(p, q)], keep) == [];
  }

  /** Removing a line keeps ids unique. */
  lemma RemoveKeepsUnique(items: seq<CartItem>, id: string)
    requires UniqueIds(items)
    ensures UniqueIds(RemoveFromCart(items, id))
  {
    var r := RemoveFromCart(items, id);
    FilterUniqueIds(items, OtherItem(id));
  }

  lemma {:induction false} FilterUniqueIds(items: seq<CartItem>, keep: CartItem -> bool)
    requires UniqueIds(items)
    ensures UniqueIds(Filter(items, keep))
  {
    if items != [] {
      var tail := items[1..];
      assert forall i :: 0 <= i < |tail| ==> tail[i] == items[i + 1];
      FilterUniqueIds(tail, keep);
      var rest := Filter(tail, keep);
      forall x | x in rest
        ensures x.Id() != items[0].Id()
      {
        assert x in tail;
      }
      assert Filter(items, keep) == (if keep(items[0]) then [items[0]] else []) + rest;
    }
  }

  /** `updateQuantity` with a positive quantity on a present id makes that the line's quantity,
      moves no other id's quantity and keeps ids unique; on an absent id it changes nothing. */
  lemma UpdateThenGet(items: seq<CartItem>, id: string, q: int, other: string)
    requires q > 0 && other != id
    ensures IsInCart(items, id) ==> GetItemQuantity(UpdateQuantity(items, id, q), id) == q
    ensures GetItemQuantity(UpdateQuantity(items, id, q), other) == GetItemQuantity(items, other)
    ensures !IsInCart(items, id) ==> UpdateQuantity(items, id, q) == items
    ensures UniqueIds(items) ==> UniqueIds(UpdateQuantity(items, id, q))
  {
    MapKeepsIds(items, id, q, false);
  }

  /** When every line holds at least one unit, an id is in the cart exactly when its quantity is
      positive. */
  lemma InCartIffQuantity(items: seq<CartItem>, id: string)
    requires forall i :: 0 <= i < |items| ==> items[i].quantity >= 1
    ensures IsInCart(items, id) <==> GetItemQuantity(items, id) >= 1
  {
  }
}

=== FILE: checkout.dfy ===
/** The checkout page's logic (`pages/checkout/hooks/useCheckout.ts`): the shipping fee and the
    order total, the three input formatters the payment form applies as the user types, the
    shipping and payment checks with the error maps they produce, and the place-order gate with
    what a placed order does to the stored orders and to the cart. Money is held in integer
    cents; the 10% tax is computed in floating point by the page and is a parameter here. */
module Checkout {
  import opened Seqs
  import opened Text
  import opened ShopTypes
  import CartProvider

  /** The subtotal from which shipping is free: $50. */
  const FreeShippingFrom: int := 5000

  /** The flat shipping fee below that: $10. */
  const FlatShipping: int := 1000

  /** `totalPrice >= 50 ? 0 : 10`. */
  function ShippingFee(subtotal: int): (fee: int)
    ensures fee == 0 || fee == FlatShipping
    ensures fee == 0 <==> subtotal >= FreeShippingFrom
  {
    if subtotal >= FreeShippingFrom then 0 else FlatShipping
  }

  /** `totalPrice + tax + shipping`. */
  function OrderTotal(subtotal: int, tax: int): (total: int)
    ensures subtotal + tax <= total <= subtotal + tax + FlatShipping
    ensures total == subtotal + tax <==> subtotal >= FreeShippingFrom
    ensures subtotal < FreeShippingFrom ==> total == subtotal + tax + FlatShipping
  {
    subtotal + tax + ShippingFee(subtotal)
  }

  /** A larger subtotal never costs more shipping. */
  lemma ShippingMonotone(a: int, b: int)
    requires a <= b
    ensures ShippingFee(b) <= ShippingFee(a)
  {
  }

  // ----- card number -----

  /** `.replace(/(\d{4})/g, '$1 ')`: scanning left to right, every run of four digits that starts
      where the previous match ended (or later) is followed by a space. */
  function GroupDigits(s: string): (r: string)
    decreases |s|
  {
    if |s| >= 4 && AllDigits(s[..4]) then s[..4] + " " + GroupDigits(s[4..])
    else if s == [] then []
    else [s[0]] + GroupDigits(s[1..])
  }

  /** Grouping only inserts spaces: taking the whitespace back out gives what went in, once its
      own whitespace is gone too. */
  lemma {:induction false} GroupDigitsStrip(s: string)
    ensures StripSpaces(GroupDigits(s)) == StripSpaces(s)
    decreases |s|
  {
    if |s| >= 4 && AllDigits(s[..4]) {
      GroupDigitsStrip(s[4..]);
      GroupStripBlock(s);
    } else if s != [] {
      GroupDigitsStrip(s[1..]);
      GroupStripChar(s);
    }
  }

  /** The step for a leading block of four digits. */
  lemma GroupStripBlock(s: string)
    requires |s| >= 4 && AllDigits(s[..4])
    requires StripSpaces(GroupDigits(s[4..])) == StripSpaces(s[4..])
    ensures StripSpaces(GroupDigits(s)) == StripSpaces(s)
  {
    var g := GroupDigits(s[4..]);
    assert GroupDigits(s) == (s[..4] + " ") + g;
    StripSpacesAppend(s[..4] + " ", g);
    StripSpacesAppend(s[..4], " ");
    assert StripSpaces(" ") == [];
    assert StripSpaces(s[..4] + " ") == StripSpaces(s[..4]);
    StripSpacesAppend(s[..4], s[4..]);
    assert s[..4] + s[4..] == s;
  }

  /** The step for a leading character that does not start a block of four digits. */
  lemma GroupStripChar(s: string)
    requires s != [] && !(|s| >= 4 && AllDigits(s[..4]))
    requires StripSpaces(GroupDigits(s[1..])) == StripSpaces(s[1..])
    ensures StripSpaces(GroupDigits(s)) == StripSpaces(s)
  {
    StripSpacesAppend([s[0]], GroupDigits(s[1..]));
    StripSpacesAppend([s[0]], s[1..]);
    assert [s[0]] + s[1..] == s;
  }

  /** The card-number formatter: whitespace removed, a space after each group of four digits,
      and the result trimmed. */
  function FormatCardNumber(v: string): (r: string)
    ensures Trimmed(r)
  {
    Trim(GroupDigits(StripSpaces(v)))
  }

  /** Removing whitespace from the formatted number gives the input without its whitespace. */
  lemma FormatCardNumberRoundTrip(v: string)
    ensures StripSpaces(FormatCardNumber(v)) == StripSpaces(v)
  {
    var s := StripSpaces(v);
    StripTrim(GroupDigits(s));
    GroupDigitsStrip(s);
    StripSpacesNoSpace(s);
  }

  /** Formatting an already formatted number changes nothing. */
  lemma FormatCardNumberIdempotent(v: string)
    ensures FormatCardNumber(FormatCardNumber(v)) == FormatCardNumber(v)
  {
    FormatCardNumberRoundTrip(v);
  }

  // ----- expiry date and CVV -----

  /** `s.substr(0, n)`. */
  function Prefix(s: string, n: nat): (r: string)
    ensures |r| <= n && |r| <= |s|
    ensures r == s[..|r|]
    ensures |s| >= n ==> |r| == n
  {
    if |s| <= n then s else s[..n]
  }

  /** The expiry formatter: only digits kept, a `/` put after the first two when a third digit
      follows, and the result cut to five characters. */
  function FormatExpiry(v: string): (r: string)
    ensures |r| <= 5
    ensures |DigitsOnly(v)| >= 3 ==> |r| >= 4 && r[2] == '/' && r[..2] == DigitsOnly(v)[..2]
    ensures |DigitsOnly(v)| < 3 ==> r == DigitsOnly(v)
  {
    var d := DigitsOnly(v);
    if |d| >= 3 then Prefix(d[..2] + "/" + d[2..], 5) else d
  }

  /** Taking the digits of two digit runs joined by a slash drops just the slash. */
  lemma DigitsAroundSlash(a: string, b: string)
    requires AllDigits(a) && AllDigits(b)
    ensures DigitsOnly(a + "/" + b) == a + b
  {
    assert DigitsOnly(a + "/") == a by {
      DigitsOnlyAppend(a, "/");
      assert DigitsOnly("/") == [];
      DigitsOnlyOfDigits(a);
    }
    assert DigitsOnly(b) == b by {
      DigitsOnlyOfDigits(b);
    }
    DigitsOnlyAppend(a + "/", b);
  }

  /** The formatted expiry holds exactly the first four digits of the input. */
  lemma FormatExpiryDigits(v: string)
    ensures DigitsOnly(FormatExpiry(v)) == Prefix(DigitsOnly(v), 4)
  {
    var d := DigitsOnly(v);
    if |d| >= 3 {
      var k := if |d| >= 4 then 4 else 3;
      assert FormatExpiry(v) == d[..2] + "/" + d[2..k];
      DigitsAroundSlash(d[..2], d[2..k]);
      assert d[..2] + d[2..k] == d[..k];
    } else {
      DigitsOnlyOfDigits(d);
    }
  }

  /** Formatting an already formatted expiry changes nothing. */
  lemma FormatExpiryIdempotent(v: string)
    ensures FormatExpiry(FormatExpiry(v)) == FormatExpiry(v)
  {
    var d := DigitsOnly(v);
    FormatExpiryDigits(v);
    if |d| >= 3 {
      var k := if |d| >= 4 then 4 else 3;
      assert DigitsOnly(FormatExpiry(v)) == d[..k];
      assert d[..k][..2] == d[..2] && d[..k][2..] == d[2..k];
    }
  }

  /** `/^\d{2}\/\d{2}$/`. */
  predicate ExpiryShaped(s: string) {
    |s| == 5 && IsDigit(s[0]) && IsDigit(s[1]) && s[2] == '/' && IsDigit(s[3]) && IsDigit(s[4])
  }

  /** The formatted expiry passes the check exactly when the input holds at least four digits. */
  lemma FormatExpiryShaped(v: string)
    ensures ExpiryShaped(FormatExpiry(v)) <==> |DigitsOnly(v)| >= 4
  {
    var d := DigitsOnly(v);
    if |d| >= 4 {
      assert FormatExpiry(v) == d[..2] + "/" + d[2..4];
    }
  }

  /** The CVV formatter: only digits kept, at most four. */
  function FormatCvv(v: string): (r: string)
    ensures AllDigits(r)
    ensures |r| == if |DigitsOnly(v)| >= 4 then 4 else |DigitsOnly(v)|
    ensures r == DigitsOnly(v)[..|r|]
  {
    Prefix(DigitsOnly(v), 4)
  }

  /** Formatting an already formatted CVV changes nothing. */
  lemma FormatCvvIdempotent(v: string)
    ensures FormatCvv(FormatCvv(v)) == FormatCvv(v)
  {
    DigitsOnlyOfDigits(FormatCvv(v));
  }

  /** `/^\d{3,4}$/`. */
  predicate CvvShaped(s: string) {
    3 <= |s| <= 4 && AllDigits(s)
  }

  /** The formatted CVV passes the check exactly when the input holds at least three digits. */
  lemma FormatCvvShaped(v: string)
    ensures CvvShaped(FormatCvv(v)) <==> |DigitsOnly(v)| >= 3
  {
  }

  // ----- shipping and payment checks -----

  datatype ShippingForm = ShippingForm(
    fullName: string,
    email: string,
    phone: string,
    address: string,
    city: string,
    state: string,
    zipCode: string,
    country: string)

  /** `/\S+@\S+\.\S+/.test(s)`: somewhere in `s`, a non-space, an `@`, one or more non-spaces, a
      `.`, and a non-space. */
  predicate LooseEmail(s: string) {
    exists at, dot :: 0 < at < |s| && 0 < dot < |s| && at + 1 < dot && dot + 1 < |s|
      && s[at] == '@' && s[dot] == '.'
      && !IsSpace(s[at - 1]) && NoSpace(s[at + 1..dot]) && !IsSpace(s[dot + 1])
  }

  /** Which of the checked shipping fields fail. */
  datatype ShippingFailures = ShippingFailures(
    fullName: bool, email: bool, phone: bool, address: bool, city: bool, state: bool, zipCode: bool)

  /** The shipping form's checked fields. */
  const ShippingKeys: set<string> := {"fullName", "email", "phone", "address", "city", "state", "zipCode"}

  /** Whether the field `k` is among the failures. */
  predicate ShippingFailed(x: ShippingFailures, k: string) {
    if k == "fullName" then x.fullName
    else if k == "email" then x.email
    else if k == "phone" then x.phone
    else if k == "address" then x.address
    else if k == "city" then x.city
    else if k == "state" then x.state
    else k == "zipCode" && x.zipCode
  }

  /** The page's message for a failed shipping field. */
  function ShippingMessage(k: string): string {
    if k == "fullName" then "Full name is required"
    else if k == "email" then "Valid email is required"
    else if k == "phone" then "Phone number is required"
    else if k == "address" then "Address is required"
    else if k == "city" then "City is required"
    else if k == "state" then "State is required"
    else "ZIP code is required"
  }

  /** The error map for a set of failures: one entry, with the page's message, per failed field. */
  function ShippingErrorMap(x: ShippingFailures): (r: map<string, string>)
    ensures "fullName" in r <==> x.fullName
    ensures "email" in r <==> x.email
    ensures "phone" in r <==> x.phone
    ensures "address" in r <==> x.address
    ensures "city" in r <==> x.city
    ensures "state" in r <==> x.state
    ensures "zipCode" in r <==> x.zipCode
    ensures r.Keys <= ShippingKeys
  {
    map k | k in ShippingKeys && ShippingFailed(x, k) :: ShippingMessage(k)
  }

  /** The error map `validateShipping` builds: one entry per failed field. */
  function ShippingErrors(f: ShippingForm): (r: map<string, string>)
    ensures "fullName" in r <==> IsBlank(f.fullName)
    ensures "email" in r <==> IsBlank(f.email) || !LooseEmail(f.email)
    ensures "phone" in r <==> IsBlank(f.phone)
    ensures "address" in r <==> IsBlank(f.address)
    ensures "city" in r <==> IsBlank(f.city)
    ensures "state" in r <==> IsBlank(f.state)
    ensures "zipCode" in r <==> IsBlank(f.zipCode)
    ensures r.Keys <= ShippingKeys
  {
    ShippingErrorMap(ShippingFailures(
      IsBlank(f.fullName), IsBlank(f.email) || !LooseEmail(f.email), IsBlank(f.phone),
      IsBlank(f.address), IsBlank(f.city), IsBlank(f.state), IsBlank(f.zipCode)))
  }

  /** `validateShipping`: every field but the country is non-blank and the email looks like one. */
  function ValidateShipping(f: ShippingForm): (ok: bool)
    ensures ok <==>
      && !IsBlank(f.fullName) && !IsBlank(f.email) && LooseEmail(f.email)
      && !IsBlank(f.phone) && !IsBlank(f.address) && !IsBlank(f.city)
      && !IsBlank(f.state) && !IsBlank(f.zipCode)
  {
    ShippingErrors(f) == map[]
  }

  /** The country is never checked. */
  lemma CountryNotChecked(f: ShippingForm, c: string)
    ensures ShippingErrors(f.(country := c)) == ShippingErrors(f)
  {
  }

  datatype PaymentForm = PaymentForm(cardNumber: string, cardName: string, expiryDate: string, cvv: string)

  /** The payment method the page offers. */
  datatype PayMethod = Card | PayPal

  /** `/^\d{16}$/` on the number with whitespace removed. */
  predicate CardNumberShaped(s: string) {
    var d := StripSpaces(s);
    |d| == 16 && AllDigits(d)
  }

  /** Which card fields fail their check. */
  datatype PaymentFailures = PaymentFailures(cardNumber: bool, cardName: bool, expiryDate: bool, cvv: bool)

  /** The error map for a set of failures: one entry, with the page's message, per failed field. */
  function PaymentErrorMap(x: PaymentFailures): (r: map<string, string>)
    ensures "cardNumber" in r <==> x.cardNumber
    ensures "cardName" in r <==> x.cardName
    ensures "expiryDate" in r <==> x.expiryDate
    ensures "cvv" in r <==> x.cvv
    ensures r.Keys <= {"cardNumber", "cardName", "expiryDate", "cvv"}
  {
    var e1 := if x.cardNumber then map["cardNumber" := "Valid 16-digit card number required"] else map[];
    var e2 := if x.cardName then e1["cardName" := "Cardholder name is required"] else e1;
    var e3 := if x.expiryDate then e2["expiryDate" := "Valid expiry date required (MM/YY)"] else e2;
    if x.cvv then e3["cvv" := "Valid CVV required"] else e3
  }

  /** The error map `validatePayment` builds for a card. */
  function PaymentErrors(p: PaymentForm): (r: map<string, string>)
    ensures "cardNumber" in r <==> !CardNumberShaped(p.cardNumber)
    ensures "cardName" in r <==> IsBlank(p.cardName)
    ensures "expiryDate" in r <==> !ExpiryShaped(p.expiryDate)
    ensures "cvv" in r <==> !CvvShaped(p.cvv)
    ensures r.Keys <= {"cardNumber", "cardName", "expiryDate", "cvv"}
  {
    PaymentErrorMap(PaymentFailures(
      !CardNumberShaped(p.cardNumber), IsBlank(p.cardName), !ExpiryShaped(p.expiryDate), !CvvShaped(p.cvv)))
  }

  /** `validatePayment`: PayPal always passes; a card passes when every field has its shape. */
  function ValidatePayment(m: PayMethod, p: PaymentForm): (ok: bool)
    ensures m == PayPal ==> ok
    ensures m == Card ==> (ok <==> CardNumberShaped(p.cardNumber) && !IsBlank(p.cardName)
                                   && ExpiryShaped(p.expiryDate) && CvvShaped(p.cvv))
  {
    m == PayPal || PaymentErrors(p) == map[]
  }

  /** What the formatters leave in the form always has the shape the card check wants, as long
      as the user typed enough digits: the formatters and the check agree. */
  lemma FormattedCardPasses(number: string, name: string, expiry: string, cvv: string)
    requires |StripSpaces(number)| == 16 && AllDigits(StripSpaces(number))
    requires !IsBlank(name) && |DigitsOnly(expiry)| >= 4 && |DigitsOnly(cvv)| >= 3
    ensures ValidatePayment(Card, PaymentForm(FormatCardNumber(number), name, FormatExpiry(expiry), FormatCvv(cvv)))
  {
    FormatCardNumberRoundTrip(number);
    FormatExpiryShaped(expiry);
  }

  // ----- placing the order -----

  /** The order record the page appends to the browser's stored orders. */
  datatype StoredOrder = StoredOrder(
    id: string,
    items: seq<CartItem>,
    shippingInfo: ShippingForm,
    paymentMethod: PayMethod,
    subtotal: int,
    tax: int,
    shipping: int,
    total: int,
    date: int)

  /** What the page holds around checkout: the error map shown, the stored orders and the cart. */
  datatype Page = Page(errors: map<string, string>, orders: seq<StoredOrder>, cart: seq<CartItem>)

  /** `handlePlaceOrder`: the shipping check runs first and, when it fails, its errors are shown
      and nothing else happens (the payment check is not run); otherwise the payment check runs
      and its errors are merged in; only when both pass is the order appended to the stored orders
      and the cart cleared. `id` and `date` are the page's `ORD-<now>` and clock reading, and
      `tax` its floating-point 10%. */
  function PlaceOrder(pg: Page, f: ShippingForm, m: PayMethod, p: PaymentForm,
                      tax: int, id: string, date: int): (r: Page)
    ensures !ValidateShipping(f) ==> r == pg.(errors := ShippingErrors(f))
    ensures ValidateShipping(f) && !ValidatePayment(m, p) ==>
      r == pg.(errors := PaymentErrors(p))
    ensures ValidateShipping(f) && ValidatePayment(m, p) ==>
      var sub := CartProvider.TotalPrice(pg.cart);
      && r.cart == []
      && r.orders == pg.orders + [StoredOrder(id, pg.cart, f, m, sub, tax, ShippingFee(sub), OrderTotal(sub, tax), date)]
  {
    var shipErrors := ShippingErrors(f);
    if shipErrors != map[] then pg.(errors := shipErrors)
    else if m == PayPal then pg.(errors := shipErrors, orders := pg.orders + [Placed(pg.cart, f, m, tax, id, date)], cart := [])
    else
      var payErrors := PaymentErrors(p);
      var merged := shipErrors + payErrors;
      assert merged == payErrors;
      if payErrors != map[] then pg.(errors := merged)
      else pg.(errors := merged, orders := pg.orders + [Placed(pg.cart, f, m, tax, id, date)], cart := CartProvider.ClearCart(pg.cart))
  }

  function Placed(cart: seq<CartItem>, f: ShippingForm, m: PayMethod, tax: int, id: string, date: int): (o: StoredOrder)
    ensures o.items == cart && o.subtotal == CartProvider.TotalPrice(cart)
    ensures o.total == o.subtotal + tax + o.shipping
  {
    var sub := CartProvider.TotalPrice(cart);
    StoredOrder(id, cart, f, m, sub, tax, ShippingFee(sub), OrderTotal(sub, tax), date)
  }

  /** An order is placed exactly when both checks pass, and placing one grows the stored orders by
      exactly one while a refusal leaves orders and cart alone. */
  lemma PlaceOrderGate(pg: Page, f: ShippingForm, m: PayMethod, p: PaymentForm, tax: int, id: string, date: int)
    ensures |PlaceOrder(pg, f, m, p, tax, id, date).orders| == |pg.orders| + 1 <==>
            ValidateShipping(f) && ValidatePayment(m, p)
    ensures !(ValidateShipping(f) && ValidatePayment(m, p)) ==>
            PlaceOrder(pg, f, m, p, tax, id, date).orders == pg.orders && PlaceOrder(pg, f, m, p, tax, id, date).cart == pg.cart
  {
  }

  /** When the shipping check fails, what happens does not depend on the payment method or on
      anything typed into the payment form. */
  lemma PaymentIgnoredWhenShippingFails(pg: Page, f: ShippingForm, m1: PayMethod, p1: PaymentForm,
                                        m2: PayMethod, p2: PaymentForm, tax: int, id: string, date: int)
    requires !ValidateShipping(f)
    ensures PlaceOrder(pg, f, m1, p1, tax, id, date) == PlaceOrder(pg, f, m2, p2, tax, id, date)
  {
  }
}

=== FILE: database.dfy ===
/** The three collections the backend handlers read and write, and what the schemas and
    handlers keep true of them. Products and orders are held in the collection's natural
    (insertion) order; carts are keyed by their owner, which the schema's unique index on
    `user` makes a function. */
module Database {
  import opened Wrappers
  import opened Seqs
  import opened Text
  import opened ProductModel
  import opened CartModel
  import opened OrderModel

  datatype Db = Db(products: seq<Product>, carts: map<UserId, Cart>, orders: seq<Order>)

  predicate IsHexDigit(c: char) {
    '0' <= c <= '9' || 'a' <= c <= 'f' || 'A' <= c <= 'F'
  }

  /** The hexadecimal spelling of an ObjectId, which is also what the validators' `isMongoId()`
      accepts: twenty-four hexadecimal digits, in either case. */
  predicate IsMongoId(s: string) {
    |s| == 24 && forall i :: 0 <= i < |s| ==> IsHexDigit(s[i])
  }

  /** The cast Mongoose applies to an id before `findById`, `findByIdAndUpdate` and
      `findByIdAndDelete`, and to a product id it stores: a hexadecimal spelling names the same
      ObjectId in either case, and the id it names is written in lower case. Any other string is
      kept as it is (the cast error MongoDB would raise for it is not part of this model). */
  function CastId(s: string): (r: string)
    ensures |r| == |s|
    ensures IsMongoId(s) <==> IsMongoId(r)
    ensures IsMongoId(s) ==> forall i :: 0 <= i < |s| ==> !('A' <= r[i] <= 'Z') && LowerChar(s[i]) == r[i]
    ensures !IsMongoId(s) ==> r == s
  {
    if IsMongoId(s) then Lower(s) else s
  }

  /** An id spelled the way the database writes it: casting it gives it back. */
  predicate AsStored(id: string) {
    CastId(id) == id
  }

  /** Casting twice is casting once: every id the cast produces is spelled as stored. */
  lemma CastIdAsStored(s: string)
    ensures AsStored(CastId(s))
  {
    if IsMongoId(s) {
      LowerIdempotent(s);
    }
  }

  /** Two hexadecimal spellings cast to the same id exactly when they differ at most in the case
      of their letters. */
  lemma SameObjectId(s: string, t: string)
    requires IsMongoId(s) && IsMongoId(t)
    ensures CastId(s) == CastId(t) <==> forall i :: 0 <= i < 24 ==> LowerChar(s[i]) == LowerChar(t[i])
  {
    if forall i :: 0 <= i < 24 ==> LowerChar(s[i]) == LowerChar(t[i]) {
      assert forall i :: 0 <= i < 24 ==> CastId(s)[i] == CastId(t)[i];
    }
  }

  /** `Product.findById(id)`: the position of the product with that id. */
  function FindProduct(ps: seq<Product>, id: ProductId): (r: Option<nat>)
    ensures r.Some? ==> r.value < |ps| && ps[r.value].id == id
    ensures r.Some? ==> forall k :: 0 <= k < r.value ==> ps[k].id != id
    ensures r.None? <==> forall k :: 0 <= k < |ps| ==> ps[k].id != id
  {
    FindIndex(ps, (p: Product) => p.id == id)
  }

  /** `Order.findById(id)`: the position of the order with that id. */
  function FindOrder(os: seq<Order>, id: OrderId): (r: Option<nat>)
    ensures r.Some? ==> r.value < |os| && os[r.value].id == id
    ensures r.Some? ==> forall k :: 0 <= k < r.value ==> os[k].id != id
    ensures r.None? <==> forall k :: 0 <= k < |os| ==> os[k].id != id
  {
    FindIndex(os, (o: Order) => o.id == id)
  }

  predicate UniqueProductIds(ps: seq<Product>) {
    forall i, j :: 0 <= i < j < |ps| ==> ps[i].id != ps[j].id
  }

  predicate UniqueOrderIds(os: seq<Order>) {
    forall i, j :: 0 <= i < j < |os| ==> os[i].id != os[j].id
  }

  predicate ProductsValid(ps: seq<Product>) {
    UniqueProductIds(ps) && forall i :: 0 <= i < |ps| ==> ProductModel.Valid(ps[i])
  }

  /** Every stored cart belongs to the user it is filed under, has valid lines with recomputed
      totals, and holds each product at most once. */
  predicate CartsValid(cs: map<UserId, Cart>) {
    forall u :: u in cs ==> cs[u].user == u && CartModel.Valid(cs[u]) && UniqueProducts(cs[u].items)
  }

  predicate OrdersValid(os: seq<Order>) {
    UniqueOrderIds(os) && forall i :: 0 <= i < |os| ==> OrderModel.Valid(os[i])
  }

  predicate Valid(db: Db) {
    ProductsValid(db.products) && CartsValid(db.carts) && OrdersValid(db.orders)
  }

  /** The lookup finds a position exactly when it holds the id and no earlier one does. */
  lemma FindProductAt(ps: seq<Product>, id: ProductId, k: nat)
    requires k < |ps| && ps[k].id == id
    requires forall j :: 0 <= j < k ==> ps[j].id != id
    ensures FindProduct(ps, id) == Some(k)
  {
  }

  lemma FindOrderAt(os: seq<Order>, id: OrderId, k: nat)
    requires k < |os| && os[k].id == id
    requires forall j :: 0 <= j < k ==> os[j].id != id
    ensures FindOrder(os, id) == Some(k)
  {
  }

  /** With unique ids, looking a product up by its own id finds exactly it. */
  lemma FindOwnProduct(ps: seq<Product>, j: nat)
    requires UniqueProductIds(ps) && j < |ps|
    ensures FindProduct(ps, ps[j].id) == Some(j)
  {
    FindProductAt(ps, ps[j].id, j);
  }

  /** With unique ids, looking an order up by its own id finds exactly it. */
  lemma FindOwnOrder(os: seq<Order>, j: nat)
    requires UniqueOrderIds(os) && j < |os|
    ensures FindOrder(os, os[j].id) == Some(j)
  {
    FindOrderAt(os, os[j].id, j);
  }

  /** Appending a valid product under an id not yet used keeps the catalog valid. */
  lemma AppendKeepsProductsValid(ps: seq<Product>, p: Product)
    requires ProductsValid(ps) && ProductModel.Valid(p) && FindProduct(ps, p.id).None?
    ensures ProductsValid(ps + [p])
  {
    var r := ps + [p];
    forall i, j | 0 <= i < j < |r|
      ensures r[i].id != r[j].id
    {
      assert r[i] == ps[i];
      if j < |ps| {
        assert r[j] == ps[j];
      }
    }
    forall i | 0 <= i < |r|
      ensures ProductModel.Valid(r[i])
    {
      if i < |ps| {
        assert r[i] == ps[i];
      }
    }
  }

  /** Removing one product keeps the catalog valid. */
  lemma RemoveKeepsProductsValid(ps: seq<Product>, k: nat)
    requires ProductsValid(ps) && k < |ps|
    ensures ProductsValid(ps[..k] + ps[k + 1..])
  {
    var r := ps[..k] + ps[k + 1..];
    assert forall i :: 0 <= i < |r| ==> r[i] == ps[if i < k then i else i + 1];
  }
}

=== FILE: errors.dfy ===
/** The error kinds the backend controllers throw (`AppError` with an HTTP status). */
module Errors {

  /** Each kind carries the message the handler attaches to it. */
  datatype Error =
    | NotFound(msg: string)           // 404
    | InsufficientStock(msg: string)  // 400, names the product when raised by order creation
    | BadRequest(msg: string)         // 400: a failed request or schema validation, or a bad state
    | Forbidden(msg: string)          // 403: the requester does not own the record
    | Unauthorized(msg: string)       // 401
    | Internal(msg: string)           // 500: a database error the handler does not catch

  /** The HTTP status the error handler answers with. */
  function Status(e: Error): (code: int)
    ensures 400 <= code < 600
    ensures code < 500 <==> !e.Internal?
    ensures code == 400 <==> e.InsufficientStock? || e.BadRequest?
  {
    match e
    case NotFound(_) => 404
    case InsufficientStock(_) => 400
    case BadRequest(_) => 400
    case Forbidden(_) => 403
    case Unauthorized(_) => 401
    case Internal(_) => 500
  }
}

=== FILE: order_controller.dfy ===
/** The order handlers (`controllers/order.controller.ts`): placing an order from a validated
    body, listing a user's orders a page at a time, reading one, cancelling one, and the admin
    status update. Each handler is a function from the database state to the state it leaves
    and the order it answers with, or to the error it throws. */
module OrderController {
  import opened Wrappers
  import opened Errors
  import opened Seqs
  import opened Text
  import opened Sorting
  import opened Pagination
  import opened ProductModel
  import opened CartModel
  import opened OrderModel
  import opened OrderValidator
  import opened Database

  /** What a handler that writes leaves behind: the new database and the order in its answer. */
  datatype Outcome = Outcome(db: Db, order: Order)

  /** `Product.findById(pid)` finds a product: some stored id is the one `pid` casts to. */
  predicate Exists(ps: seq<Product>, pid: ProductId) {
    FindProduct(ps, CastId(pid)).Some?
  }

  /** The per-line check of `createOrder`: the product exists and holds at least the quantity
      of this one line. */
  predicate LineInStock(ps: seq<Product>, l: LineRequest) {
    Exists(ps, l.product) && ps[FindProduct(ps, CastId(l.product)).value].stock >= l.quantity
  }

  /** The line the stock check stops at, if any. */
  function FirstShortLine(ps: seq<Product>, items: seq<LineRequest>): (r: Option<nat>)
    ensures r.Some? ==> r.value < |items| && !LineInStock(ps, items[r.value])
    ensures r.Some? ==> forall k :: 0 <= k < r.value ==> LineInStock(ps, items[k])
    ensures r.None? <==> forall k :: 0 <= k < |items| ==> LineInStock(ps, items[k])
  {
    FindIndex(items, (l: LineRequest) => !LineInStock(ps, l))
  }

  /** The error for a line the check rejects: a 404 naming the id when the product is missing,
      otherwise a 400 naming the product. */
  function StockError(ps: seq<Product>, pid: ProductId): (e: Error)
    ensures !Exists(ps, pid) ==> e == NotFound("Product " + pid + " not found")
    ensures Exists(ps, pid) ==> e == InsufficientStock("Insufficient stock for " + ps[FindProduct(ps, CastId(pid)).value].name)
  {
    match FindProduct(ps, CastId(pid))
    case None => NotFound("Product " + pid + " not found")
    case Some(k) => InsufficientStock("Insufficient stock for " + ps[k].name)
  }

  /** The snapshot of one line: the product's stored id, name, price and image with the requested
      quantity. */
  function LineFor(ps: seq<Product>, l: LineRequest): (r: OrderLine)
    requires Exists(ps, l.product)
    ensures r.product == CastId(l.product) && r.quantity == l.quantity
    ensures var p := ps[FindProduct(ps, CastId(l.product)).value];
            r.name == p.name && r.price == p.price && r.image == p.image
  {
    var p := ps[FindProduct(ps, CastId(l.product)).value];
    OrderLine(p.id, p.name, p.price, p.image, l.quantity)
  }

  /** The product and quantity of each order line: what cancelling puts back. */
  function Requested(lines: seq<OrderLine>): (r: seq<LineRequest>)
    ensures |r| == |lines|
    ensures forall i :: 0 <= i < |lines| ==> r[i] == LineRequest(lines[i].product, lines[i].quantity)
  {
    if lines == [] then [] else [LineRequest(lines[0].product, lines[0].quantity)] + Requested(lines[1..])
  }

  /** The lines with each product id replaced by the id it casts to. */
  function CastLines(items: seq<LineRequest>): (r: seq<LineRequest>)
    ensures |r| == |items|
    ensures forall i :: 0 <= i < |items| ==> r[i] == items[i].(product := CastId(items[i].product))
  {
    seq(|items|, i requires 0 <= i < |items| => items[i].(product := CastId(items[i].product)))
  }

  /** The order lines built from the request, one per requested line and in the same order; each
      holds the stored id of its product. */
  function Snapshot(ps: seq<Product>, items: seq<LineRequest>): (r: seq<OrderLine>)
    requires forall i :: 0 <= i < |items| ==> Exists(ps, items[i].product)
    ensures |r| == |items|
    ensures forall i :: 0 <= i < |items| ==> r[i] == LineFor(ps, items[i])
    ensures Requested(r) == CastLines(items)
  {
    if items == [] then []
    else
      var r := [LineFor(ps, items[0])] + Snapshot(ps, items[1..]);
      assert Requested(r) == CastLines(items) by {
        assert forall i :: 0 <= i < |items| ==> Requested(r)[i] == CastLines(items)[i];
      }
      r
  }

  /** The total quantity the lines ask of the product stored under `pid`: every line whose id
      casts to it counts. */
  function QtyOf(items: seq<LineRequest>, pid: ProductId): int {
    if items == [] then 0
    else (if CastId(items[0].product) == pid then items[0].quantity else 0) + QtyOf(items[1..], pid)
  }

  /** Casting the lines' ids first asks the same of every product. */
  lemma {:induction false} QtyOfCastLines(items: seq<LineRequest>, pid: ProductId)
    ensures QtyOf(CastLines(items), pid) == QtyOf(items, pid)
  {
    if items != [] {
      CastIdAsStored(items[0].product);
      assert CastLines(items)[1..] == CastLines(items[1..]);
      QtyOfCastLines(items[1..], pid);
    }
  }

  /** A product no line names is asked for nothing. */
  lemma {:induction false} QtyOfAbsent(items: seq<LineRequest>, pid: ProductId)
    requires forall i :: 0 <= i < |items| ==> CastId(items[i].product) != pid
    ensures QtyOf(items, pid) == 0
  {
    if items != [] {
      QtyOfAbsent(items[1..], pid);
    }
  }

  /** No two lines name the same product: their ids cast to different stored ids. */
  predicate DistinctProducts(items: seq<LineRequest>) {
    forall i, j :: 0 <= i < j < |items| ==> CastId(items[i].product) != CastId(items[j].product)
  }

  /** When no two lines name the same product, each line's product is asked exactly its quantity. */
  lemma {:induction false} QtyOfDistinct(items: seq<LineRequest>, k: nat)
    requires k < |items|
    requires DistinctProducts(items)
    ensures QtyOf(items, CastId(items[k].product)) == items[k].quantity
  {
    if k == 0 {
      QtyOfAbsent(items[1..], CastId(items[0].product));
    } else {
      QtyOfDistinct(items[1..], k - 1);
    }
  }

  /** `findByIdAndUpdate(pid, { $inc: { stock: delta } })`: the product whose id `pid` casts to
      has its stock moved by `delta`; a missing id changes nothing. Schema validators do not run on
      `$inc`. */
  function Restock(ps: seq<Product>, pid: ProductId, delta: int): (r: seq<Product>)
    ensures |r| == |ps|
    ensures forall i :: 0 <= i < |ps| ==> r[i] == if ps[i].id == CastId(pid) then ps[i].(stock := ps[i].stock + delta) else ps[i]
  {
    seq(|ps|, i requires 0 <= i < |ps| => if ps[i].id == CastId(pid) then ps[i].(stock := ps[i].stock + delta) else ps[i])
  }

  /** The stock updates of a loop over lines, one `$inc` per line, in order: every product ends up
      moved by the total its lines carry. */
  function AdjustAll(ps: seq<Product>, moves: seq<LineRequest>): (r: seq<Product>)
    ensures |r| == |ps|
    ensures forall i :: 0 <= i < |ps| ==> r[i] == ps[i].(stock := ps[i].stock + QtyOf(moves, ps[i].id))
    decreases |moves|
  {
    if moves == [] then ps
    else AdjustAll(Restock(ps, moves[0].product, moves[0].quantity), moves[1..])
  }

  /** The same lines with their quantities negated: what placing an order takes out. */
  function Negate(items: seq<LineRequest>): (r: seq<LineRequest>)
    ensures |r| == |items|
    ensures forall pid :: QtyOf(r, pid) == -QtyOf(items, pid)
  {
    if items == [] then []
    else [items[0].(quantity := -items[0].quantity)] + Negate(items[1..])
  }

  /** `Cart.findOneAndUpdate({ user }, { items: [], totalItems: 0, totalPrice: 0 })`: the user's cart,
      if there is one, is emptied; no cart is created. */
  function EmptyCartOf(cs: map<UserId, Cart>, user: UserId): (r: map<UserId, Cart>)
    ensures r.Keys == cs.Keys
    ensures user in cs ==> r[user].items == [] && r[user].totalItems == 0 && r[user].totalPrice == 0 && r[user].user == cs[user].user
    ensures forall u :: u in cs && u != user ==> r[u] == cs[u]
  {
    if user in cs then cs[user := cs[user].(items := [], totalItems := 0, totalPrice := 0)] else cs
  }

  /** The document `Order.create` builds: the snapshot lines, the body's shipping and money fields,
      a pending payment by the requested method and a pending status. */
  function NewOrder(ps: seq<Product>, user: UserId, input: OrderInput, newId: OrderId, now: int): (o: Order)
    requires forall i :: 0 <= i < |input.items| ==> Exists(ps, input.items[i].product)
    ensures o.id == newId && o.user == user && o.createdAt == now
    ensures o.status == Pending && o.paymentInfo == PaymentInfo(input.payMethod, PaymentPending)
    ensures o.shippingInfo == input.shippingInfo
    ensures o.subtotal == input.subtotal && o.tax == input.tax && o.shipping == input.shipping && o.total == input.total
    ensures |o.items| == |input.items| && Requested(o.items) == CastLines(input.items)
  {
    Order(newId, user, Snapshot(ps, input.items), input.shippingInfo, PaymentInfo(input.payMethod, PaymentPending),
          input.subtotal, input.tax, input.shipping, input.total, Pending, now)
  }

  /** Everything `createOrder` does once its stock check has passed: create the order (the
      schema's validation can still reject it), take every line's quantity out of stock, and empty
      the user's cart. */
  function Commit(db: Db, user: UserId, input: OrderInput, newId: OrderId, now: int): (r: Result<Outcome, Error>)
    requires forall i :: 0 <= i < |input.items| ==> Exists(db.products, input.items[i].product)
    ensures r.Ok? <==> OrderModel.Valid(NewOrder(db.products, user, input, newId, now))
    ensures r.Err? ==> r.error.BadRequest?
    ensures r.Ok? ==> r.value.order == NewOrder(db.products, user, input, newId, now)
    ensures r.Ok? ==> r.value.db.orders == db.orders + [r.value.order]
    ensures r.Ok? ==> r.value.db.carts == EmptyCartOf(db.carts, user)
    ensures r.Ok? ==> |r.value.db.products| == |db.products|
    ensures r.Ok? ==> forall i :: 0 <= i < |db.products| ==>
              r.value.db.products[i] == db.products[i].(stock := db.products[i].stock - QtyOf(input.items, db.products[i].id))
  {
    var o := NewOrder(db.products, user, input, newId, now);
    if !OrderModel.Valid(o) then Err(BadRequest("Order validation failed"))
    else
      var ps := AdjustAll(db.products, Negate(input.items));
      Ok(Outcome(Db(ps, EmptyCartOf(db.carts, user), db.orders + [o]), o))
  }

  /** `createOrder` as written: every line is checked on its own against the stock before the order,
      then every line is taken out of stock. `newId` and `now` are what the database assigns. */
  function CreateOrder(db: Db, user: UserId, input: OrderInput, newId: OrderId, now: int): (r: Result<Outcome, Error>)
    ensures FirstShortLine(db.products, input.items).Some? ==>
              r == Err(StockError(db.products, input.items[FirstShortLine(db.products, input.items).value].product))
    ensures r.Ok? ==> forall i :: 0 <= i < |input.items| ==> LineInStock(db.products, input.items[i])
    ensures r.Err? ==> r.error.NotFound? || r.error.InsufficientStock? || r.error.BadRequest?
    ensures r.Ok? ==> Commit(db, user, input, newId, now) == r
    ensures FirstShortLine(db.products, input.items).None? ==> r == Commit(db, user, input, newId, now)
  {
    match FirstShortLine(db.products, input.items)
    case Some(k) => Err(StockError(db.products, input.items[k].product))
    case None => Commit(db, user, input, newId, now)
  }

  /** The check `createOrder` evidently intends: a product named by several lines must hold their
      combined quantity. */
  predicate LineCovered(ps: seq<Product>, items: seq<LineRequest>, l: LineRequest) {
    Exists(ps, l.product) && ps[FindProduct(ps, CastId(l.product)).value].stock >= QtyOf(items, CastId(l.product))
  }

  function FirstUncoveredLine(ps: seq<Product>, items: seq<LineRequest>): (r: Option<nat>)
    ensures r.Some? ==> r.value < |items| && !LineCovered(ps, items, items[r.value])
    ensures r.Some? ==> forall k :: 0 <= k < r.value ==> LineCovered(ps, items, items[k])
    ensures r.None? <==> forall k :: 0 <= k < |items| ==> LineCovered(ps, items, items[k])
  {
    FindIndex(items, (l: LineRequest) => !LineCovered(ps, items, l))
  }

  /** `createOrder` with the stock check on each product's combined quantity. It never takes a
      product's stock below zero, so it keeps the stored products valid. */
  function CreateOrderChecked(db: Db, user: UserId, input: OrderInput, newId: OrderId, now: int): (r: Result<Outcome, Error>)
    ensures FirstUncoveredLine(db.products, input.items).Some? ==>
              r == Err(StockError(db.products, input.items[FirstUncoveredLine(db.products, input.items).value].product))
    ensures r.Err? ==> r.error.NotFound? || r.error.InsufficientStock? || r.error.BadRequest?
    ensures r.Ok? ==> forall i :: 0 <= i < |input.items| ==> LineCovered(db.products, input.items, input.items[i])
    ensures r.Ok? ==> Commit(db, user, input, newId, now) == r
    ensures FirstUncoveredLine(db.products, input.items).None? ==> r == Commit(db, user, input, newId, now)
    ensures r.Ok? && ProductsValid(db.products) ==> ProductsValid(r.value.db.products)
  {
    match FirstUncoveredLine(db.products, input.items)
    case Some(k) => Err(StockError(db.products, input.items[k].product))
    case None =>
      var r := Commit(db, user, input, newId, now);
      CheckedKeepsStock(db.products, input.items);
      r
  }

  /** When every line is covered, taking the lines out of stock leaves every stock non-negative. */
  lemma CheckedKeepsStock(ps: seq<Product>, items: seq<LineRequest>)
    requires forall k :: 0 <= k < |items| ==> LineCovered(ps, items, items[k])
    ensures ProductsValid(ps) ==> ProductsValid(AdjustAll(ps, Negate(items)))
  {
    if ProductsValid(ps) {
      var r := AdjustAll(ps, Negate(items));
      forall j | 0 <= j < |ps|
        ensures ProductModel.Valid(r[j])
      {
        var pid := ps[j].id;
        if k :| 0 <= k < |items| && CastId(items[k].product) == pid {
          assert LineCovered(ps, items, items[k]);
          FindOwnProduct(ps, j);
        } else {
          QtyOfAbsent(items, pid);
        }
      }
      assert UniqueProductIds(r) by {
        forall i, j | 0 <= i < j < |r|
          ensures r[i].id != r[j].id
        {
          assert r[i].id == ps[i].id && r[j].id == ps[j].id;
        }
      }
    }
  }

  /** Snapshots of valid products with positive quantities are valid order lines. */
  lemma SnapshotLinesValid(ps: seq<Product>, items: seq<LineRequest>)
    requires ProductsValid(ps)
    requires forall i :: 0 <= i < |items| ==> Exists(ps, items[i].product)
    requires QuantitiesPositive(items)
    ensures forall i :: 0 <= i < |items| ==> OrderModel.LineValid(Snapshot(ps, items)[i])
  {
    var lines := Snapshot(ps, items);
    forall i | 0 <= i < |items|
      ensures OrderModel.LineValid(lines[i])
    {
      assert lines[i] == LineFor(ps, items[i]);
      assert ProductModel.Valid(ps[FindProduct(ps, CastId(items[i].product)).value]);
    }
  }

  /** The validator's guarantees, a stock check that passes, and valid stored products together
      make the schema accept the order: `Order.create` cannot then fail. */
  lemma ValidatedOrderIsPlaced(db: Db, user: UserId, input: OrderInput, newId: OrderId, now: int)
    requires ProductsValid(db.products)
    requires WithinBounds(input)
    requires forall i :: 0 <= i < |input.items| ==> LineInStock(db.products, input.items[i])
    ensures CreateOrder(db, user, input, newId, now).Ok?
  {
    SnapshotLinesValid(db.products, input.items);
    var o := NewOrder(db.products, user, input, newId, now);
    assert o.items == Snapshot(db.products, input.items);
    assert OrderModel.Valid(o);
    assert FirstShortLine(db.products, input.items).None?;
    assert Commit(db, user, input, newId, now).Ok?;
  }

  /** When no two lines name the same product the two checks agree, so the corrected handler
      behaves exactly like the original on such requests. */
  lemma CheckedAgreesOnDistinctLines(db: Db, user: UserId, input: OrderInput, newId: OrderId, now: int)
    requires DistinctProducts(input.items)
    ensures CreateOrderChecked(db, user, input, newId, now) == CreateOrder(db, user, input, newId, now)
  {
    FirstLinesAgree(db.products, input.items);
  }

  /** With no product named twice, both checks stop at the same line. */
  lemma FirstLinesAgree(ps: seq<Product>, items: seq<LineRequest>)
    requires DistinctProducts(items)
    ensures FirstUncoveredLine(ps, items) == FirstShortLine(ps, items)
  {
    forall k | 0 <= k < |items|
      ensures LineCovered(ps, items, items[k]) <==> LineInStock(ps, items[k])
    {
      QtyOfDistinct(items, k);
    }
  }

  /** Two lines of one unit each for the product `p`. */
  function TwoSingleLines(p: Product, ship: ShippingInfo, m: PaymentMethod): OrderInput {
    OrderInput([LineRequest(p.id, 1), LineRequest(p.id, 1)], ship, m, 0, 0, 0, 0)
  }

  lemma TwoSingleLinesQty(p: Product, ship: ShippingInfo, m: PaymentMethod)
    ensures QtyOf(TwoSingleLines(p, ship, m).items, CastId(p.id)) == 2
  {
    var items := TwoSingleLines(p, ship, m).items;
    assert items[1..][1..] == [];
    assert QtyOf(items[1..][1..], CastId(p.id)) == 0;
    assert QtyOf(items[1..], CastId(p.id)) == 1;
  }

  lemma TwoSingleLinesPlaced(p: Product, user: UserId, ship: ShippingInfo, m: PaymentMethod, newId: OrderId, now: int)
    requires ProductModel.Valid(p) && p.stock == 1 && AsStored(p.id)
    requires ShippingValid(ship)
    ensures CreateOrder(Db([p], map[], []), user, TwoSingleLines(p, ship, m), newId, now).Ok?
  {
    var input := TwoSingleLines(p, ship, m);
    var items := input.items;
    FindProductAt([p], p.id, 0);
    assert LineInStock([p], items[0]) && LineInStock([p], items[1]);
    assert QuantitiesPositive(items);
    ValidatedOrderIsPlaced(Db([p], map[], []), user, input, newId, now);
  }

  /** `createOrder` as written oversells: for any valid product with one unit in stock, two lines
      of one unit each both pass the per-line check, and the order takes the stock to -1. */
  lemma DuplicateLinesOversell(p: Product, user: UserId, ship: ShippingInfo, m: PaymentMethod, newId: OrderId, now: int)
    requires ProductModel.Valid(p) && p.stock == 1 && AsStored(p.id)
    requires ShippingValid(ship)
    ensures ProductsValid([p])
    ensures var r := CreateOrder(Db([p], map[], []), user, TwoSingleLines(p, ship, m), newId, now);
            && r.Ok? && r.value.db.products[0].stock == -1
            && !ProductsValid(r.value.db.products)
  {
    TwoSingleLinesPlaced(p, user, ship, m, newId, now);
    TwoSingleLinesQty(p, ship, m);
    var r := CreateOrder(Db([p], map[], []), user, TwoSingleLines(p, ship, m), newId, now);
    assert r.value.db.products[0].stock == -1;
  }

  /** The corrected handler refuses the same request with a 400 naming the product. */
  lemma DuplicateLinesRefusedWhenChecked(p: Product, user: UserId, ship: ShippingInfo, m: PaymentMethod, newId: OrderId, now: int)
    requires p.stock == 1 && AsStored(p.id)
    ensures CreateOrderChecked(Db([p], map[], []), user, TwoSingleLines(p, ship, m), newId, now)
            == Err(InsufficientStock("Insufficient stock for " + p.name))
  {
    var items := TwoSingleLines(p, ship, m).items;
    FindProductAt([p], p.id, 0);
    TwoSingleLinesQty(p, ship, m);
    assert !LineCovered([p], items, items[0]);
    assert FirstUncoveredLine([p], items) == Some(0);
  }

  /** `getOrder`: 404 when no order has the id the request casts to, 403 when it belongs to someone
      else. */
  function GetOrder(db: Db, user: UserId, id: OrderId): (r: Result<Order, Error>)
    ensures FindOrder(db.orders, CastId(id)).None? <==> r == Err(NotFound("Order not found"))
    ensures r.Ok? ==> r.value in db.orders && r.value.id == CastId(id) && r.value.user == user
    ensures r.Err? && FindOrder(db.orders, CastId(id)).Some? ==>
              r == Err(Forbidden("Not authorized to access this order")) && db.orders[FindOrder(db.orders, CastId(id)).value].user != user
  {
    match FindOrder(db.orders, CastId(id))
    case None => Err(NotFound("Order not found"))
    case Some(k) =>
      if db.orders[k].user != user then Err(Forbidden("Not authorized to access this order")) else Ok(db.orders[k])
  }

  predicate Cancellable(s: OrderStatus) {
    s == Pending || s == Processing
  }

  /** `cancelOrder`: 404, then 403 for another user's order, then 400 unless the order is pending or
      processing; otherwise the order is saved as cancelled and each line's quantity is put back. */
  function CancelOrder(db: Db, user: UserId, id: OrderId): (r: Result<Outcome, Error>)
    ensures FindOrder(db.orders, CastId(id)).None? ==> r == Err(NotFound("Order not found"))
    ensures FindOrder(db.orders, CastId(id)).Some? && db.orders[FindOrder(db.orders, CastId(id)).value].user != user ==>
              r == Err(Forbidden("Not authorized to cancel this order"))
    ensures r.Ok? ==> var k := FindOrder(db.orders, CastId(id)).value;
              && db.orders[k].user == user && Cancellable(db.orders[k].status)
              && r.value.order == db.orders[k].(status := Cancelled)
              && r.value.db.orders == db.orders[k := r.value.order]
              && r.value.db.carts == db.carts
              && |r.value.db.products| == |db.products|
              && (forall i :: 0 <= i < |db.products| ==>
                    r.value.db.products[i] == db.products[i].(stock := db.products[i].stock + QtyOf(Requested(db.orders[k].items), db.products[i].id)))
    ensures FindOrder(db.orders, CastId(id)).Some? && db.orders[FindOrder(db.orders, CastId(id)).value].user == user
            && !Cancellable(db.orders[FindOrder(db.orders, CastId(id)).value].status) ==>
              r == Err(BadRequest("Cannot cancel order in current status"))
    ensures var k := FindOrder(db.orders, CastId(id));
            (k.Some? && db.orders[k.value].user == user && Cancellable(db.orders[k.value].status)
             && OrderModel.Valid(db.orders[k.value])) ==> r.Ok?
  {
    match FindOrder(db.orders, CastId(id))
    case None => Err(NotFound("Order not found"))
    case Some(k) =>
      var o := db.orders[k];
      if o.user != user then Err(Forbidden("Not authorized to cancel this order"))
      else if !Cancellable(o.status) then Err(BadRequest("Cannot cancel order in current status"))
      else
        var c := o.(status := Cancelled);
        if !OrderModel.Valid(c) then Err(BadRequest("Order validation failed"))
        else Ok(Outcome(db.(products := AdjustAll(db.products, Requested(o.items)), orders := db.orders[k := c]), c))
  }

  /** The order just placed is found under its new id and can be cancelled by its owner; the
      cancellation puts back the very lines the request asked for. */
  lemma CancelPlacedOrder(db: Db, user: UserId, input: OrderInput, newId: OrderId, now: int)
    requires AsStored(newId) && FindOrder(db.orders, newId).None?
    requires CreateOrderChecked(db, user, input, newId, now).Ok?
    ensures var placed := CreateOrderChecked(db, user, input, newId, now).value.db;
            && CancelOrder(placed, user, newId).Ok?
            && CancelOrder(placed, user, newId).value.db.products == AdjustAll(placed.products, input.items)
  {
    var out := CreateOrderChecked(db, user, input, newId, now).value;
    var placed := out.db;
    var k := |db.orders|;
    assert placed.orders[k] == out.order;
    FindOrderAt(placed.orders, newId, k);
    assert Requested(out.order.items) == CastLines(input.items);
    AdjustCastLines(placed.products, input.items);
  }

  /** Moving stock by the lines or by their cast lines is the same. */
  lemma AdjustCastLines(ps: seq<Product>, items: seq<LineRequest>)
    ensures AdjustAll(ps, CastLines(items)) == AdjustAll(ps, items)
  {
    forall i | 0 <= i < |ps|
      ensures AdjustAll(ps, CastLines(items))[i] == AdjustAll(ps, items)[i]
    {
      QtyOfCastLines(items, ps[i].id);
    }
  }

  /** Placing an order with the corrected check and then cancelling it puts every product's stock
      back exactly where it was. */
  lemma CancelRestoresStock(db: Db, user: UserId, input: OrderInput, newId: OrderId, now: int)
    requires AsStored(newId) && FindOrder(db.orders, newId).None?
    requires CreateOrderChecked(db, user, input, newId, now).Ok?
    ensures var placed := CreateOrderChecked(db, user, input, newId, now).value.db;
            && CancelOrder(placed, user, newId).Ok?
            && CancelOrder(placed, user, newId).value.db.products == db.products
  {
    CancelPlacedOrder(db, user, input, newId, now);
    var placed := CreateOrderChecked(db, user, input, newId, now).value.db;
    var ps := AdjustAll(placed.products, input.items);
    forall i | 0 <= i < |db.products|
      ensures ps[i] == db.products[i]
    {
      assert placed.products[i].id == db.products[i].id;
    }
  }

  /** The same for `createOrder` as written: its `$inc` on cancellation is unconditional, so even an
      order whose duplicate lines oversold a product gives back exactly what it took. */
  lemma CancelPlacedOrderAsWritten(db: Db, user: UserId, input: OrderInput, newId: OrderId, now: int)
    requires AsStored(newId) && FindOrder(db.orders, newId).None?
    requires CreateOrder(db, user, input, newId, now).Ok?
    ensures var placed := CreateOrder(db, user, input, newId, now).value.db;
            && CancelOrder(placed, user, newId).Ok?
            && CancelOrder(placed, user, newId).value.db.products == AdjustAll(placed.products, input.items)
  {
    var out := CreateOrder(db, user, input, newId, now).value;
    var placed := out.db;
    var k := |db.orders|;
    assert placed.orders[k] == out.order;
    FindOrderAt(placed.orders, newId, k);
    assert Requested(out.order.items) == CastLines(input.items);
    AdjustCastLines(placed.products, input.items);
  }

  lemma CancelRestoresStockAsWritten(db: Db, user: UserId, input: OrderInput, newId: OrderId, now: int)
    requires AsStored(newId) && FindOrder(db.orders, newId).None?
    requires CreateOrder(db, user, input, newId, now).Ok?
    ensures var placed := CreateOrder(db, user, input, newId, now).value.db;
            && CancelOrder(placed, user, newId).Ok?
            && CancelOrder(placed, user, newId).value.db.products == db.products
  {
    CancelPlacedOrderAsWritten(db, user, input, newId, now);
    var placed := CreateOrder(db, user, input, newId, now).value.db;
    var ps := AdjustAll(placed.products, input.items);
    forall i | 0 <= i < |db.products|
      ensures ps[i] == db.products[i]
    {
      assert placed.products[i].id == db.products[i].id;
    }
  }

  /** A cancelled order cannot be cancelled again. */
  lemma CancelIsFinal(db: Db, user: UserId, id: OrderId)
    requires CancelOrder(db, user, id).Ok?
    ensures CancelOrder(CancelOrder(db, user, id).value.db, user, id) == Err(BadRequest("Cannot cancel order in current status"))
  {
    var k := FindOrder(db.orders, CastId(id)).value;
    var d := CancelOrder(db, user, id).value.db;
    FindOrderAt(d.orders, CastId(id), k);
  }

  /** `updateOrderStatus` (admin): 404, then 400 unless the body names one of the five statuses;
      the order takes that status, and a delivered order's payment is marked completed. Any status
      may follow any other. */
  function UpdateOrderStatus(db: Db, id: OrderId, status: Option<string>): (r: Result<Outcome, Error>)
    ensures FindOrder(db.orders, CastId(id)).None? ==> r == Err(NotFound("Order not found"))
    ensures FindOrder(db.orders, CastId(id)).Some? && (status.None? || status.value !in StatusNames) ==>
              r == Err(BadRequest("Invalid order status"))
    ensures r.Ok? ==> var k := FindOrder(db.orders, CastId(id)).value;
              && status.Some? && StatusName(r.value.order.status) == status.value
              && r.value.order == db.orders[k].(status := r.value.order.status, paymentInfo := r.value.order.paymentInfo)
              && r.value.order.paymentInfo.payMethod == db.orders[k].paymentInfo.payMethod
              && r.value.order.paymentInfo.status == (if r.value.order.status == Delivered then Completed else db.orders[k].paymentInfo.status)
              && r.value.db == db.(orders := db.orders[k := r.value.order])
    ensures (FindOrder(db.orders, CastId(id)).Some? && status.Some? && status.value in StatusNames
             && OrderModel.Valid(db.orders[FindOrder(db.orders, CastId(id)).value])) ==> r.Ok?
  {
    match FindOrder(db.orders, CastId(id))
    case None => Err(NotFound("Order not found"))
    case Some(k) =>
      var o := db.orders[k];
      if status.None? || ParseStatus(status.value).None? then Err(BadRequest("Invalid order status"))
      else
        var s := ParseStatus(status.value).value;
        var c := o.(status := s, paymentInfo := if s == Delivered then o.paymentInfo.(status := Completed) else o.paymentInfo);
        if !OrderModel.Valid(c) then Err(BadRequest("Order validation failed"))
        else Ok(Outcome(db.(orders := db.orders[k := c]), c))
  }

  /** Since any status may follow any other, an admin can reopen a cancelled order, and cancelling
      it again puts its quantities back a second time. */
  lemma ReopenedOrderRestocksTwice(db: Db, user: UserId, id: OrderId)
    requires CancelOrder(db, user, id).Ok?
    ensures var d1 := CancelOrder(db, user, id).value.db;
            var k := FindOrder(db.orders, CastId(id)).value;
            var d2 := UpdateOrderStatus(d1, id, Some("pending"));
            && d2.Ok?
            && CancelOrder(d2.value.db, user, id).Ok?
            && var d3 := CancelOrder(d2.value.db, user, id).value.db;
               forall i :: 0 <= i < |db.products| ==>
                 d3.products[i].stock == db.products[i].stock + 2 * QtyOf(Requested(db.orders[k].items), db.products[i].id)
  {
    var k := FindOrder(db.orders, CastId(id)).value;
    var d1 := CancelOrder(db, user, id).value.db;
    FindOrderAt(d1.orders, CastId(id), k);
    assert "pending" in StatusNames;
    var d2 := UpdateOrderStatus(d1, id, Some("pending")).value.db;
    FindOrderAt(d2.orders, CastId(id), k);
    assert d2.orders[k].items == db.orders[k].items;
    assert d2.orders[k].status == Pending;
  }

  /** Newest first: the order `.sort({ createdAt: -1 })` asks for. */
  predicate NewestFirst(a: Order, b: Order) {
    a.createdAt >= b.createdAt
  }

  lemma NewestFirstIsPreorder()
    ensures TotalPreorder(NewestFirst)
  {
  }

  /** The requester's orders, newest first: what `.find({ user }).sort({ createdAt: -1 })`
      yields before the page is cut out of it. */
  function OrdersOf(os: seq<Order>, user: UserId): (r: seq<Order>)
    ensures multiset(r) == multiset(Filter(os, (o: Order) => o.user == user))
    ensures SortedBy(r, NewestFirst)
  {
    NewestFirstIsPreorder();
    SortBy(Filter(os, (o: Order) => o.user == user), NewestFirst)
  }

  /** `getOrders`: the requester's orders, newest first, one page at a time (default limit 10), with
      the total count of the requester's orders and the number of pages. */
  function GetOrders(db: Db, user: UserId, pageQ: Option<int>, limitQ: Option<int>): (r: Result<Paged<Order>, Error>)
    ensures r.Ok? <==> (OrDefault(pageQ, 1) - 1) * OrDefault(limitQ, 10) >= 0
    ensures r.Ok? ==> forall o :: o in r.value.items ==> o in db.orders && o.user == user
    ensures r.Ok? ==> SortedBy(r.value.items, NewestFirst)
    ensures r.Ok? ==> |r.value.items| <= |Filter(db.orders, (o: Order) => o.user == user)|
    ensures r.Ok? ==> r.value.info.total == |Filter(db.orders, (o: Order) => o.user == user)|
    ensures r.Ok? ==> r.value.info.page == OrDefault(pageQ, 1) && r.value.info.limit == OrDefault(limitQ, 10)
    ensures r.Ok? ==> r.value.info.pages == CeilDiv(r.value.info.total, r.value.info.limit)
    ensures r.Ok? ==> Window(OrdersOf(db.orders, user), (OrDefault(pageQ, 1) - 1) * OrDefault(limitQ, 10),
                             OrDefault(limitQ, 10)) == Some(r.value.items)
  {
    var mine := Filter(db.orders, (o: Order) => o.user == user);
    var sorted := OrdersOf(db.orders, user);
    PageOfSorted(sorted, pageQ, limitQ, 10, NewestFirst);
    assert forall o :: o in sorted ==> o in mine by {
      forall o | o in sorted
        ensures o in mine
      {
        assert o in multiset(sorted);
      }
    }
    Paginate(sorted, pageQ, limitQ, 10)
  }

  /** Every order of the requester is listed on exactly one page: with a positive limit, order `i`
      of the newest-first list is on page `i / limit + 1`, at position `i % limit`, and on no
      other. */
  lemma GetOrdersPlacesEach(db: Db, user: UserId, page: int, limit: int, i: int)
    requires limit > 0 && page >= 1 && 0 <= i < |OrdersOf(db.orders, user)|
    ensures var r := GetOrders(db, user, Some(page), Some(limit));
            var skip := (page - 1) * limit;
            && r.Ok?
            && (skip <= i < skip + |r.value.items| <==> page == i / limit + 1)
            && (page == i / limit + 1 ==> i % limit < |r.value.items| && r.value.items[i % limit] == OrdersOf(db.orders, user)[i])
  {
    var r := GetOrders(db, user, Some(page), Some(limit));
    var sorted := OrdersOf(db.orders, user);
    var skip := (page - 1) * limit;
    assert OrDefault(Some(page), 1) == page;
    assert OrDefault(Some(limit), 10) == limit;
    MulMonotone(0, page - 1, limit);
    assert r.Ok?;
    assert Window(sorted, skip, limit) == Some(r.value.items);
    PageOfIndex(sorted, limit, i, page);
  }
}

=== FILE: order_history.dfy ===
/** The order-history page's list (`pages/order/hooks/useOrders.ts`): the orders checkout stored in
    the browser, read once and sorted newest first. Dates are timestamps in milliseconds, the value
    `new Date(date).getTime()` gives. */
module OrderHistory {
  import opened Wrappers
  import opened Sorting
  import opened Checkout

  /** The sort's comparator `b - a` on timestamps: an order may come before any order that is not
      newer. */
  predicate NewerOrSame(a: StoredOrder, b: StoredOrder) {
    a.date >= b.date
  }

  lemma NewerOrSameIsPreorder()
    ensures TotalPreorder(NewerOrSame)
  {
  }

  /** The list `useOrders` shows: the stored orders (none when the `orders` entry is absent),
      copied and sorted newest first. The stored value itself is not changed. */
  function LoadOrders(stored: Option<seq<StoredOrder>>): (r: seq<StoredOrder>)
    ensures stored.None? ==> r == []
    ensures stored.Some? ==> multiset(r) == multiset(stored.value) && |r| == |stored.value|
    ensures forall i, j :: 0 <= i < j < |r| ==> r[i].date >= r[j].date
  {
    NewerOrSameIsPreorder();
    SortBy(stored.GetOr([]), NewerOrSame)
  }

  /** An empty store gives an empty list, and every listed order is a stored one. */
  lemma LoadOrdersFromStore(stored: seq<StoredOrder>)
    ensures stored == [] ==> LoadOrders(Some(stored)) == []
    ensures forall o :: o in LoadOrders(Some(stored)) <==> o in stored
  {
    var r := LoadOrders(Some(stored));
    assert forall o :: o in r <==> o in multiset(r);
    assert forall o :: o in stored <==> o in multiset(stored);
  }

  /** The first listed order is the newest one stored. */
  lemma FirstIsNewest(stored: seq<StoredOrder>)
    requires stored != []
    ensures forall o :: o in stored ==> LoadOrders(Some(stored))[0].date >= o.date
  {
    var r := LoadOrders(Some(stored));
    LoadOrdersFromStore(stored);
    forall o | o in stored
      ensures r[0].date >= o.date
    {
      assert o in r;
      var k :| 0 <= k < |r| && r[k] == o;
    }
  }
}

=== FILE: order_model.dfy ===
/** The order document (`models/Order.ts`): line snapshots, shipping and payment records, the
    caller-supplied money fields and the five-state status. Money is held in integer cents. */
module OrderModel {
  import opened Wrappers
  import opened ProductModel
  import opened CartModel

  type OrderId = string

  datatype OrderStatus = Pending | Processing | Shipped | Delivered | Cancelled

  datatype PaymentMethod = Card | PayPal

  datatype PaymentStatus = PaymentPending | Completed | Failed

  /** The status strings of the schema's enum, in declaration order. */
  const StatusNames: seq<string> := ["pending", "processing", "shipped", "delivered", "cancelled"]

  function StatusName(s: OrderStatus): string {
    match s
    case Pending => "pending"
    case Processing => "processing"
    case Shipped => "shipped"
    case Delivered => "delivered"
    case Cancelled => "cancelled"
  }

  /** The enum check on a status string: the status it names, or `None` outside the five. */
  function ParseStatus(s: string): (r: Option<OrderStatus>)
    ensures r.Some? <==> s in StatusNames
    ensures r.Some? ==> StatusName(r.value) == s
  {
    if s == "pending" then Some(Pending)
    else if s == "processing" then Some(Processing)
    else if s == "shipped" then Some(Shipped)
    else if s == "delivered" then Some(Delivered)
    else if s == "cancelled" then Some(Cancelled)
    else None
  }

  /** Every status is named by exactly the string that parses back to it. */
  lemma StatusRoundTrip(s: OrderStatus)
    ensures ParseStatus(StatusName(s)) == Some(s)
    ensures StatusName(s) in StatusNames
  {
  }

  function MethodName(m: PaymentMethod): string {
    match m
    case Card => "card"
    case PayPal => "paypal"
  }

  /** The payment-method enum check: `card` or `paypal`. */
  function ParseMethod(s: string): (r: Option<PaymentMethod>)
    ensures r.Some? <==> s == "card" || s == "paypal"
    ensures r.Some? ==> MethodName(r.value) == s
  {
    if s == "card" then Some(Card) else if s == "paypal" then Some(PayPal) else None
  }

  datatype ShippingInfo = ShippingInfo(
    fullName: string,
    email: string,
    phone: string,
    address: string,
    city: string,
    state: string,
    zipCode: string,
    country: string)

  /** The country the schema fills in when none is given. */
  const DefaultCountry: string := "United States"

  datatype PaymentInfo = PaymentInfo(payMethod: PaymentMethod, status: PaymentStatus)

  /** A line of an order: a copy of the product's name, price and image taken when the order is placed. */
  datatype OrderLine = OrderLine(product: ProductId, name: string, price: int, image: string, quantity: int)

  datatype Order = Order(
    id: OrderId,
    user: UserId,
    items: seq<OrderLine>,
    shippingInfo: ShippingInfo,
    paymentInfo: PaymentInfo,
    subtotal: int,
    tax: int,
    shipping: int,
    total: int,
    status: OrderStatus,
    createdAt: int)

  predicate LineValid(l: OrderLine) {
    l.price >= 0 && l.quantity >= 1 && l.name != [] && l.image != []
  }

  /** All eight shipping fields are required, so none may be empty. */
  predicate ShippingValid(s: ShippingInfo) {
    && s.fullName != [] && s.email != [] && s.phone != [] && s.address != []
    && s.city != [] && s.state != [] && s.zipCode != [] && s.country != []
  }

  /** What the schema guarantees of every stored order. The four money fields are each
      non-negative; no relation between them is enforced. */
  predicate Valid(o: Order) {
    && |o.items| >= 1
    && (forall i :: 0 <= i < |o.items| ==> LineValid(o.items[i]))
    && ShippingValid(o.shippingInfo)
    && o.subtotal >= 0 && o.tax >= 0 && o.shipping >= 0 && o.total >= 0
  }

  /** The shipping record the schema stores from a body whose country may be absent. */
  function WithDefaultCountry(fullName: string, email: string, phone: string, address: string, city: string,
                              state: string, zipCode: string, country: Option<string>): (s: ShippingInfo)
    ensures country.None? ==> s.country == DefaultCountry
    ensures country.Some? ==> s.country == country.value
    ensures s.fullName == fullName && s.email == email && s.phone == phone && s.address == address
    ensures s.city == city && s.state == state && s.zipCode == zipCode
  {
    ShippingInfo(fullName, email, phone, address, city, state, zipCode, country.GetOr(DefaultCountry))
  }

  /** The schema's money bounds do not tie the total to its parts: an order whose total is not
      subtotal + tax + shipping is still a valid document. */
  lemma TotalIsNotChecked()
    ensures var o := Order("o", "u", [OrderLine("p", "n", 100, "i", 1)],
                           ShippingInfo("a", "b", "c", "d", "e", "f", "g", "h"),
                           PaymentInfo(Card, PaymentPending), 100, 10, 0, 1, Pending, 0);
            Valid(o) && o.total != o.subtotal + o.tax + o.shipping
  {
  }
}

=== FILE: order_validator.dfy ===
/** The request check run before order creation (`validators/order.validator.ts`), and the body
    the handler receives once it passes: the shipping strings trimmed by the sanitizers, the
    enum strings parsed. express-validator's `isEmail` is not part of this model: it is the
    parameter `isEmail`. */
module OrderValidator {
  import opened Wrappers
  import opened Text
  import opened Errors
  import opened ProductModel
  import opened OrderModel
  import Database

  datatype ItemRequest = ItemRequest(product: Option<string>, quantity: Option<int>)

  datatype ShippingRequest = ShippingRequest(
    fullName: Option<string>,
    email: Option<string>,
    phone: Option<string>,
    address: Option<string>,
    city: Option<string>,
    state: Option<string>,
    zipCode: Option<string>,
    country: Option<string>)

  /** The raw body of `POST /api/orders`. */
  datatype OrderRequest = OrderRequest(
    items: Option<seq<ItemRequest>>,
    shippingInfo: ShippingRequest,
    payMethod: Option<string>,
    subtotal: Option<int>,
    tax: Option<int>,
    shipping: Option<int>,
    total: Option<int>)

  /** A requested line as the handler reads it. */
  datatype LineRequest = LineRequest(product: ProductId, quantity: int)

  /** The validated body as the handler reads it. */
  datatype OrderInput = OrderInput(
    items: seq<LineRequest>,
    shippingInfo: ShippingInfo,
    payMethod: PaymentMethod,
    subtotal: int,
    tax: int,
    shipping: int,
    total: int)

  predicate ItemValid(it: ItemRequest) {
    && it.product.Some? && it.product.value != [] && Database.IsMongoId(it.product.value)
    && it.quantity.Some? && it.quantity.value >= 1
  }

  predicate ItemsValid(items: seq<ItemRequest>) {
    forall i :: 0 <= i < |items| ==> ItemValid(items[i])
  }

  /** `.trim().notEmpty()`. */
  predicate Filled(f: Option<string>) {
    f.Some? && !IsBlank(f.value)
  }

  predicate ShippingRequestValid(s: ShippingRequest, isEmail: string -> bool) {
    && Filled(s.fullName)
    && Filled(s.email) && isEmail(Trim(s.email.value))
    && Filled(s.phone) && Filled(s.address) && Filled(s.city) && Filled(s.state)
    && Filled(s.zipCode) && Filled(s.country)
  }

  predicate NonNegative(f: Option<int>) {
    f.Some? && f.value >= 0
  }

  /** `createOrderValidator`: a non-empty item array, every item well formed, every shipping
      field non-blank (the email also an email), a known payment method, and four non-negative
      money fields. The total is not compared with the other three. */
  predicate RequestValid(req: OrderRequest, isEmail: string -> bool) {
    && req.items.Some? && |req.items.value| >= 1
    && ItemsValid(req.items.value)
    && ShippingRequestValid(req.shippingInfo, isEmail)
    && req.payMethod.Some? && ParseMethod(req.payMethod.value).Some?
    && NonNegative(req.subtotal) && NonNegative(req.tax) && NonNegative(req.shipping) && NonNegative(req.total)
  }

  /** Every requested quantity is at least 1. */
  predicate QuantitiesPositive(lines: seq<LineRequest>) {
    forall i :: 0 <= i < |lines| ==> lines[i].quantity >= 1
  }

  function ToLine(it: ItemRequest): (l: LineRequest)
    requires ItemValid(it)
    ensures l.quantity >= 1 && Database.IsMongoId(l.product)
  {
    LineRequest(it.product.value, it.quantity.value)
  }

  function ToLines(items: seq<ItemRequest>): (r: seq<LineRequest>)
    requires ItemsValid(items)
    ensures |r| == |items|
    ensures forall i :: 0 <= i < |items| ==> r[i] == ToLine(items[i])
    ensures QuantitiesPositive(r)
  {
    if items == [] then [] else [ToLine(items[0])] + ToLines(items[1..])
  }

  function TrimmedValue(f: Option<string>): (r: string)
    requires Filled(f)
    ensures r != [] && r == Trim(f.value)
  {
    Trim(f.value)
  }

  /** The shipping record after the `trim()` sanitizers. */
  function SanitizeShipping(s: ShippingRequest, isEmail: string -> bool): (r: ShippingInfo)
    requires ShippingRequestValid(s, isEmail)
    ensures ShippingValid(r)
    ensures isEmail(r.email)
  {
    ShippingInfo(TrimmedValue(s.fullName), TrimmedValue(s.email), TrimmedValue(s.phone), TrimmedValue(s.address),
                 TrimmedValue(s.city), TrimmedValue(s.state), TrimmedValue(s.zipCode), TrimmedValue(s.country))
  }

  /** What the validator guarantees of the body the handler receives: at least one line, every
      quantity at least 1, every shipping field non-empty, and no negative amount. */
  predicate WithinBounds(input: OrderInput) {
    && |input.items| >= 1
    && QuantitiesPositive(input.items)
    && ShippingValid(input.shippingInfo)
    && input.subtotal >= 0 && input.tax >= 0 && input.shipping >= 0 && input.total >= 0
  }

  /** The body the handler receives from a request that passed every check. */
  function Accept(req: OrderRequest, isEmail: string -> bool): (r: OrderInput)
    requires RequestValid(req, isEmail)
    ensures |r.items| == |req.items.value|
    ensures WithinBounds(r)
    ensures MethodName(r.payMethod) == req.payMethod.value
  {
    var lines := ToLines(req.items.value);
    var ship := SanitizeShipping(req.shippingInfo, isEmail);
    OrderInput(
      lines,
      ship,
      ParseMethod(req.payMethod.value).value,
      req.subtotal.value, req.tax.value, req.shipping.value, req.total.value)
  }

  /** The validation middleware followed by the sanitizers: a 400 when any check fails, otherwise
      the body with trimmed shipping strings. */
  function Validate(req: OrderRequest, isEmail: string -> bool): (r: Result<OrderInput, Error>)
    ensures r.Ok? <==> RequestValid(req, isEmail)
    ensures r.Err? ==> r.error.BadRequest?
    ensures r.Ok? ==> r.value == Accept(req, isEmail)
  {
    if RequestValid(req, isEmail) then Ok(Accept(req, isEmail)) else Err(BadRequest("Validation failed"))
  }

  /** The validator does not relate the total to subtotal + tax + shipping: replacing the total of
      an accepted body by any non-negative amount leaves it accepted, with everything else kept. */
  lemma TotalNotCrossChecked(req: OrderRequest, isEmail: string -> bool, t: int)
    requires RequestValid(req, isEmail)
    requires t >= 0
    ensures Validate(req.(total := Some(t)), isEmail).Ok?
    ensures Validate(req.(total := Some(t)), isEmail).value.total == t
    ensures Validate(req.(total := Some(t)), isEmail).value.items == Validate(req, isEmail).value.items
  {
    var req' := req.(total := Some(t));
    assert req'.items == req.items && req'.shippingInfo == req.shippingInfo && req'.payMethod == req.payMethod;
    assert RequestValid(req', isEmail);
  }
}

=== FILE: pagination.dfy ===
/** The page/limit arithmetic shared by the order history and the catalog listings
    (`parseInt(q) || default`, `skip = (page - 1) * limit`, `.skip(skip).limit(limit)` and
    `Math.ceil(total / limit)`). A query value that does not parse as an integer is `None`. */
module Pagination {
  import opened Wrappers
  import opened Errors
  import opened Sorting

  /** `parseInt(q) || d`: NaN and 0 are both falsy, so either one gives the default. */
  function OrDefault(q: Option<int>, d: int): (r: int)
    ensures r == d || (q.Some? && r == q.value)
    ensures r == 0 ==> d == 0
    ensures q.Some? && q.value != 0 ==> r == q.value
  {
    if q.None? || q.value == 0 then d else q.value
  }

  /** `Math.ceil(a / b)` for a non-zero divisor: the least integer not below the real quotient. */
  function CeilDiv(a: nat, b: int): (r: int)
    requires b != 0
    ensures b > 0 ==> (r - 1) * b < a <= r * b
    ensures b < 0 ==> r * b <= a < (r - 1) * b
  {
    if b > 0 then
      var q := (a + b - 1) / b;
      CeilBounds(a, b, q, (a + b - 1) % b);
      q
    else
      var q := a / -b;
      FloorBounds(a, -b, q, a % -b);
      -q
  }

  lemma CeilBounds(a: nat, b: int, q: int, m: int)
    requires b > 0 && a + b - 1 == q * b + m && 0 <= m < b
    ensures (q - 1) * b < a <= q * b
  {
    assert (q - 1) * b == q * b - b;
  }

  lemma FloorBounds(a: nat, c: int, q: int, m: int)
    requires c > 0 && a == q * c + m && 0 <= m < c
    ensures (-q) * (-c) <= a < (-q - 1) * (-c)
  {
    assert (-q) * (-c) == q * c;
    assert (-q - 1) * (-c) == q * c + c;
  }

  /** `.skip(skip).limit(limit)` on an already ordered result. The driver rejects a negative skip
      (`None`: the handler then fails with a server error); a negative limit returns at most its
      magnitude, and a zero limit means no limit. */
  function Window<T>(xs: seq<T>, skip: int, limit: int): (r: Option<seq<T>>)
    ensures r.Some? <==> skip >= 0
    ensures r.Some? && skip >= |xs| ==> r.value == []
    ensures r.Some? && skip < |xs| ==> 1 <= |r.value| <= |xs| - skip
    ensures r.Some? && skip < |xs| ==> r.value == xs[skip..skip + |r.value|]
    ensures r.Some? && limit != 0 ==> |r.value| <= if limit < 0 then -limit else limit
    ensures r.Some? && skip < |xs| && limit != 0 ==>
              |r.value| == |xs| - skip || |r.value| == (if limit < 0 then -limit else limit)
    ensures r.Some? && limit == 0 && skip < |xs| ==> r.value == xs[skip..]
    ensures r.Some? ==> forall x :: x in r.value ==> x in xs
  {
    if skip < 0 then None
    else if skip >= |xs| then Some([])
    else
      var size := if limit < 0 then -limit else limit;
      var end := if size == 0 || skip + size > |xs| then |xs| else skip + size;
      Some(xs[skip..end])
  }

  /** The pagination block of a listing response. */
  datatype PageInfo = PageInfo(page: int, limit: int, total: nat, pages: int)

  datatype Paged<T> = Paged(items: seq<T>, info: PageInfo)

  /** One page of an ordered result, with the page number and limit read from the query. */
  function Paginate<T>(xs: seq<T>, pageQ: Option<int>, limitQ: Option<int>, defaultLimit: int): (r: Result<Paged<T>, Error>)
    requires defaultLimit > 0
    ensures var page := OrDefault(pageQ, 1);
            var limit := OrDefault(limitQ, defaultLimit);
            && limit != 0
            && (r.Ok? <==> (page - 1) * limit >= 0)
            && (r.Err? ==> r.error.Internal?)
            && (r.Ok? ==> r.value.info == PageInfo(page, limit, |xs|, CeilDiv(|xs|, limit)))
            && (r.Ok? ==> Window(xs, (page - 1) * limit, limit) == Some(r.value.items))
  {
    var page := OrDefault(pageQ, 1);
    var limit := OrDefault(limitQ, defaultLimit);
    match Window(xs, (page - 1) * limit, limit)
    case None => Err(Internal("skip must be non-negative"))
    case Some(items) => Ok(Paged(items, PageInfo(page, limit, |xs|, CeilDiv(|xs|, limit))))
  }

  /** A page of an ordered listing keeps the listing's order. */
  lemma PageOfSorted<T>(xs: seq<T>, pageQ: Option<int>, limitQ: Option<int>, defaultLimit: int, leq: (T, T) -> bool)
    requires defaultLimit > 0 && SortedBy(xs, leq)
    ensures var r := Paginate(xs, pageQ, limitQ, defaultLimit);
            r.Ok? ==> SortedBy(r.value.items, leq)
  {
    var r := Paginate(xs, pageQ, limitQ, defaultLimit);
    if r.Ok? {
      var skip := (OrDefault(pageQ, 1) - 1) * OrDefault(limitQ, defaultLimit);
      if skip < |xs| {
        SortedSlice(xs, leq, skip, skip + |r.value.items|);
      }
    }
  }

  /** With a positive limit, the advertised page count is exact: every page from 1 to `pages` holds
      at least one element, and the page after it is empty. */
  lemma PagesAreExact<T>(xs: seq<T>, limit: int, page: int)
    requires limit > 0 && page >= 1
    ensures var pages := CeilDiv(|xs|, limit);
            var w := Window(xs, (page - 1) * limit, limit);
            && w.Some?
            && (page <= pages ==> |w.value| >= 1)
            && (page > pages ==> w.value == [])
  {
    var pages := CeilDiv(|xs|, limit);
    var skip := (page - 1) * limit;
    assert (pages - 1) * limit < |xs| <= pages * limit;
    assert skip >= 0 by {
      MulMonotone(0, page - 1, limit);
    }
    if page <= pages {
      MulMonotone(page - 1, pages - 1, limit);
      assert skip < |xs|;
    } else {
      MulMonotone(pages, page - 1, limit);
      assert skip >= |xs|;
    }
  }

  /** With a positive limit, element `i` of the listing is on page `i / limit + 1`, at position
      `i % limit`, and on no other page. */
  lemma PageOfIndex<T>(xs: seq<T>, limit: int, i: int, page: int)
    requires limit > 0 && 0 <= i < |xs| && page >= 1
    ensures var skip := (page - 1) * limit;
            var w := Window(xs, skip, limit);
            && w.Some?
            && (skip <= i < skip + |w.value| <==> page == i / limit + 1)
            && (page == i / limit + 1 ==> i - skip == i % limit && i % limit < |w.value| && w.value[i % limit] == xs[i])
  {
    var skip := (page - 1) * limit;
    IndexPage(limit, i, page);
    var w := Window(xs, skip, limit).value;
    if skip <= i {
      assert skip < |xs| && w == xs[skip..skip + |w|];
      assert |w| == |xs| - skip || |w| == limit;
    }
  }

  /** The arithmetic of a page: the skip of page `page` is not negative, and index `i` falls among
      the `limit` positions after it exactly on page `i / limit + 1`, at offset `i % limit`. */
  lemma IndexPage(limit: int, i: int, page: int)
    requires limit > 0 && i >= 0 && page >= 1
    ensures (page - 1) * limit >= 0
    ensures (page - 1) * limit <= i < (page - 1) * limit + limit <==> page == i / limit + 1
    ensures page == i / limit + 1 ==> i - (page - 1) * limit == i % limit
  {
    var skip := (page - 1) * limit;
    var q, m := i / limit, i % limit;
    assert i == q * limit + m && 0 <= m < limit;
    MulMonotone(0, page - 1, limit);
    if page - 1 == q {
    } else if page - 1 < q {
      MulMonotone(page, q, limit);
      assert skip + limit == page * limit;
    } else {
      MulMonotone(q + 1, page - 1, limit);
      assert (q + 1) * limit == q * limit + limit;
    }
  }

  lemma MulMonotone(x: int, y: int, c: int)
    requires x <= y && c > 0
    ensures x * c <= y * c
  {
    assert y * c - x * c == (y - x) * c;
  }
}

=== FILE: product_controller.dfy ===
/** The catalog handlers (`controllers/product.controller.ts`): the filtered, sorted and paged
    listing, the per-category listing, and the admin create, update and delete. MongoDB's `$text`
    search is not part of this model: whether a product matches a search string is the parameter
    `textMatch`. Price bounds in the query are in cents, like every price here. */
module ProductController {
  import opened Wrappers
  import opened Errors
  import opened Seqs
  import opened Text
  import opened Sorting
  import opened Pagination
  import opened ProductModel
  import opened Database

  /** The query string of `GET /api/products`. An empty string is falsy, so it is the same as an
      absent one; a number that does not parse is `None`. */
  datatype CatalogQuery = CatalogQuery(
    page: Option<int>,
    limit: Option<int>,
    category: Option<string>,
    minPrice: Option<int>,
    maxPrice: Option<int>,
    search: Option<string>,
    sort: Option<string>)

  /** The listing's page size when the query gives none. */
  const DefaultLimit: int := 12

  /** The filter `getProducts` builds: the category when given, each price bound when given, and
      the text search when given. */
  predicate Matches(q: CatalogQuery, textMatch: (string, Product) -> bool, p: Product) {
    && (Given(q.category) ==> p.category == q.category.value)
    && (q.minPrice.Some? ==> p.price >= q.minPrice.value)
    && (q.maxPrice.Some? ==> p.price <= q.maxPrice.value)
    && (Given(q.search) ==> textMatch(q.search.value, p))
  }

  datatype SortKey = Newest | PriceAsc | PriceDesc | NameAsc | NameDesc

  /** The `sort` query mapping: the four known values, and newest first for anything else. */
  function ParseSort(s: Option<string>): (k: SortKey)
    ensures k != Newest <==> s.Some? && s.value in ["price-asc", "price-desc", "name-asc", "name-desc"]
    ensures k == PriceAsc <==> s == Some("price-asc")
    ensures k == NameDesc <==> s == Some("name-desc")
  {
    if s == Some("price-asc") then PriceAsc
    else if s == Some("price-desc") then PriceDesc
    else if s == Some("name-asc") then NameAsc
    else if s == Some("name-desc") then NameDesc
    else Newest
  }

  /** May `a` be listed before `b` under the key: the Mongo sort document each key stands for. */
  function Before(k: SortKey): (Product, Product) -> bool
  {
    match k
    case Newest => (a: Product, b: Product) => a.createdAt >= b.createdAt
    case PriceAsc => (a: Product, b: Product) => a.price <= b.price
    case PriceDesc => (a: Product, b: Product) => a.price >= b.price
    case NameAsc => (a: Product, b: Product) => LexLeq(a.name, b.name)
    case NameDesc => (a: Product, b: Product) => LexLeq(b.name, a.name)
  }

  /** Every key orders the catalog totally, so a listing can be sorted by it. */
  lemma BeforeIsPreorder(k: SortKey)
    ensures TotalPreorder(Before(k))
  {
    var leq := Before(k);
    forall a: Product, b: Product
      ensures leq(a, b) || leq(b, a)
    {
      LexTotal(a.name, b.name);
    }
    forall a: Product, b: Product, c: Product | leq(a, b) && leq(b, c)
      ensures leq(a, c)
    {
      if k == NameAsc {
        LexTransitive(a.name, b.name, c.name);
      } else if k == NameDesc {
        LexTransitive(c.name, b.name, a.name);
      }
    }
  }

  /** Every product the filter keeps, in the key's order: what `.find(filter).sort(sort)` yields
      before the page is cut out of it. */
  function Selection(ps: seq<Product>, keep: Product -> bool, k: SortKey): (r: seq<Product>)
    ensures multiset(r) == multiset(Filter(ps, keep))
    ensures SortedBy(r, Before(k))
  {
    BeforeIsPreorder(k);
    SortBy(Filter(ps, keep), Before(k))
  }

  /** The products of a page, in listing order, with the page information. */
  function Listing(ps: seq<Product>, keep: Product -> bool, k: SortKey, pageQ: Option<int>, limitQ: Option<int>)
    : (r: Result<Paged<Product>, Error>)
    ensures r.Ok? <==> (OrDefault(pageQ, 1) - 1) * OrDefault(limitQ, DefaultLimit) >= 0
    ensures r.Ok? ==> Window(Selection(ps, keep, k), (OrDefault(pageQ, 1) - 1) * OrDefault(limitQ, DefaultLimit),
                             OrDefault(limitQ, DefaultLimit)) == Some(r.value.items)
    ensures r.Err? ==> r.error.Internal?
    ensures r.Ok? ==> forall p :: p in r.value.items ==> p in ps && keep(p)
    ensures r.Ok? ==> SortedBy(r.value.items, Before(k))
    ensures r.Ok? ==> r.value.info == PageInfo(OrDefault(pageQ, 1), OrDefault(limitQ, DefaultLimit), |Filter(ps, keep)|,
                                               CeilDiv(|Filter(ps, keep)|, OrDefault(limitQ, DefaultLimit)))
    ensures r.Ok? ==> var limit := OrDefault(limitQ, DefaultLimit);
              |r.value.items| <= if limit < 0 then -limit else limit
  {
    var selected := Filter(ps, keep);
    var sorted := Selection(ps, keep, k);
    PageOfSorted(sorted, pageQ, limitQ, DefaultLimit, Before(k));
    assert forall p :: p in sorted ==> p in selected by {
      forall p | p in sorted
        ensures p in selected
      {
        assert p in multiset(sorted);
      }
    }
    Paginate(sorted, pageQ, limitQ, DefaultLimit)
  }

  /** `getProducts`: the catalog filtered by the query, ordered by its sort key, one page at a time
      (default limit 12), with the count of every matching product and the number of pages. */
  function GetProducts(ps: seq<Product>, q: CatalogQuery, textMatch: (string, Product) -> bool)
    : (r: Result<Paged<Product>, Error>)
    ensures r.Ok? <==> (OrDefault(q.page, 1) - 1) * OrDefault(q.limit, DefaultLimit) >= 0
    ensures r.Ok? ==> forall p :: p in r.value.items ==> p in ps && Matches(q, textMatch, p)
    ensures r.Ok? ==> SortedBy(r.value.items, Before(ParseSort(q.sort)))
    ensures r.Ok? ==> r.value.info == PageInfo(OrDefault(q.page, 1), OrDefault(q.limit, DefaultLimit),
                                               |Filter(ps, (p: Product) => Matches(q, textMatch, p))|,
                                               CeilDiv(|Filter(ps, (p: Product) => Matches(q, textMatch, p))|,
                                                       OrDefault(q.limit, DefaultLimit)))
    ensures r.Ok? ==> Window(Selection(ps, (p: Product) => Matches(q, textMatch, p), ParseSort(q.sort)),
                             (OrDefault(q.page, 1) - 1) * OrDefault(q.limit, DefaultLimit),
                             OrDefault(q.limit, DefaultLimit)) == Some(r.value.items)
  {
    Listing(ps, (p: Product) => Matches(q, textMatch, p), ParseSort(q.sort), q.page, q.limit)
  }

  /** `getProductsByCategory`: the products of exactly that category, newest first, paged the same
      way. */
  function GetProductsByCategory(ps: seq<Product>, category: string, pageQ: Option<int>, limitQ: Option<int>)
    : (r: Result<Paged<Product>, Error>)
    ensures r.Ok? <==> (OrDefault(pageQ, 1) - 1) * OrDefault(limitQ, DefaultLimit) >= 0
    ensures r.Ok? ==> forall p :: p in r.value.items ==> p in ps && p.category == category
    ensures r.Ok? ==> SortedBy(r.value.items, Before(Newest))
    ensures r.Ok? ==> r.value.info == PageInfo(OrDefault(pageQ, 1), OrDefault(limitQ, DefaultLimit),
                                               |Filter(ps, (p: Product) => p.category == category)|,
                                               CeilDiv(|Filter(ps, (p: Product) => p.category == category)|,
                                                       OrDefault(limitQ, DefaultLimit)))
    ensures r.Ok? ==> Window(Selection(ps, (p: Product) => p.category == category, Newest),
                             (OrDefault(pageQ, 1) - 1) * OrDefault(limitQ, DefaultLimit),
                             OrDefault(limitQ, DefaultLimit)) == Some(r.value.items)
  {
    Listing(ps, (p: Product) => p.category == category, Newest, pageQ, limitQ)
  }

  /** The category route answers exactly what the general listing answers for a query naming only
      that category. */
  lemma ByCategoryIsFilteredListing(ps: seq<Product>, category: string, pageQ: Option<int>, limitQ: Option<int>,
                                    textMatch: (string, Product) -> bool)
    requires category != []
    ensures GetProductsByCategory(ps, category, pageQ, limitQ)
            == GetProducts(ps, CatalogQuery(pageQ, limitQ, Some(category), None, None, None, None), textMatch)
  {
    var q := CatalogQuery(pageQ, limitQ, Some(category), None, None, None, None);
    FilterCongruent(ps, (p: Product) => p.category == category, (p: Product) => Matches(q, textMatch, p));
  }

  /** Every matching product is listed on exactly one page: with a positive limit, product `i` of
      the sorted selection is on page `i / limit + 1`, at position `i % limit`, and on no other. */
  lemma GetProductsPlacesEach(ps: seq<Product>, q: CatalogQuery, textMatch: (string, Product) -> bool, i: int)
    requires q.limit.Some? && q.limit.value > 0 && q.page.Some? && q.page.value >= 1
    requires 0 <= i < |Selection(ps, (p: Product) => Matches(q, textMatch, p), ParseSort(q.sort))|
    ensures var r := GetProducts(ps, q, textMatch);
            var limit, page := q.limit.value, q.page.value;
            var skip := (page - 1) * limit;
            && r.Ok?
            && (skip <= i < skip + |r.value.items| <==> page == i / limit + 1)
            && (page == i / limit + 1 ==>
                  i % limit < |r.value.items| && r.value.items[i % limit] == Selection(ps, (p: Product) => Matches(q, textMatch, p), ParseSort(q.sort))[i])
  {
    var sel := Selection(ps, (p: Product) => Matches(q, textMatch, p), ParseSort(q.sort));
    var r := GetProducts(ps, q, textMatch);
    var limit, page := q.limit.value, q.page.value;
    assert r.Ok? && Window(sel, (page - 1) * limit, limit) == Some(r.value.items) by {
      assert OrDefault(q.page, 1) == page && OrDefault(q.limit, DefaultLimit) == limit;
      MulMonotone(0, page - 1, limit);
    }
    PageOfIndex(sel, limit, i, page);
  }

  /** `getProduct`: the product whose id the requested one casts to, or 404. */
  function GetProduct(ps: seq<Product>, id: ProductId): (r: Result<Product, Error>)
    ensures r.Ok? <==> exists i :: 0 <= i < |ps| && ps[i].id == CastId(id)
    ensures r.Ok? ==> r.value in ps && r.value.id == CastId(id)
    ensures r.Err? ==> r.error == NotFound("Product not found")
  {
    match FindProduct(ps, CastId(id))
    case None => Err(NotFound("Product not found"))
    case Some(k) => Ok(ps[k])
  }

  /** Two hexadecimal spellings of one id that differ only in the case of their letters fetch the
      same product, or both get the 404. */
  lemma GetProductIgnoresCase(ps: seq<Product>, a: ProductId, b: ProductId)
    requires IsMongoId(a) && IsMongoId(b)
    requires forall i :: 0 <= i < 24 ==> LowerChar(a[i]) == LowerChar(b[i])
    ensures GetProduct(ps, a) == GetProduct(ps, b)
  {
    SameObjectId(a, b);
  }

  /** `createProduct`: `Product.create(body)` appended to the catalog under the id the database
      assigns; a body the schema rejects is a 400 and writes nothing. */
  function CreateProduct(db: Db, input: ProductInput, id: ProductId, now: int): (r: Result<Db, Error>)
    ensures r.Ok? <==> Create(id, now, input).Ok?
    ensures r.Err? ==> r.error.BadRequest?
    ensures r.Ok? ==> r.value == db.(products := db.products + [Create(id, now, input).value])
  {
    match Create(id, now, input)
    case Err(e) => Err(e)
    case Ok(p) => Ok(db.(products := db.products + [p]))
  }

  /** `updateProduct`: `findByIdAndUpdate(id, body, { runValidators: true })`. The update validators
      run before the lookup, so an invalid body is a 400 even for a missing id; then an id that
      casts to no stored one is a 404; otherwise the product is patched in place. Carts and orders
      keep their snapshots. */
  function UpdateProduct(db: Db, id: ProductId, patch: ProductPatch): (r: Result<Db, Error>)
    ensures !PatchValid(patch) ==> r == Err(BadRequest("Product validation failed"))
    ensures PatchValid(patch) && FindProduct(db.products, CastId(id)).None? ==> r == Err(NotFound("Product not found"))
    ensures r.Ok? ==> var k := FindProduct(db.products, CastId(id)).value;
              r.value == db.(products := db.products[k := ApplyPatch(db.products[k], patch)])
    ensures r.Ok? ==> r.value.carts == db.carts && r.value.orders == db.orders
  {
    if !PatchValid(patch) then Err(BadRequest("Product validation failed"))
    else
      match FindProduct(db.products, CastId(id))
      case None => Err(NotFound("Product not found"))
      case Some(k) => Ok(db.(products := db.products[k := ApplyPatch(db.products[k], patch)]))
  }

  /** `deleteProduct`: the product whose id the requested one casts to is removed and every other
      keeps its place, or 404.
      Carts and orders that hold a snapshot of it are left as they are. */
  function DeleteProduct(db: Db, id: ProductId): (r: Result<Db, Error>)
    ensures FindProduct(db.products, CastId(id)).None? <==> r == Err(NotFound("Product not found"))
    ensures r.Ok? ==> |r.value.products| == |db.products| - 1
    ensures r.Ok? ==> var k := FindProduct(db.products, CastId(id)).value;
              r.value.products == db.products[..k] + db.products[k + 1..]
    ensures r.Ok? ==> r.value.carts == db.carts && r.value.orders == db.orders
  {
    match FindProduct(db.products, CastId(id))
    case None => Err(NotFound("Product not found"))
    case Some(k) => Ok(db.(products := db.products[..k] + db.products[k + 1..]))
  }

  /** The products with another id than `id`. */
  function OtherId(id: ProductId): (keep: Product -> bool)
    ensures forall p :: keep(p) <==> p.id != id
  {
    (p: Product) => p.id != id
  }

  /** With unique ids, deleting removes exactly the products with the id the request casts to: the
      catalog afterwards is the old one filtered by "has another id", and the id is no longer found. */
  lemma DeleteRemovesExactly(db: Db, id: ProductId)
    requires UniqueProductIds(db.products)
    requires DeleteProduct(db, id).Ok?
    ensures DeleteProduct(db, id).value.products == Filter(db.products, OtherId(CastId(id)))
    ensures FindProduct(DeleteProduct(db, id).value.products, CastId(id)).None?
  {
    var ps := db.products;
    var k := FindProduct(ps, CastId(id)).value;
    forall i | 0 <= i < |ps| && i != k
      ensures OtherId(CastId(id))(ps[i])
    {
      if i > k {
        assert ps[k].id != ps[i].id;
      }
    }
    FilterRemovesOne(ps, k, OtherId(CastId(id)));
  }

  /** Creating a product under a fresh id keeps the catalog valid. */
  lemma CreateKeepsValid(db: Db, input: ProductInput, id: ProductId, now: int)
    requires ProductsValid(db.products)
    requires FindProduct(db.products, id).None?
    requires CreateProduct(db, input, id, now).Ok?
    ensures ProductsValid(CreateProduct(db, input, id, now).value.products)
  {
    AppendKeepsProductsValid(db.products, Create(id, now, input).value);
  }

  /** Updating keeps the catalog valid: the schema's update validators guard every field. */
  lemma UpdateKeepsValid(db: Db, id: ProductId, patch: ProductPatch)
    requires ProductsValid(db.products)
    requires UpdateProduct(db, id, patch).Ok?
    ensures ProductsValid(UpdateProduct(db, id, patch).value.products)
  {
    var k := FindProduct(db.products, CastId(id)).value;
    var ps := UpdateProduct(db, id, patch).value.products;
    assert forall i :: 0 <= i < |ps| ==> ps[i].id == db.products[i].id;
  }

  /** Deleting keeps the catalog valid. */
  lemma DeleteKeepsValid(db: Db, id: ProductId)
    requires ProductsValid(db.products)
    requires DeleteProduct(db, id).Ok?
    ensures ProductsValid(DeleteProduct(db, id).value.products)
  {
    RemoveKeepsProductsValid(db.products, FindProduct(db.products, CastId(id)).value);
  }
}

=== FILE: product_details.dfy ===
/** The product page's controls (`pages/productDetails/hooks/useProductDetails.ts`): a quantity
    selector bounded by the product's stock, the wishlist toggle, and the add-to-cart button. The
    product may be missing (`undefined` while the id resolves to nothing). */
module ProductDetails {
  import opened Wrappers
  import opened Seqs
  import opened ShopTypes
  import CartProvider

  // ---- quantity selector ----

  /** The selector starts at one. */
  const InitialQuantity: int := 1

  /** `increaseQuantity`: one more, only while below the product's stock. */
  function IncreaseQuantity(product: Option<Product>, q: int): (r: int)
    ensures product.Some? && q < product.value.stock ==> r == q + 1
    ensures product.None? || q >= product.value.stock ==> r == q
  {
    if product.Some? && q < product.value.stock then q + 1 else q
  }

  /** `decreaseQuantity`: one fewer, only while above one. */
  function DecreaseQuantity(q: int): (r: int)
    ensures q > 1 ==> r == q - 1
    ensures q <= 1 ==> r == q
  {
    if q > 1 then q - 1 else q
  }

  /** The range the selector keeps to: at least one, and at most the stock when there is any. */
  predicate InRange(product: Option<Product>, q: int) {
    1 <= q && (product.Some? ==> q <= if product.value.stock > 1 then product.value.stock else 1)
  }

  /** The start is in range, and both buttons keep the selector in range. */
  lemma QuantityStaysInRange(product: Option<Product>, q: int)
    ensures InRange(product, InitialQuantity)
    ensures InRange(product, q) ==> InRange(product, IncreaseQuantity(product, q))
    ensures InRange(product, q) ==> InRange(product, DecreaseQuantity(q))
  {
  }

  /** A press of the selector's buttons. */
  datatype Press = Increase | Decrease

  function Step(product: Option<Product>, q: int, p: Press): int {
    match p
    case Increase => IncreaseQuantity(product, q)
    case Decrease => DecreaseQuantity(q)
  }

  /** The quantity after a run of presses from `q`. */
  function Run(product: Option<Product>, q: int, ps: seq<Press>): int
    decreases |ps|
  {
    if ps == [] then q else Run(product, Step(product, q, ps[0]), ps[1..])
  }

  /** Whatever the presses, the selector stays within `[1, max(1, stock)]`. */
  lemma {:induction false} RunStaysInRange(product: Option<Product>, ps: seq<Press>, q: int)
    requires InRange(product, q)
    ensures InRange(product, Run(product, q, ps))
    decreases |ps|
  {
    if ps != [] {
      QuantityStaysInRange(product, q);
      RunStaysInRange(product, ps[1..], Step(product, q, ps[0]));
    }
  }

  /** Going up and back down returns to where the selector was, whenever going up was allowed. */
  lemma IncreaseThenDecrease(product: Option<Product>, q: int)
    requires product.Some? && 1 <= q < product.value.stock
    ensures DecreaseQuantity(IncreaseQuantity(product, q)) == q
  {
  }

  // ---- wishlist ----

  /** The wishlist, in the order products were added. The wishlist context is not part of this
      model: membership is by product id, adding appends and removing drops every entry with the
      id. */
  type Wishlist = seq<Product>

  predicate InWishlist(w: Wishlist, id: string) {
    exists k :: 0 <= k < |w| && w[k].id == id
  }

  function OtherProduct(id: string): (keep: Product -> bool)
    ensures forall p :: keep(p) <==> p.id != id
  {
    (p: Product) => p.id != id
  }

  /** `toggleWishlist`: removes a listed product, adds an unlisted one, and with no product does
      nothing. */
  function ToggleWishlist(w: Wishlist, product: Option<Product>): (r: Wishlist)
    ensures product.None? ==> r == w
    ensures product.Some? && InWishlist(w, product.value.id) ==> !InWishlist(r, product.value.id)
    ensures product.Some? && !InWishlist(w, product.value.id) ==> r == w + [product.value]
    ensures product.Some? ==> forall p :: p in w && p.id != product.value.id ==> p in r
  {
    match product
    case None => w
    case Some(p) =>
      if InWishlist(w, p.id) then
        var r := Filter(w, OtherProduct(p.id));
        assert forall k :: 0 <= k < |r| ==> r[k] in r;
        r
      else w + [p]
  }

  /** Toggling flips the product's membership; toggling twice restores it. */
  lemma ToggleFlips(w: Wishlist, p: Product)
    ensures InWishlist(ToggleWishlist(w, Some(p)), p.id) <==> !InWishlist(w, p.id)
    ensures InWishlist(ToggleWishlist(ToggleWishlist(w, Some(p)), Some(p)), p.id) <==> InWishlist(w, p.id)
  {
    var w1 := ToggleWishlist(w, Some(p));
    if !InWishlist(w, p.id) {
      assert w1[|w|].id == p.id;
    } else {
      assert !InWishlist(w1, p.id);
      var w2 := ToggleWishlist(w1, Some(p));
      assert w2[|w1|].id == p.id;
    }
  }

  /** An unlisted product toggled on and off leaves the wishlist as it was. */
  lemma ToggleTwiceRestores(w: Wishlist, p: Product)
    requires !InWishlist(w, p.id)
    ensures ToggleWishlist(ToggleWishlist(w, Some(p)), Some(p)) == w
  {
    var w1 := w + [p];
    assert w1[|w|].id == p.id;
    FilterAppend(w, [p], OtherProduct(p.id));
    FilterKeepsAll(w, OtherProduct(p.id));
  }

  // ---- add to cart ----

  /** The page after the add-to-cart button: the cart, and whether the success note shows. The note
      is hidden again by a timer, which this model leaves out. */
  datatype Added = Added(cart: seq<CartItem>, showSuccess: bool)

  /** `handleAddToCart`: adds the selected quantity of the product and shows the note; with no
      product nothing happens. */
  function HandleAddToCart(a: Added, product: Option<Product>, quantity: int): (r: Added)
    ensures product.None? ==> r == a
    ensures product.Some? ==> r.showSuccess
  {
    match product
    case None => a
    case Some(p) => Added(CartProvider.AddToCart(a.cart, p, quantity), true)
  }

  /** The cart holds exactly `quantity` more of the product and the same of every other product. */
  lemma AddToCartAddsQuantity(a: Added, p: Product, quantity: int, other: string)
    requires other != p.id
    ensures CartProvider.GetItemQuantity(HandleAddToCart(a, Some(p), quantity).cart, p.id)
      == CartProvider.GetItemQuantity(a.cart, p.id) + quantity
    ensures CartProvider.GetItemQuantity(HandleAddToCart(a, Some(p), quantity).cart, other)
      == CartProvider.GetItemQuantity(a.cart, other)
  {
    CartProvider.AddThenGet(a.cart, p, quantity, other);
  }
}

=== FILE: product_model.dfy ===
/** The catalog entry of the backend (`models/Product.ts`): its fields, the schema's bounds and
    defaults, and the two ways a document is written (create and validated update).
    Money is held in integer cents. */
module ProductModel {
  import opened Wrappers
  import opened Text
  import opened Errors

  type ProductId = string

  /** The category enum of the schema, in declaration order. */
  const Categories: seq<string> := ["Electronics", "Clothing", "Home & Living", "Books", "Other"]

  const MaxNameLength: int := 100
  const MaxDescriptionLength: int := 2000
  /** The schema's price ceiling of 999999, in cents. */
  const MaxPrice: int := 999999 * 100
  const MaxRating: real := 5.0

  datatype Product = Product(
    id: ProductId,
    name: string,
    description: string,
    price: int,
    image: string,
    category: string,
    stock: int,
    ratings: real,
    numReviews: int,
    createdAt: int)

  /** What the schema guarantees of every stored product. A required string may not be empty,
      the `trim` setter leaves no surrounding whitespace on the name, and `maxlength` counts
      UTF-16 code units. */
  predicate Valid(p: Product) {
    && p.name != [] && Trimmed(p.name) && Utf16Length(p.name) <= MaxNameLength
    && p.description != [] && Utf16Length(p.description) <= MaxDescriptionLength
    && 0 <= p.price <= MaxPrice
    && p.image != []
    && p.category in Categories
    && p.stock >= 0
    && 0.0 <= p.ratings <= MaxRating
    && p.numReviews >= 0
  }

  /** A request body given to `Product.create`, every field possibly absent. */
  datatype ProductInput = ProductInput(
    name: Option<string>,
    description: Option<string>,
    price: Option<int>,
    image: Option<string>,
    category: Option<string>,
    stock: Option<int>,
    ratings: Option<real>,
    numReviews: Option<int>)

  /** Every field the schema requires (and gives no default) is present. */
  predicate HasRequired(input: ProductInput) {
    input.name.Some? && input.description.Some? && input.price.Some? && input.image.Some? && input.category.Some?
  }

  /** The document `Product.create(body)` builds before validating it: the `trim` setter on the
      name and the defaults (stock, ratings and reviews 0). */
  function Candidate(id: ProductId, now: int, input: ProductInput): Product
    requires HasRequired(input)
  {
    Product(id, Trim(input.name.value), input.description.value, input.price.value, input.image.value,
            input.category.value, input.stock.GetOr(0), input.ratings.GetOr(0.0), input.numReviews.GetOr(0), now)
  }

  /** `Product.create(body)`: the candidate document, stored only if the schema's validation passes;
      `id` and `now` are what the database assigns. */
  function Create(id: ProductId, now: int, input: ProductInput): (r: Result<Product, Error>)
    ensures r.Ok? ==> Valid(r.value)
    ensures r.Ok? <==> HasRequired(input) && Valid(Candidate(id, now, input))
    ensures r.Err? ==> r.error == BadRequest("Product validation failed")
    ensures r.Ok? ==> r.value.id == id && r.value.createdAt == now
    ensures r.Ok? ==> input.name.Some? && r.value.name == Trim(input.name.value)
    ensures r.Ok? ==> r.value.stock == input.stock.GetOr(0)
    ensures r.Ok? ==> r.value.ratings == input.ratings.GetOr(0.0) && r.value.numReviews == input.numReviews.GetOr(0)
    ensures input.name.None? || input.price.None? ==> r.Err?
  {
    if !HasRequired(input) then Err(BadRequest("Product validation failed"))
    else
      var p := Candidate(id, now, input);
      if Valid(p) then Ok(p) else Err(BadRequest("Product validation failed"))
  }

  /** The fields of an update request; absent ones are left as they are. */
  datatype ProductPatch = ProductPatch(
    name: Option<string>,
    description: Option<string>,
    price: Option<int>,
    image: Option<string>,
    category: Option<string>,
    stock: Option<int>,
    ratings: Option<real>,
    numReviews: Option<int>)

  /** The schema's update validators (`runValidators: true`): each field being set must meet the bound
      the schema states for it; fields not being set are not checked. */
  predicate PatchValid(patch: ProductPatch) {
    && (patch.name.Some? ==> Trim(patch.name.value) != [] && Utf16Length(Trim(patch.name.value)) <= MaxNameLength)
    && (patch.description.Some? ==> patch.description.value != [] && Utf16Length(patch.description.value) <= MaxDescriptionLength)
    && (patch.price.Some? ==> 0 <= patch.price.value <= MaxPrice)
    && (patch.image.Some? ==> patch.image.value != [])
    && (patch.category.Some? ==> patch.category.value in Categories)
    && (patch.stock.Some? ==> patch.stock.value >= 0)
    && (patch.ratings.Some? ==> 0.0 <= patch.ratings.value <= MaxRating)
    && (patch.numReviews.Some? ==> patch.numReviews.value >= 0)
  }

  /** The document after `findByIdAndUpdate(id, body)`: supplied fields overwritten, the name trimmed. */
  function ApplyPatch(p: Product, patch: ProductPatch): (r: Product)
    ensures Valid(p) && PatchValid(patch) ==> Valid(r)
    ensures r.id == p.id && r.createdAt == p.createdAt
    ensures r.name == if patch.name.Some? then Trim(patch.name.value) else p.name
    ensures r.description == if patch.description.Some? then patch.description.value else p.description
    ensures r.price == if patch.price.Some? then patch.price.value else p.price
    ensures r.image == if patch.image.Some? then patch.image.value else p.image
    ensures r.category == if patch.category.Some? then patch.category.value else p.category
    ensures r.stock == if patch.stock.Some? then patch.stock.value else p.stock
    ensures r.ratings == if patch.ratings.Some? then patch.ratings.value else p.ratings
    ensures r.numReviews == if patch.numReviews.Some? then patch.numReviews.value else p.numReviews
    ensures patch == ProductPatch(None, None, None, None, None, None, None, None) ==> r == p
  {
    var name := if patch.name.Some? then Trim(patch.name.value) else p.name;
    Product(p.id, name, patch.description.GetOr(p.description), patch.price.GetOr(p.price),
            patch.image.GetOr(p.image), patch.category.GetOr(p.category), patch.stock.GetOr(p.stock),
            patch.ratings.GetOr(p.ratings), patch.numReviews.GetOr(p.numReviews), p.createdAt)
  }
}

=== FILE: product_provider.dfy ===
/** The storefront's catalog context (`context/ProductProvider.tsx`): lookups over the fixed list of
    products the provider holds. Lower-casing is ASCII `toLowerCase()`. */
module ProductProvider {
  import opened Wrappers
  import opened Seqs
  import opened Text
  import opened ShopTypes

  /** `getProductById`: the first product with the id, or `None` for `undefined`. */
  function GetProductById(ps: seq<Product>, id: string): (r: Option<Product>)
    ensures r.Some? ==> r.value.id == id
    ensures r.Some? ==> exists k :: 0 <= k < |ps| && ps[k] == r.value && forall j :: 0 <= j < k ==> ps[j].id != id
    ensures r.None? <==> forall k :: 0 <= k < |ps| ==> ps[k].id != id
  {
    match FindIndex(ps, (p: Product) => p.id == id)
    case None => None
    case Some(k) => Some(ps[k])
  }

  /** The test `getProductsByCategory` filters by. */
  function InCategory(c: string): (keep: Product -> bool)
    ensures forall p :: keep(p) <==> Lower(p.category) == Lower(c)
  {
    (p: Product) => Lower(p.category) == Lower(c)
  }

  /** `getProductsByCategory`: the products whose category equals `c` up to letter case, in
      catalog order. */
  function GetProductsByCategory(ps: seq<Product>, c: string): (r: seq<Product>)
    ensures forall p :: p in r <==> p in ps && Lower(p.category) == Lower(c)
    ensures forall p :: multiset(r)[p] == if Lower(p.category) == Lower(c) then multiset(ps)[p] else 0
  {
    var r := Filter(ps, InCategory(c));
    assert forall p :: multiset(r)[p] == if Lower(p.category) == Lower(c) then multiset(ps)[p] else 0 by {
      forall p ensures multiset(r)[p] == if Lower(p.category) == Lower(c) then multiset(ps)[p] else 0 {
        FilterMultiset(ps, InCategory(c), p);
      }
    }
    r
  }

  /** Two spellings of a category that differ only in letter case select the same products. */
  lemma CategoryIgnoresCase(ps: seq<Product>, c: string, d: string)
    requires Lower(c) == Lower(d)
    ensures GetProductsByCategory(ps, c) == GetProductsByCategory(ps, d)
  {
    FilterCongruent(ps, InCategory(c), InCategory(d));
  }

  /** Filtering a catalog made of two parts filters each part in place, so the selection keeps
      catalog order. */
  lemma CategoryKeepsOrder(ps: seq<Product>, qs: seq<Product>, c: string)
    ensures GetProductsByCategory(ps + qs, c) == GetProductsByCategory(ps, c) + GetProductsByCategory(qs, c)
  {
    FilterAppend(ps, qs, InCategory(c));
  }

  /** The test `searchProducts` filters by: the lower-cased query occurs in the lower-cased name or
      description. */
  predicate Matches(p: Product, q: string) {
    Includes(Lower(p.name), Lower(q)) || Includes(Lower(p.description), Lower(q))
  }

  function Matching(q: string): (keep: Product -> bool)
    ensures forall p :: keep(p) <==> Matches(p, q)
  {
    (p: Product) => Matches(p, q)
  }

  /** `searchProducts`: the products whose name or description contains the query, ignoring
      letter case, in catalog order. */
  function SearchProducts(ps: seq<Product>, q: string): (r: seq<Product>)
    ensures forall p :: p in r <==> p in ps && Matches(p, q)
  {
    Filter(ps, Matching(q))
  }

  /** The empty query occurs in every text, so it returns the whole catalog. */
  lemma SearchEmptyReturnsAll(ps: seq<Product>)
    ensures SearchProducts(ps, "") == ps
  {
    forall i | 0 <= i < |ps|
      ensures Matching("")(ps[i])
    {
      assert OccursAt(Lower(ps[i].name), Lower(""), 0);
    }
    FilterKeepsAll(ps, Matching(""));
  }

  /** Queries that differ only in letter case find the same products. */
  lemma SearchIgnoresCase(ps: seq<Product>, q: string, q': string)
    requires Lower(q) == Lower(q')
    ensures SearchProducts(ps, q) == SearchProducts(ps, q')
  {
    FilterCongruent(ps, Matching(q), Matching(q'));
  }

  /** `products.map(p => p.category)`. */
  function Categories(ps: seq<Product>): (r: seq<string>)
    ensures |r| == |ps| && forall i :: 0 <= i < |ps| ==> r[i] == ps[i].category
  {
    seq(|ps|, i requires 0 <= i < |ps| => ps[i].category)
  }

  /** `getAllCategories`: `Array.from(new Set(...))` of the categories, which lists each category
      that occurs once, in the order it first appears in the catalog. */
  function GetAllCategories(ps: seq<Product>): (r: seq<string>)
    ensures forall c :: c in r <==> exists k :: 0 <= k < |ps| && ps[k].category == c
    ensures forall c :: c in r <==> c in Categories(ps)
    ensures forall i, j :: 0 <= i < j < |r| ==> r[i] != r[j]
    ensures forall i, j :: 0 <= i < j < |r| ==> IndexOf(Categories(ps), r[i]) < IndexOf(Categories(ps), r[j])
  {
    var cs := Categories(ps);
    var r := Distinct(cs);
    assert forall c :: c in cs <==> exists k :: 0 <= k < |ps| && ps[k].category == c by {
      forall c | c in cs
        ensures exists k :: 0 <= k < |ps| && ps[k].category == c
      {
        var k := IndexOf(cs, c);
        assert ps[k].category == c;
      }
    }
    r
  }
}

=== FILE: product_validator.dfy ===
/** The request checks run before the admin product handlers (`validators/product.validator.ts`).
    Their `trim()` sanitizers rewrite the body, so the handler receives the trimmed strings.
    express-validator's `isURL` is not part of this model: it is the parameter `isUrl`. */
module ProductValidator {
  import opened Wrappers
  import opened Text
  import opened ProductModel

  /** `.trim().notEmpty().isLength({ max })`: a string field that is present and, once trimmed, not
      empty and within the bound as `isLength` counts it. */
  predicate TrimmedIn(f: Option<string>, hi: int) {
    f.Some? && Trim(f.value) != [] && IsLengthCount(Trim(f.value)) <= hi
  }

  /** `createProductValidator`: every field required. */
  predicate CreateValid(req: ProductInput, isUrl: string -> bool) {
    && TrimmedIn(req.name, MaxNameLength)
    && TrimmedIn(req.description, MaxDescriptionLength)
    && req.price.Some? && 0 <= req.price.value <= MaxPrice
    && req.image.Some? && !IsBlank(req.image.value) && isUrl(Trim(req.image.value))
    && req.category.Some? && Trim(req.category.value) in Categories
    && req.stock.Some? && req.stock.value >= 0
  }

  /** `updateProductValidator`: every field optional; a field present must meet the same length,
      range, URL and enum bound as on create. A present name or description may be blank. */
  predicate UpdateValid(req: ProductPatch, isUrl: string -> bool) {
    && (req.name.Some? ==> IsLengthCount(Trim(req.name.value)) <= MaxNameLength)
    && (req.description.Some? ==> IsLengthCount(Trim(req.description.value)) <= MaxDescriptionLength)
    && (req.price.Some? ==> 0 <= req.price.value <= MaxPrice)
    && (req.image.Some? ==> isUrl(Trim(req.image.value)))
    && (req.category.Some? ==> Trim(req.category.value) in Categories)
    && (req.stock.Some? ==> req.stock.value >= 0)
  }

  function TrimField(f: Option<string>): (r: Option<string>)
    ensures r.Some? <==> f.Some?
    ensures f.Some? ==> r.value == Trim(f.value)
  {
    match f
    case None => None
    case Some(v) => Some(Trim(v))
  }

  /** The body after the create chain's sanitizers: name, description, image and category trimmed. */
  function SanitizeCreate(req: ProductInput): (r: ProductInput)
    ensures r.price == req.price && r.stock == req.stock && r.ratings == req.ratings && r.numReviews == req.numReviews
    ensures r.name == TrimField(req.name) && r.category == TrimField(req.category)
    ensures r.description == TrimField(req.description) && r.image == TrimField(req.image)
  {
    req.(name := TrimField(req.name), description := TrimField(req.description),
         image := TrimField(req.image), category := TrimField(req.category))
  }

  /** The body after the update chain's sanitizers. */
  function SanitizeUpdate(req: ProductPatch): (r: ProductPatch)
    ensures r.price == req.price && r.stock == req.stock && r.ratings == req.ratings && r.numReviews == req.numReviews
    ensures r.name == TrimField(req.name) && r.category == TrimField(req.category)
    ensures r.description == TrimField(req.description) && r.image == TrimField(req.image)
  {
    req.(name := TrimField(req.name), description := TrimField(req.description),
         image := TrimField(req.image), category := TrimField(req.category))
  }

  /** The create validator with its two length bounds measured as the schema measures them, in
      UTF-16 code units: the check the validator's messages, which repeat the schema's, evidently
      intend. */
  predicate CreateValidInUnits(req: ProductInput, isUrl: string -> bool) {
    && CreateValid(req, isUrl)
    && Utf16Length(Trim(req.name.value)) <= MaxNameLength
    && Utf16Length(Trim(req.description.value)) <= MaxDescriptionLength
  }

  /** Measuring in code units only refuses more, and on text with no astral character and no
      variation selector the two validators agree. */
  lemma InUnitsRefinesCreateValid(req: ProductInput, isUrl: string -> bool)
    ensures CreateValidInUnits(req, isUrl) ==> CreateValid(req, isUrl)
    ensures CreateValid(req, isUrl) && Plain(Trim(req.name.value)) && Plain(Trim(req.description.value)) ==>
              CreateValidInUnits(req, isUrl)
  {
    if CreateValid(req, isUrl) {
      LengthsAgree(Trim(req.name.value));
      LengthsAgree(Trim(req.description.value));
    }
  }

  /** A create request the corrected validator accepts is stored by the schema, unless the body
      also carries ratings or a review count out of the schema's range (those two fields are not
      validated). */
  lemma CreateValidIsStored(req: ProductInput, isUrl: string -> bool, id: ProductId, now: int)
    requires CreateValidInUnits(req, isUrl)
    requires req.ratings.Some? ==> 0.0 <= req.ratings.value <= MaxRating
    requires req.numReviews.Some? ==> req.numReviews.value >= 0
    ensures Create(id, now, SanitizeCreate(req)).Ok?
    ensures Create(id, now, SanitizeCreate(req)).value.stock == req.stock.value
  {
    var s := SanitizeCreate(req);
    assert s.name.value == Trim(req.name.value);
    assert s.price == req.price && s.stock == req.stock;
    assert s.category.value in Categories;
    SanitizedIsStored(id, now, s);
  }

  /** As written, the validator passes a name the schema refuses: 99 letters and an emoji are 100
      code points for `isLength` but 101 UTF-16 code units for `maxlength`, so whatever the other
      fields hold, the create fails. */
  lemma CreateValidOverlongName(req: ProductInput, isUrl: string -> bool, id: ProductId, now: int, letters: string)
    requires |letters| == 99 && forall i :: 0 <= i < |letters| ==> letters[i] == 'a'
    requires req.name == Some(letters + ['\U{1F600}'])
    ensures TrimmedIn(req.name, MaxNameLength)
    ensures !CreateValidInUnits(req, isUrl)
    ensures Create(id, now, SanitizeCreate(req)).Err?
  {
    OverlongNameLengths(letters);
    var s := SanitizeCreate(req);
    assert s.name == Some(letters + ['\U{1F600}']);
    if HasRequired(s) {
      assert !Valid(Candidate(id, now, s));
    }
  }

  /** The name of that example: its own trim, 100 long for `isLength` and 101 code units long. */
  lemma OverlongNameLengths(letters: string)
    requires |letters| == 99 && forall i :: 0 <= i < |letters| ==> letters[i] == 'a'
    ensures var name := letters + ['\U{1F600}'];
            Trim(name) == name && IsLengthCount(name) == 100 && Utf16Length(name) == 101
  {
    var name := letters + ['\U{1F600}'];
    assert Plain(letters);
    LengthsAgree(letters);
    IsLengthCountAppend(letters, ['\U{1F600}']);
    Utf16LengthAppend(letters, ['\U{1F600}']);
    assert Utf16Length(['\U{1F600}']) == 2;
    assert name[0] == 'a' && name[|name| - 1] == '\U{1F600}';
    TrimmedIsFixed(name);
  }

  /** A body whose fields already meet the schema's bounds, with a name that needs no trimming,
      is stored as it is. */
  lemma SanitizedIsStored(id: ProductId, now: int, s: ProductInput)
    requires HasRequired(s) && s.stock.Some? && s.stock.value >= 0
    requires s.name.value != [] && Trimmed(s.name.value) && Utf16Length(s.name.value) <= MaxNameLength
    requires s.description.value != [] && Utf16Length(s.description.value) <= MaxDescriptionLength
    requires 0 <= s.price.value <= MaxPrice && s.image.value != [] && s.category.value in Categories
    requires s.ratings.Some? ==> 0.0 <= s.ratings.value <= MaxRating
    requires s.numReviews.Some? ==> s.numReviews.value >= 0
    ensures Create(id, now, s).Ok?
    ensures Create(id, now, s).value.stock == s.stock.value
  {
    TrimmedIsFixed(s.name.value);
  }

  /** The update validator is weaker than the schema: a blank name passes it and the schema's
      `required` then rejects the update. */
  lemma UpdateValidatorAdmitsBlankName(isUrl: string -> bool)
    ensures var patch := ProductPatch(Some("  "), None, None, None, None, None, None, None);
            UpdateValid(patch, isUrl) && !PatchValid(SanitizeUpdate(patch))
  {
    var patch := ProductPatch(Some("  "), None, None, None, None, None, None, None);
    assert AllSpace("  ");
    assert Trim("  ") == [];
  }

  /** Together, the update validator and the schema's update validators keep a stored product valid. */
  lemma UpdateKeepsValid(p: Product, req: ProductPatch, isUrl: string -> bool)
    requires Valid(p)
    requires UpdateValid(req, isUrl)
    requires PatchValid(SanitizeUpdate(req))
    ensures Valid(ApplyPatch(p, SanitizeUpdate(req)))
  {
  }
}

=== FILE: products_page.dfy ===
/** The catalog page's state (`pages/product/hooks/useProductsPage.ts`): the category comes from the
    `/products/:category` route as a slug, the search box holds a query, and the page shows the
    search result, the category's products, or the whole catalog, in that order of precedence. */
module ProductsPage {
  import opened Wrappers
  import opened Seqs
  import opened Text
  import opened ShopTypes
  import opened ProductProvider

  /** `categoryMapping`, slug to display name, in key order. */
  const Mapping: seq<(string, string)> := [
    ("clothing", "Clothing"),
    ("electronics", "Electronics"),
    ("home-living", "Home & Living"),
    ("sports", "Sports"),
    ("beauty", "Beauty"),
    ("books", "Books")
  ]

  /** `categoryMapping[slug]` for the table's own keys. */
  function NameOf(slug: string): (r: Option<string>)
    ensures r.Some? <==> exists i :: 0 <= i < |Mapping| && Mapping[i].0 == slug
    ensures r.Some? ==> exists i :: 0 <= i < |Mapping| && Mapping[i] == (slug, r.value)
  {
    match FindIndex(Mapping, (e: (string, string)) => e.0 == slug)
    case None => None
    case Some(i) => Some(Mapping[i].1)
  }

  /** `Object.keys(categoryMapping).find(key => categoryMapping[key] === name)`. */
  function SlugOf(name: string): (r: Option<string>)
    ensures r.Some? <==> exists i :: 0 <= i < |Mapping| && Mapping[i].1 == name
    ensures r.Some? ==> exists i :: 0 <= i < |Mapping| && Mapping[i] == (r.value, name)
  {
    match FindIndex(Mapping, (e: (string, string)) => e.1 == name)
    case None => None
    case Some(i) => Some(Mapping[i].0)
  }

  /** The members a plain object inherits from `Object.prototype`. Indexing `categoryMapping`
      with one of these names finds the inherited member (a function, or the prototype itself for
      `__proto__`): a truthy value that is not a string. */
  const InheritedKeys: set<string> := {
    "constructor", "hasOwnProperty", "isPrototypeOf", "propertyIsEnumerable", "toLocaleString",
    "toString", "valueOf", "__defineGetter__", "__defineSetter__", "__lookupGetter__",
    "__lookupSetter__", "__proto__"
  }

  /** What `selectedCategory` holds: a display name (a mapped one, or `"All"`), or the inherited
      member that the table lookup found for a slug naming one. */
  datatype Selected = Named(name: string) | Inherited(key: string)

  /** `selectedCategory`: `categoryMapping[slug] || 'All'` for a non-empty slug, `'All'` without one. */
  function SelectedCategory(slug: Option<string>): (r: Selected)
    ensures r.Named? && r.name != "All" <==> Given(slug) && NameOf(slug.value).Some?
    ensures r.Named? && r.name != "All" ==> exists i :: 0 <= i < |Mapping| && Mapping[i] == (slug.value, r.name)
    ensures r.Inherited? <==> Given(slug) && slug.value in InheritedKeys
    ensures r.Inherited? ==> r.key == slug.value
  {
    if !Given(slug) then Named("All")
    else match NameOf(slug.value)
      case Some(n) =>
        assert slug.value !in InheritedKeys by {
          var i :| 0 <= i < |Mapping| && Mapping[i] == (slug.value, n);
          MappingNotInherited(i);
        }
        Named(n)
      case None => if slug.value in InheritedKeys then Inherited(slug.value) else Named("All")
  }

  /** No slug of the table is an inherited member's name, so the two lookups never compete. */
  lemma MappingNotInherited(i: nat)
    requires i < |Mapping|
    ensures Mapping[i].0 !in InheritedKeys && Mapping[i].1 != "All"
  {
  }

  /** `s.replace(/\s+/g, '-')`: each run of whitespace becomes one hyphen. */
  function Hyphenate(s: string): (r: string)
    ensures NoSpace(r)
    ensures |r| <= |s|
    decreases |s|
  {
    if s == [] then []
    else if IsSpace(s[0]) then "-" + Hyphenate(TrimStart(s[1..]))
    else [s[0]] + Hyphenate(s[1..])
  }

  /** Text without whitespace goes through the replacement unchanged. */
  lemma {:induction false} HyphenateNoSpace(s: string)
    requires NoSpace(s)
    ensures Hyphenate(s) == s
  {
    if s != [] {
      HyphenateNoSpace(s[1..]);
    }
  }

  const ProductsPath: string := "/products"

  /** The route `/products/:category` for a slug. */
  function CategoryPath(slug: string): string {
    ProductsPath + "/" + slug
  }

  /** The `:category` parameter the router reads back from a path. */
  function Param(path: string): (r: Option<string>)
    ensures r.Some? ==> path == CategoryPath(r.value)
    ensures path == ProductsPath ==> r.None?
  {
    var pre := ProductsPath + "/";
    if |pre| <= |path| && path[..|pre|] == pre then
      assert path == pre + path[|pre|..];
      Some(path[|pre|..])
    else None
  }

  /** The router reads back the slug a category path was built from. */
  lemma ParamOfPath(slug: string)
    ensures Param(CategoryPath(slug)) == Some(slug)
  {
    var pre := ProductsPath + "/";
    assert CategoryPath(slug)[..|pre|] == pre && CategoryPath(slug)[|pre|..] == slug;
  }

  /** `handleCategoryChange`: the path it navigates to. */
  function HandleCategoryChange(name: string): (path: string)
    ensures name == "All" ==> path == ProductsPath
    ensures name != "All" && SlugOf(name).Some? ==> path == CategoryPath(SlugOf(name).value)
    ensures name != "All" && SlugOf(name).None? ==> path == CategoryPath(Hyphenate(Lower(name)))
  {
    if name == "All" then ProductsPath
    else match SlugOf(name)
      case Some(slug) => CategoryPath(slug)
      case None => CategoryPath(Hyphenate(Lower(name)))
  }

  /** No two entries of the mapping share a slug or a display name. */
  lemma MappingDistinct(i: nat, j: nat)
    requires i < j < |Mapping|
    ensures Mapping[i].0 != Mapping[j].0 && Mapping[i].1 != Mapping[j].1
  {
  }

  /** The reverse lookup of a mapped display name finds its own slug. */
  lemma SlugOfMapped(i: nat)
    requires i < |Mapping|
    ensures SlugOf(Mapping[i].1) == Some(Mapping[i].0)
  {
    var s := SlugOf(Mapping[i].1);
    var j :| 0 <= j < |Mapping| && Mapping[j] == (s.value, Mapping[i].1);
    if j < i {
      MappingDistinct(j, i);
    } else if i < j {
      MappingDistinct(i, j);
    }
  }

  /** The lookup of a mapped slug finds its own display name. */
  lemma NameOfMapped(i: nat)
    requires i < |Mapping|
    ensures NameOf(Mapping[i].0) == Some(Mapping[i].1)
  {
    var n := NameOf(Mapping[i].0);
    var j :| 0 <= j < |Mapping| && Mapping[j] == (Mapping[i].0, n.value);
    if j < i {
      MappingDistinct(j, i);
    } else if i < j {
      MappingDistinct(i, j);
    }
  }

  /** Choosing any mapped display name lands on its slug, which maps back to the same name. */
  lemma CategoryRoundTrip(i: nat)
    requires i < |Mapping|
    ensures HandleCategoryChange(Mapping[i].1) == CategoryPath(Mapping[i].0)
    ensures SelectedCategory(Param(HandleCategoryChange(Mapping[i].1))) == Named(Mapping[i].1)
  {
    assert Mapping[i].1 != "All";
    SlugOfMapped(i);
    NameOfMapped(i);
    ParamOfPath(Mapping[i].0);
  }

  /** A name outside the mapping navigates to its hyphenated lower-case form, and the page then
      shows whatever category that slug maps to, which is `"All"` for a slug the mapping lacks. */
  lemma UnmappedCategory(name: string)
    requires name != "All" && SlugOf(name).None?
    ensures var slug := Hyphenate(Lower(name));
      SelectedCategory(Param(HandleCategoryChange(name))) ==
        if slug == [] || (NameOf(slug).None? && slug !in InheritedKeys) then Named("All")
        else if NameOf(slug).Some? then Named(NameOf(slug).value)
        else Inherited(slug)
  {
    ParamOfPath(Hyphenate(Lower(name)));
  }

  /** What the page renders: a list of products, or the `TypeError` that
      `getProductsByCategory` throws when the selection is not a string and has no
      `toLowerCase`. */
  datatype Rendered = Shows(products: seq<Product>) | Throws

  /** `filteredProducts`: a non-blank query wins, then a chosen category, then the whole catalog.
      An inherited member differs from `'All'`, so it goes to the category filter, whose callback
      calls `toLowerCase` on it for the first product; an empty catalog never runs the callback. */
  function FilteredProducts(ps: seq<Product>, query: string, selected: Selected): (r: Rendered)
    ensures !IsBlank(query) ==> r == Shows(SearchProducts(ps, query))
    ensures IsBlank(query) && selected.Named? && selected.name != "All" ==>
              r == Shows(GetProductsByCategory(ps, selected.name))
    ensures IsBlank(query) && selected == Named("All") ==> r == Shows(ps)
    ensures IsBlank(query) && selected.Inherited? ==> (r == Throws <==> ps != [])
    ensures r.Shows? ==> forall p :: p in r.products ==> p in ps
  {
    if !IsBlank(query) then Shows(SearchProducts(ps, query))
    else match selected
      case Named(n) => if n != "All" then Shows(GetProductsByCategory(ps, n)) else Shows(ps)
      case Inherited(_) => if ps == [] then Shows([]) else Throws
  }

  /** The page: the search box and the current route. */
  datatype View = View(query: string, path: string)

  /** The products the page shows. */
  function Shown(ps: seq<Product>, v: View): Rendered {
    FilteredProducts(ps, v.query, SelectedCategory(Param(v.path)))
  }

  /** Whatever the page shows comes from the catalog. */
  lemma ShownFromCatalog(ps: seq<Product>, v: View)
    ensures Shown(ps, v).Shows? ==> forall p :: p in Shown(ps, v).products ==> p in ps
  {
  }

  /** A search overrides the route: the category in the path no longer matters. */
  lemma SearchOverridesCategory(ps: seq<Product>, q: string, path: string, path': string)
    requires !IsBlank(q)
    ensures Shown(ps, View(q, path)) == Shown(ps, View(q, path')) == Shows(SearchProducts(ps, q))
  {
  }

  /** With an empty search box, picking a mapped category shows exactly that category. */
  lemma PickCategoryShows(ps: seq<Product>, v: View, i: nat)
    requires IsBlank(v.query) && i < |Mapping|
    ensures Shown(ps, v.(path := HandleCategoryChange(Mapping[i].1))) == Shows(GetProductsByCategory(ps, Mapping[i].1))
  {
    CategoryRoundTrip(i);
  }

  /** `clearFilters`: an empty query and the bare `/products` route. */
  function ClearFilters(v: View): (r: View)
    ensures r.query == "" && Param(r.path).None?
  {
    View("", ProductsPath)
  }

  /** After clearing the filters the page shows the whole catalog. */
  lemma ClearFiltersShowsAll(ps: seq<Product>, v: View)
    ensures Shown(ps, ClearFilters(v)) == Shows(ps)
  {
  }

  /** A route naming an inherited member, such as `/products/constructor`, breaks the page when
      the search box is empty and the catalog is not; a search still renders. */
  lemma InheritedSlugThrows(ps: seq<Product>, q: string, key: string)
    requires key in InheritedKeys
    ensures IsBlank(q) && ps != [] ==> Shown(ps, View(q, CategoryPath(key))) == Throws
    ensures !IsBlank(q) ==> Shown(ps, View(q, CategoryPath(key))) == Shows(SearchProducts(ps, q))
  {
    ParamOfPath(key);
    assert SelectedCategory(Some(key)) == Inherited(key) by {
      forall i | 0 <= i < |Mapping|
        ensures Mapping[i].0 != key
      {
        MappingNotInherited(i);
      }
    }
  }

  /** `categories`: `"All"` ahead of the catalog's categories. */
  function CategoryList(ps: seq<Product>): (r: seq<string>)
    ensures |r| >= 1 && r[0] == "All"
    ensures forall c :: c in r <==> c == "All" || c in GetAllCategories(ps)
  {
    ["All"] + GetAllCategories(ps)
  }

  /** The filter buttons offer every category of the catalog and nothing else besides `"All"`. */
  lemma CategoryListCovers(ps: seq<Product>)
    ensures forall k :: 0 <= k < |ps| ==> ps[k].category in CategoryList(ps)
    ensures forall c :: c in CategoryList(ps) ==> c == "All" || exists k :: 0 <= k < |ps| && ps[k].category == c
  {
    var cs := GetAllCategories(ps);
    assert forall k :: 0 <= k < |ps| ==> ps[k].category in cs;
  }

  /** The filter buttons offer each category once, as long as no product's category is itself
      `"All"`. */
  lemma CategoryListDistinct(ps: seq<Product>)
    requires forall k :: 0 <= k < |ps| ==> ps[k].category != "All"
    ensures forall i, j :: 0 <= i < j < |CategoryList(ps)| ==> CategoryList(ps)[i] != CategoryList(ps)[j]
  {
    var cs := GetAllCategories(ps);
    assert "All" !in cs;
    PrependFresh("All", cs);
  }

  /** A value that is not in a list of distinct values can go in front of it. */
  lemma PrependFresh(x: string, xs: seq<string>)
    requires x !in xs
    requires forall i, j :: 0 <= i < j < |xs| ==> xs[i] != xs[j]
    ensures forall i, j :: 0 <= i < j < |[x] + xs| ==> ([x] + xs)[i] != ([x] + xs)[j]
  {
    var r := [x] + xs;
    forall i, j | 0 <= i < j < |r|
      ensures r[i] != r[j]
    {
      assert r[j] == xs[j - 1];
      if i > 0 {
        assert r[i] == xs[i - 1];
      }
    }
  }
}

=== FILE: seqs.dfy ===
/** Order-preserving selection and search over sequences: the `Array.prototype.filter` and
    `findIndex` that the cart, catalog and search code all use, and the first-match lookup
    `findById` performs over a collection. */
module Seqs {
  import opened Wrappers

  /** `findIndex`: the first position whose element satisfies `p`, or `None` for -1. */
  function FindIndex<T>(xs: seq<T>, p: T -> bool): (r: Option<nat>)
    ensures r.Some? ==> r.value < |xs| && p(xs[r.value])
    ensures r.Some? ==> forall k :: 0 <= k < r.value ==> !p(xs[k])
    ensures r.None? <==> forall k :: 0 <= k < |xs| ==> !p(xs[k])
  {
    if xs == [] then None
    else if p(xs[0]) then Some(0)
    else match FindIndex(xs[1..], p)
      case None => None
      case Some(k) => Some(k + 1)
  }

  /** The elements of `xs` that satisfy `p`, in their original order. */
  function Filter<T(!new)>(xs: seq<T>, p: T -> bool): (r: seq<T>)
    ensures |r| <= |xs|
    ensures forall i :: 0 <= i < |r| ==> p(r[i])
    ensures forall x :: x in r <==> x in xs && p(x)
  {
    if xs == [] then []
    else (if p(xs[0]) then [xs[0]] else []) + Filter(xs[1..], p)
  }

  /** Filtering distributes over concatenation, which is what "keeps the others in order" means. */
  lemma {:induction false} FilterAppend<T(!new)>(xs: seq<T>, ys: seq<T>, p: T -> bool)
    ensures Filter(xs + ys, p) == Filter(xs, p) + Filter(ys, p)
  {
    if xs == [] {
      assert xs + ys == ys;
    } else {
      assert (xs + ys)[1..] == xs[1..] + ys;
      FilterAppend(xs[1..], ys, p);
    }
  }

  /** A filter that every element passes returns its input unchanged. */
  lemma {:induction false} FilterKeepsAll<T(!new)>(xs: seq<T>, p: T -> bool)
    requires forall i :: 0 <= i < |xs| ==> p(xs[i])
    ensures Filter(xs, p) == xs
  {
    if xs != [] {
      FilterKeepsAll(xs[1..], p);
    }
  }

  /** Filtering keeps every occurrence of a selected value and none of the others. */
  lemma {:induction false} FilterMultiset<T(!new)>(xs: seq<T>, p: T -> bool, x: T)
    ensures multiset(Filter(xs, p))[x] == if p(x) then multiset(xs)[x] else 0
  {
    if xs != [] {
      FilterMultiset(xs[1..], p, x);
      assert xs == [xs[0]] + xs[1..];
    }
  }

  /** Two tests that agree on every element select the same elements. */
  lemma {:induction false} FilterCongruent<T(!new)>(xs: seq<T>, p: T -> bool, q: T -> bool)
    requires forall i :: 0 <= i < |xs| ==> p(xs[i]) == q(xs[i])
    ensures Filter(xs, p) == Filter(xs, q)
  {
    if xs != [] {
      FilterCongruent(xs[1..], p, q);
    }
  }

  /** Filtering out the one element that fails `p` removes exactly that position. */
  lemma {:induction false} FilterRemovesOne<T(!new)>(xs: seq<T>, k: nat, p: T -> bool)
    requires k < |xs| && !p(xs[k])
    requires forall i :: 0 <= i < |xs| && i != k ==> p(xs[i])
    ensures Filter(xs, p) == xs[..k] + xs[k + 1..]
  {
    var tail := xs[1..];
    if k == 0 {
      FilterDropsHead(xs, p);
    } else {
      forall i | 0 <= i < |tail| && i != k - 1
        ensures p(tail[i])
      {
        assert tail[i] == xs[i + 1];
      }
      FilterRemovesOne(tail, k - 1, p);
      FilterKeepsHead(xs, k, p);
    }
  }

  /** The step of `FilterRemovesOne` past a head that passes. */
  lemma FilterKeepsHead<T(!new)>(xs: seq<T>, k: nat, p: T -> bool)
    requires 0 < k < |xs| && p(xs[0])
    requires Filter(xs[1..], p) == xs[1..][..k - 1] + xs[1..][k..]
    ensures Filter(xs, p) == xs[..k] + xs[k + 1..]
  {
    assert Filter(xs, p) == [xs[0]] + Filter(xs[1..], p);
    ConsSplice(xs, k);
  }

  /** Putting the head back in front of the tail with one position cut out is cutting that
      position out of the whole. */
  lemma ConsSplice<T>(xs: seq<T>, k: nat)
    requires 0 < k < |xs|
    ensures [xs[0]] + (xs[1..][..k - 1] + xs[1..][k..]) == xs[..k] + xs[k + 1..]
  {
    var tail := xs[1..];
    assert xs[..k] == [xs[0]] + tail[..k - 1];
    assert xs[k + 1..] == tail[k..];
  }

  /** A filter that only the head fails drops exactly the head. */
  lemma FilterDropsHead<T(!new)>(xs: seq<T>, p: T -> bool)
    requires xs != [] && !p(xs[0])
    requires forall i :: 0 < i < |xs| ==> p(xs[i])
    ensures Filter(xs, p) == xs[1..]
  {
    var tail := xs[1..];
    forall i | 0 <= i < |tail|
      ensures p(tail[i])
    {
      assert tail[i] == xs[i + 1];
    }
    FilterKeepsAll(tail, p);
  }

  /** The position of the first occurrence of `v`. */
  function IndexOf<T(==)>(xs: seq<T>, v: T): (r: nat)
    requires v in xs
    ensures r < |xs| && xs[r] == v && v !in xs[..r]
  {
    if xs[0] == v then 0
    else
      var k := IndexOf(xs[1..], v);
      assert xs[..k + 1] == [xs[0]] + xs[1..][..k];
      k + 1
  }

  /** Position `k` holds a value that does not occur before it. */
  predicate FirstSeen<T(==)>(xs: seq<T>, k: int) {
    0 <= k < |xs| && xs[k] !in xs[..k]
  }

  /** A first occurrence is where `IndexOf` finds its value. */
  lemma FirstSeenIndex<T>(xs: seq<T>, k: int)
    requires FirstSeen(xs, k)
    ensures IndexOf(xs, xs[k]) == k
  {
  }

  /** The positions where a value occurs for the first time, in increasing order. */
  function FirstPositions<T(==)>(xs: seq<T>): (r: seq<nat>)
    ensures forall i :: 0 <= i < |r| ==> FirstSeen(xs, r[i])
    ensures forall k :: FirstSeen(xs, k) ==> k in r
    ensures forall i, j :: 0 <= i < j < |r| ==> r[i] < r[j]
  {
    if xs == [] then []
    else
      var n := |xs| - 1;
      var init := xs[..n];
      var p := FirstPositions(init);
      assert forall k :: 0 <= k < n ==> (FirstSeen(init, k) <==> FirstSeen(xs, k)) by {
        forall k | 0 <= k < n
          ensures FirstSeen(init, k) <==> FirstSeen(xs, k)
        {
          assert init[..k] == xs[..k];
        }
      }
      assert init == xs[..n];
      if xs[n] in init then p else p + [n]
  }

  /** Each value of `xs` once, in the order of first occurrence: `Array.from(new Set(xs))`. */
  function Distinct<T(==,!new)>(xs: seq<T>): (r: seq<T>)
    ensures forall x :: x in r <==> x in xs
    ensures forall i, j :: 0 <= i < j < |r| ==> r[i] != r[j]
    ensures forall i, j :: 0 <= i < j < |r| ==> IndexOf(xs, r[i]) < IndexOf(xs, r[j])
  {
    var ps := FirstPositions(xs);
    var r := Pick(xs, ps);
    PickedIndex(xs, ps);
    PickedCovers(xs, ps);
    PickedDistinct(xs, ps);
    r
  }

  /** The values at the positions `ps`. */
  function Pick<T>(xs: seq<T>, ps: seq<nat>): (r: seq<T>)
    requires forall i :: 0 <= i < |ps| ==> ps[i] < |xs|
    ensures |r| == |ps| && forall i :: 0 <= i < |ps| ==> r[i] == xs[ps[i]]
  {
    seq(|ps|, i requires 0 <= i < |ps| => xs[ps[i]])
  }

  /** Picked first occurrences are found again at their own positions. */
  lemma PickedIndex<T>(xs: seq<T>, ps: seq<nat>)
    requires forall i :: 0 <= i < |ps| ==> ps[i] < |xs| && FirstSeen(xs, ps[i])
    ensures forall i :: 0 <= i < |ps| ==> IndexOf(xs, Pick(xs, ps)[i]) == ps[i]
  {
    var r := Pick(xs, ps);
    forall i | 0 <= i < |r|
      ensures IndexOf(xs, r[i]) == ps[i]
    {
      FirstSeenIndex(xs, ps[i]);
    }
  }

  /** Picking every first occurrence picks every value. */
  lemma PickedCovers<T>(xs: seq<T>, ps: seq<nat>)
    requires forall i :: 0 <= i < |ps| ==> ps[i] < |xs| && FirstSeen(xs, ps[i])
    requires forall k :: FirstSeen(xs, k) ==> k in ps
    ensures forall x :: x in xs ==> x in Pick(xs, ps)
  {
    var r := Pick(xs, ps);
    forall x | x in xs
      ensures x in r
    {
      var k := IndexOf(xs, x);
      assert FirstSeen(xs, k);
      var i :| 0 <= i < |ps| && ps[i] == k;
      assert r[i] == x;
    }
  }

  /** First occurrences at increasing positions hold different values. */
  lemma PickedDistinct<T>(xs: seq<T>, ps: seq<nat>)
    requires forall i :: 0 <= i < |ps| ==> ps[i] < |xs| && FirstSeen(xs, ps[i])
    requires forall i, j :: 0 <= i < j < |ps| ==> ps[i] < ps[j]
    ensures forall i, j :: 0 <= i < j < |ps| ==> Pick(xs, ps)[i] != Pick(xs, ps)[j]
  {
    var r := Pick(xs, ps);
    forall i, j | 0 <= i < j < |r|
      ensures r[i] != r[j]
    {
      assert xs[..ps[j]][ps[i]] == r[i];
    }
  }
}

=== FILE: shop_types.dfy ===
/** The storefront's client-side records (`types/cart.ts`): a catalog product and a cart line that
    is the product with a quantity. Prices are held in integer cents. */
module ShopTypes {

  datatype Product = Product(
    id: string,
    name: string,
    description: string,
    price: int,
    image: string,
    category: string,
    stock: int)

  /** `{ ...product, quantity }`: the line's id is its product's id. */
  datatype CartItem = CartItem(product: Product, quantity: int) {
    function Id(): string {
      product.id
    }
  }
}

=== FILE: sorting.dfy ===
/** Stable comparison sorting over sequences, parameterised by an "may come before"
    relation: the catalog's `.sort(...)` on the database side and the order history's
    `Array.prototype.sort` on the client side. */
module Sorting {

  ghost predicate Total<T(!new)>(leq: (T, T) -> bool) {
    forall a, b :: leq(a, b) || leq(b, a)
  }

  ghost predicate Transitive<T(!new)>(leq: (T, T) -> bool) {
    forall a, b, c :: leq(a, b) && leq(b, c) ==> leq(a, c)
  }

  /** A relation a comparison sort can order by. */
  ghost predicate TotalPreorder<T(!new)>(leq: (T, T) -> bool) {
    Total(leq) && Transitive(leq)
  }

  /** Every element may come before every later one. */
  predicate SortedBy<T>(xs: seq<T>, leq: (T, T) -> bool) {
    forall i, j :: 0 <= i < j < |xs| ==> leq(xs[i], xs[j])
  }

  /** `x` placed in front of the first element it may precede. */
  function Insert<T(!new)>(x: T, xs: seq<T>, leq: (T, T) -> bool): (r: seq<T>)
    ensures multiset(r) == multiset(xs) + multiset{x}
    ensures |r| == |xs| + 1
  {
    assert xs == [] || xs == [xs[0]] + xs[1..];
    if xs == [] then [x]
    else if leq(x, xs[0]) then [x] + xs
    else [xs[0]] + Insert(x, xs[1..], leq)
  }

  /** Every element of a sorted tail may follow its head. */
  lemma HeadPrecedesAll<T(!new)>(y: T, ys: seq<T>, leq: (T, T) -> bool)
    requires SortedBy([y] + ys, leq)
    ensures forall z :: z in ys ==> leq(y, z)
  {
    forall z | z in ys
      ensures leq(y, z)
    {
      var m :| 0 <= m < |ys| && ys[m] == z;
      assert ([y] + ys)[0] == y && ([y] + ys)[m + 1] == z;
      assert leq(([y] + ys)[0], ([y] + ys)[m + 1]);
    }
  }

  /** A sequence whose head may precede everything after it, and whose tail is sorted, is sorted. */
  lemma ConsSorted<T(!new)>(y: T, ys: seq<T>, leq: (T, T) -> bool)
    requires forall z :: z in ys ==> leq(y, z)
    requires SortedBy(ys, leq)
    ensures SortedBy([y] + ys, leq)
  {
    var r := [y] + ys;
    forall i, j | 0 <= i < j < |r|
      ensures leq(r[i], r[j])
    {
      assert r[j] == ys[j - 1];
      if i > 0 {
        assert r[i] == ys[i - 1];
      }
    }
  }

  /** Inserting into a sorted sequence keeps it sorted. */
  lemma {:induction false} InsertSorted<T(!new)>(x: T, xs: seq<T>, leq: (T, T) -> bool)
    requires TotalPreorder(leq)
    requires SortedBy(xs, leq)
    ensures SortedBy(Insert(x, xs, leq), leq)
  {
    if xs == [] {
    } else if leq(x, xs[0]) {
      assert xs == [xs[0]] + xs[1..];
      HeadPrecedesAll(xs[0], xs[1..], leq);
      ConsSorted(x, xs, leq);
    } else {
      assert xs == [xs[0]] + xs[1..];
      HeadPrecedesAll(xs[0], xs[1..], leq);
      assert SortedBy(xs[1..], leq);
      InsertSorted(x, xs[1..], leq);
      var rest := Insert(x, xs[1..], leq);
      forall z | z in rest
        ensures leq(xs[0], z)
      {
        assert z in multiset(rest);
      }
      ConsSorted(xs[0], rest, leq);
    }
  }

  /** Insertion sort: a permutation of `xs`, ordered by `leq` whenever `leq` is a total preorder.
      Each element is inserted ahead of the later elements it ties with, so ties keep their order. */
  function SortBy<T(!new)>(xs: seq<T>, leq: (T, T) -> bool): (r: seq<T>)
    ensures multiset(r) == multiset(xs)
    ensures |r| == |xs|
    ensures TotalPreorder(leq) ==> SortedBy(r, leq)
  {
    if xs == [] then []
    else
      assert xs == [xs[0]] + xs[1..];
      var tail := SortBy(xs[1..], leq);
      assert TotalPreorder(leq) ==> SortedBy(Insert(xs[0], tail, leq), leq) by {
        if TotalPreorder(leq) {
          InsertSorted(xs[0], tail, leq);
        }
      }
      Insert(xs[0], tail, leq)
  }

  /** Any contiguous slice of a sorted sequence is sorted: a page of a sorted listing is in order. */
  lemma SortedSlice<T>(xs: seq<T>, leq: (T, T) -> bool, lo: nat, hi: nat)
    requires SortedBy(xs, leq) && lo <= hi <= |xs|
    ensures SortedBy(xs[lo..hi], leq)
  {
    forall i, j | 0 <= i < j < hi - lo
      ensures leq(xs[lo..hi][i], xs[lo..hi][j])
    {
      assert xs[lo..hi][i] == xs[lo + i] && xs[lo..hi][j] == xs[lo + j];
    }
  }
}

=== FILE: text.dfy ===
/** The string primitives the storefront relies on, with JavaScript's meaning:
    `\s`/`trim()` whitespace, `\d` digits, `toLowerCase()` and `includes()`. */
module Text {
  import Seqs

  /** JavaScript's white-space and line-terminator characters (the class `\s`, and what `trim()` strips). */
  predicate IsSpace(c: char) {
    || c == ' ' || c == '\t' || c == '\n' || c == '\r' || c == '\U{000B}' || c == '\U{000C}'
    || c == '\U{00A0}' || c == '\U{1680}' || ('\U{2000}' <= c <= '\U{200A}')
    || c == '\U{2028}' || c == '\U{2029}' || c == '\U{202F}' || c == '\U{205F}'
    || c == '\U{3000}' || c == '\U{FEFF}'
  }

  /** The class `\d`. */
  predicate IsDigit(c: char) {
    '0' <= c <= '9'
  }

  predicate NoSpace(s: string) {
    forall i :: 0 <= i < |s| ==> !IsSpace(s[i])
  }

  predicate AllSpace(s: string) {
    forall i :: 0 <= i < |s| ==> IsSpace(s[i])
  }

  predicate AllDigits(s: string) {
    forall i :: 0 <= i < |s| ==> IsDigit(s[i])
  }

  /** `s.replace(/\s/g, '')`. */
  function StripSpaces(s: string): (r: string)
    ensures NoSpace(r)
    ensures |r| <= |s|
    ensures forall c :: c in r <==> c in s && !IsSpace(c)
  {
    Seqs.Filter(s, c => !IsSpace(c))
  }

  /** Removing whitespace from text that has none changes nothing. */
  lemma StripSpacesNoSpace(s: string)
    requires NoSpace(s)
    ensures StripSpaces(s) == s
  {
    Seqs.FilterKeepsAll(s, c => !IsSpace(c));
  }

  lemma StripSpacesAppend(s: string, t: string)
    ensures StripSpaces(s + t) == StripSpaces(s) + StripSpaces(t)
  {
    Seqs.FilterAppend(s, t, c => !IsSpace(c));
  }

  /** `s.replace(/\D/g, '')`. */
  function DigitsOnly(s: string): (r: string)
    ensures AllDigits(r)
    ensures |r| <= |s|
    ensures forall c :: c in r <==> c in s && IsDigit(c)
  {
    Seqs.Filter(s, IsDigit)
  }

  /** Taking only the digits of an all-digit string changes nothing. */
  lemma DigitsOnlyOfDigits(s: string)
    requires AllDigits(s)
    ensures DigitsOnly(s) == s
  {
    Seqs.FilterKeepsAll(s, IsDigit);
  }

  lemma DigitsOnlyAppend(s: string, t: string)
    ensures DigitsOnly(s + t) == DigitsOnly(s) + DigitsOnly(t)
  {
    Seqs.FilterAppend(s, t, IsDigit);
  }

  /** How many whitespace characters `s` starts with. */
  function LeadingSpace(s: string): (n: nat)
    ensures n <= |s|
    ensures forall i :: 0 <= i < n ==> IsSpace(s[i])
    ensures n < |s| ==> !IsSpace(s[n])
  {
    if s == [] || !IsSpace(s[0]) then 0 else 1 + LeadingSpace(s[1..])
  }

  /** How many whitespace characters `s` ends with. */
  function TrailingSpace(s: string): (n: nat)
    ensures n <= |s|
    ensures forall i :: |s| - n <= i < |s| ==> IsSpace(s[i])
    ensures n < |s| ==> !IsSpace(s[|s| - n - 1])
  {
    if s == [] || !IsSpace(s[|s| - 1]) then 0 else 1 + TrailingSpace(s[..|s| - 1])
  }

  /** Leading whitespace removed: the longest suffix of `s` that does not start with whitespace. */
  function TrimStart(s: string): (r: string)
    ensures |r| <= |s| && r == s[|s| - |r|..]
    ensures AllSpace(s[..|s| - |r|])
    ensures r == [] || !IsSpace(r[0])
    ensures r == [] <==> AllSpace(s)
    ensures NoSpace(s) ==> r == s
  {
    s[LeadingSpace(s)..]
  }

  /** Trailing whitespace removed: the longest prefix of `s` that does not end with whitespace. */
  function TrimEnd(s: string): (r: string)
    ensures |r| <= |s| && r == s[..|r|]
    ensures AllSpace(s[|r|..])
    ensures r == [] || !IsSpace(r[|r| - 1])
    ensures r == [] <==> AllSpace(s)
    ensures NoSpace(s) ==> r == s
  {
    s[..|s| - TrailingSpace(s)]
  }

  /** Neither end is whitespace: what `trim()` leaves. */
  predicate Trimmed(s: string) {
    s == [] || (!IsSpace(s[0]) && !IsSpace(s[|s| - 1]))
  }

  /** `s.trim()`: whitespace cut off both ends; empty exactly when `s` is all whitespace. */
  function Trim(s: string): (r: string)
    ensures |r| <= |s|
    ensures Trimmed(r)
    ensures r == [] <==> AllSpace(s)
  {
    var t := TrimStart(s);
    assert AllSpace(t) <==> t == [];
    TrimEnd(t)
  }

  /** A string with no whitespace at either end is its own trim. */
  lemma TrimmedIsFixed(s: string)
    requires Trimmed(s)
    ensures Trim(s) == s
  {
    assert TrimStart(s) == s;
    assert TrimEnd(s) == s;
  }

  /** Text without whitespace is its own trim. */
  lemma TrimNoSpace(s: string)
    requires NoSpace(s)
    ensures Trim(s) == s
  {
    TrimmedIsFixed(s);
  }

  /** Trimming an already trimmed string changes nothing. */
  lemma TrimIdempotent(s: string)
    ensures Trim(Trim(s)) == Trim(s)
  {
    TrimmedIsFixed(Trim(s));
  }

  /** Whitespace-only text has nothing left once whitespace is removed. */
  lemma {:induction false} StripAllSpace(s: string)
    requires AllSpace(s)
    ensures StripSpaces(s) == []
  {
    if s != [] {
      StripAllSpace(s[1..]);
    }
  }

  /** Trimming removes only whitespace, so it does not change what remains once whitespace is
      removed. */
  lemma StripTrim(s: string)
    ensures StripSpaces(Trim(s)) == StripSpaces(s)
  {
    StripTrimStart(s);
    StripTrimEnd(TrimStart(s));
  }

  /** Removing leading whitespace does not change what remains once whitespace is removed. */
  lemma StripTrimStart(s: string)
    ensures StripSpaces(TrimStart(s)) == StripSpaces(s)
  {
    var t := TrimStart(s);
    var pre := s[..|s| - |t|];
    assert s == pre + t;
    StripSpacesAppend(pre, t);
    StripAllSpace(pre);
  }

  /** Removing trailing whitespace does not change what remains once whitespace is removed. */
  lemma StripTrimEnd(s: string)
    ensures StripSpaces(TrimEnd(s)) == StripSpaces(s)
  {
    var u := TrimEnd(s);
    var post := s[|u|..];
    assert s == u + post;
    StripSpacesAppend(u, post);
    StripAllSpace(post);
  }

  /** `!s.trim()`: nothing but whitespace, which is exactly when the trim is empty. */
  predicate IsBlank(s: string) {
    AllSpace(s)
  }

  /** Upper-case ASCII letters mapped to lower case; every other character unchanged. */
  function LowerChar(c: char): (r: char)
    ensures 'A' <= c <= 'Z' ==> 'a' <= r <= 'z'
    ensures !('A' <= c <= 'Z') ==> r == c
  {
    if 'A' <= c <= 'Z' then (c as int + 32) as char else c
  }

  /** `s.toLowerCase()` restricted to ASCII letters. */
  function Lower(s: string): (r: string)
    ensures |r| == |s|
    ensures forall i :: 0 <= i < |s| ==> r[i] == LowerChar(s[i])
  {
    if s == [] then [] else [LowerChar(s[0])] + Lower(s[1..])
  }

  lemma LowerAppend(s: string, t: string)
    ensures Lower(s + t) == Lower(s) + Lower(t)
  {
  }

  /** Lower-casing twice is lower-casing once. */
  lemma LowerIdempotent(s: string)
    ensures Lower(Lower(s)) == Lower(s)
  {
  }

  /** `n` occurs in `h` starting at index `i`. */
  predicate OccursAt(h: string, n: string, i: int) {
    0 <= i && i + |n| <= |h| && h[i..i + |n|] == n
  }

  lemma OccursShift(h: string, n: string, i: int)
    requires h != [] && 0 <= i
    ensures OccursAt(h[1..], n, i) <==> OccursAt(h, n, i + 1)
  {
    if 0 <= i && i + |n| <= |h| - 1 {
      assert h[1..][i..i + |n|] == h[i + 1..i + 1 + |n|];
    }
  }

  /** `h.includes(n)`, computed by trying every start position in turn. */
  function Includes(h: string, n: string): (r: bool)
    ensures r <==> exists i :: OccursAt(h, n, i)
  {
    if |n| <= |h| && h[..|n|] == n then
      assert OccursAt(h, n, 0);
      true
    else if h == [] then
      assert forall i :: !OccursAt(h, n, i);
      false
    else
      var r := Includes(h[1..], n);
      assert r ==> exists i :: OccursAt(h, n, i) by {
        if r {
          var i :| OccursAt(h[1..], n, i);
          OccursShift(h, n, i);
        }
      }
      assert (exists i :: OccursAt(h, n, i)) ==> r by {
        if exists i :: OccursAt(h, n, i) {
          var i :| OccursAt(h, n, i);
          assert h[0..|n|] == h[..|n|] || |n| > |h|;
          OccursShift(h, n, i - 1);
        }
      }
      r
  }

  /** Code-point lexicographic order: `a` is a prefix of `b`, or `a` has the smaller character at
      the first position where they differ. */
  predicate LexLeq(a: string, b: string) {
    a == [] || (b != [] && (a[0] < b[0] || (a[0] == b[0] && LexLeq(a[1..], b[1..]))))
  }

  lemma {:induction false} LexTotal(a: string, b: string)
    ensures LexLeq(a, b) || LexLeq(b, a)
  {
    if a != [] && b != [] && a[0] == b[0] {
      LexTotal(a[1..], b[1..]);
    }
  }

  lemma {:induction false} LexTransitive(a: string, b: string, c: string)
    requires LexLeq(a, b) && LexLeq(b, c)
    ensures LexLeq(a, c)
  {
    if a != [] && a[0] == b[0] && b[0] == c[0] {
      LexTransitive(a[1..], b[1..], c[1..]);
    }
  }
  /** Whether a character lies beyond the Basic Multilingual Plane, so that JavaScript stores it as
      a surrogate pair. */
  predicate Astral(c: char) {
    c as int >= 0x10000
  }

  /** JavaScript's `length`: the number of UTF-16 code units, two for an astral character. zod's
      `min` and Mongoose's `minlength` and `maxlength` measure strings this way. */
  function Utf16Length(s: string): (n: nat)
    ensures |s| <= n <= 2 * |s|
    ensures n == |s| <==> forall i :: 0 <= i < |s| ==> !Astral(s[i])
  {
    if s == [] then 0
    else
      var rest := Utf16Length(s[1..]);
      assert forall i :: 1 <= i < |s| ==> s[i] == s[1..][i - 1];
      (if Astral(s[0]) then 2 else 1) + rest
  }

  lemma {:induction false} Utf16LengthAppend(s: string, t: string)
    ensures Utf16Length(s + t) == Utf16Length(s) + Utf16Length(t)
  {
    if s != [] {
      assert (s + t)[0] == s[0] && (s + t)[1..] == s[1..] + t;
      Utf16LengthAppend(s[1..], t);
    } else {
      assert s + t == t;
    }
  }

  /** The variation selectors U+FE0E and U+FE0F, which validator.js's `isLength` does not count. */
  predicate VariationSelector(c: char) {
    c == '\U{FE0E}' || c == '\U{FE0F}'
  }

  /** The length validator.js's `isLength` measures: JavaScript's `length` less one per surrogate
      pair and one per variation selector, that is, the code points other than those selectors. */
  function IsLengthCount(s: string): (n: nat)
    ensures n <= |s|
    ensures n == |s| <==> forall i :: 0 <= i < |s| ==> !VariationSelector(s[i])
  {
    if s == [] then 0
    else
      var rest := IsLengthCount(s[1..]);
      assert forall i :: 1 <= i < |s| ==> s[i] == s[1..][i - 1];
      (if VariationSelector(s[0]) then 0 else 1) + rest
  }

  lemma {:induction false} IsLengthCountAppend(s: string, t: string)
    ensures IsLengthCount(s + t) == IsLengthCount(s) + IsLengthCount(t)
  {
    if s != [] {
      assert (s + t)[0] == s[0] && (s + t)[1..] == s[1..] + t;
      IsLengthCountAppend(s[1..], t);
    } else {
      assert s + t == t;
    }
  }

  /** Text with no astral character and no variation selector, on which every length agrees. */
  predicate Plain(s: string) {
    forall i :: 0 <= i < |s| ==> !Astral(s[i]) && !VariationSelector(s[i])
  }

  /** `isLength`'s count never exceeds JavaScript's `length`, and the three measures agree exactly
      on plain text. */
  lemma LengthsAgree(s: string)
    ensures IsLengthCount(s) <= |s| <= Utf16Length(s)
    ensures Plain(s) <==> IsLengthCount(s) == |s| == Utf16Length(s)
  {
    if IsLengthCount(s) == |s| == Utf16Length(s) {
      forall i | 0 <= i < |s|
        ensures !Astral(s[i]) && !VariationSelector(s[i])
      {
      }
    }
  }
}


=== FILE: user_model.dfy ===
/** The account document (`models/User.ts`) as the auth handlers see it. The stored password is
    the bcrypt hash, which this model treats as an opaque string; the email is kept in the form
    the schema's `trim` and `lowercase` setters give it, which Mongoose applies both to stored
    values and to the values of a query filter. */
module UserModel {
  import opened Wrappers
  import opened Text
  import opened Seqs

  type UserId = string

  /** The schema's role enum: `'user'` (the default) or `'admin'`. */
  datatype Role = Customer | Admin

  datatype User = User(
    id: UserId,
    name: string,
    email: string,
    password: string,
    role: Role,
    refreshToken: Option<string>)

  /** The password length the schema's `minlength` demands of a new password. */
  const MinPasswordLength: int := 6

  /** Lower-casing leaves whitespace alone, so it keeps a trimmed string trimmed. */
  lemma LowerKeepsTrimmed(s: string)
    requires Trimmed(s)
    ensures Trimmed(Lower(s))
  {
  }

  /** The email setters: `trim` and then `lowercase`. */
  function NormalizeEmail(e: string): (r: string)
    ensures Trimmed(r)
    ensures r == [] <==> AllSpace(e)
  {
    var t := Trim(e);
    LowerKeepsTrimmed(t);
    Lower(t)
  }

  /** Normalizing a normalized email changes nothing, so a stored email matches itself as a query. */
  lemma {:induction false} NormalizeIdempotent(e: string)
    ensures NormalizeEmail(NormalizeEmail(e)) == NormalizeEmail(e)
  {
    var n := NormalizeEmail(e);
    TrimmedIsFixed(n);
    LowerIdempotent(Trim(e));
  }

  /** What the schema keeps true of a stored account: a non-empty trimmed name and a non-empty
      normalized email. */
  predicate Stored(u: User) {
    u.name != [] && Trimmed(u.name) && u.email != [] && NormalizeEmail(u.email) == u.email
  }

  predicate UniqueIds(us: seq<User>) {
    forall i, j :: 0 <= i < j < |us| ==> us[i].id != us[j].id
  }

  /** The unique index on `email`. */
  predicate UniqueEmails(us: seq<User>) {
    forall i, j :: 0 <= i < j < |us| ==> us[i].email != us[j].email
  }

  predicate AllStored(us: seq<User>) {
    forall i :: 0 <= i < |us| ==> Stored(us[i])
  }

  predicate Valid(us: seq<User>) {
    UniqueIds(us) && UniqueEmails(us) && forall i :: 0 <= i < |us| ==> Stored(us[i])
  }

  /** `User.findById(id)`. */
  function FindById(us: seq<User>, id: UserId): (r: Option<nat>)
    ensures r.Some? ==> r.value < |us| && us[r.value].id == id
    ensures r.Some? ==> forall k :: 0 <= k < r.value ==> us[k].id != id
    ensures r.None? <==> forall k :: 0 <= k < |us| ==> us[k].id != id
  {
    FindIndex(us, (u: User) => u.id == id)
  }

  /** `User.findOne({ email })`: the query value goes through the same setters as a stored one. */
  function FindByEmail(us: seq<User>, email: string): (r: Option<nat>)
    ensures r.Some? ==> r.value < |us| && us[r.value].email == NormalizeEmail(email)
    ensures r.None? <==> forall k :: 0 <= k < |us| ==> us[k].email != NormalizeEmail(email)
  {
    var e := NormalizeEmail(email);
    FindIndex(us, (u: User) => u.email == e)
  }

  /** The lookup finds a position exactly when it holds the id and no earlier one does. */
  lemma FindIdAt(us: seq<User>, id: UserId, k: nat)
    requires k < |us| && us[k].id == id
    requires forall j :: 0 <= j < k ==> us[j].id != id
    ensures FindById(us, id) == Some(k)
  {
  }

  /** With unique ids, looking an account up by its own id finds exactly it. */
  lemma FindOwnId(us: seq<User>, j: nat)
    requires UniqueIds(us) && j < |us|
    ensures FindById(us, us[j].id) == Some(j)
  {
    FindIdAt(us, us[j].id, j);
  }

  /** Replacing one account's refresh token keeps the store valid. */
  lemma SetTokenKeepsValid(us: seq<User>, k: nat, t: Option<string>)
    requires Valid(us) && k < |us|
    ensures Valid(us[k := us[k].(refreshToken := t)])
  {
    var u := us[k].(refreshToken := t);
    assert Stored(us[k]);
    assert u.name == us[k].name && u.email == us[k].email;
    UpdateKeepsUnique(us, k, u);
    UpdateKeepsStored(us, k, u);
  }

  /** Replacing an account by one with the same id and an email no other account holds keeps ids
      and emails unique. */
  lemma UpdateKeepsUnique(us: seq<User>, k: nat, u: User)
    requires UniqueIds(us) && UniqueEmails(us) && k < |us| && u.id == us[k].id
    requires forall i :: 0 <= i < |us| && i != k ==> us[i].email != u.email
    ensures UniqueIds(us[k := u]) && UniqueEmails(us[k := u])
  {
    var r := us[k := u];
    forall i, j | 0 <= i < j < |r|
      ensures r[i].id != r[j].id && r[i].email != r[j].email
    {
      if i == k {
        assert r[j] == us[j];
      } else if j == k {
        assert r[i] == us[i];
      } else {
        assert r[i] == us[i] && r[j] == us[j];
      }
    }
  }

  /** Replacing an account by a well-formed one keeps every account well formed. */
  lemma UpdateKeepsStored(us: seq<User>, k: nat, u: User)
    requires k < |us| && Stored(u)
    requires AllStored(us)
    ensures AllStored(us[k := u])
  {
    var r := us[k := u];
    forall i | 0 <= i < |r|
      ensures Stored(r[i])
    {
      if i != k {
        assert r[i] == us[i];
      }
    }
  }

  /** Adding an account whose id and email are not held yet keeps ids and emails unique. */
  lemma AppendKeepsUnique(us: seq<User>, u: User)
    requires UniqueIds(us) && UniqueEmails(us)
    requires forall i :: 0 <= i < |us| ==> us[i].id != u.id && us[i].email != u.email
    ensures UniqueIds(us + [u]) && UniqueEmails(us + [u])
  {
    var r := us + [u];
    forall i, j | 0 <= i < j < |r|
      ensures r[i].id != r[j].id && r[i].email != r[j].email
    {
      assert r[i] == us[i];
      if j < |us| {
        assert r[j] == us[j];
      }
    }
  }

  /** Adding a well-formed account keeps every account well formed. */
  lemma AppendKeepsStored(us: seq<User>, u: User)
    requires forall i :: 0 <= i < |us| ==> Stored(us[i])
    requires Stored(u)
    ensures forall i :: 0 <= i < |us + [u]| ==> Stored((us + [u])[i])
  {
    var r := us + [u];
    forall i | 0 <= i < |r|
      ensures Stored(r[i])
    {
      if i < |us| {
        assert r[i] == us[i];
      }
    }
  }

  /** Adding a well-formed account whose id and email are not held yet keeps the store valid. */
  lemma AppendKeepsValid(us: seq<User>, u: User)
    requires Valid(us) && Stored(u)
    requires forall i :: 0 <= i < |us| ==> us[i].id != u.id && us[i].email != u.email
    ensures Valid(us + [u])
  {
    AppendKeepsUnique(us, u);
    AppendKeepsStored(us, u);
  }

  /** Replacing an account by a well-formed one with the same id and an email no other account
      holds keeps the store valid. */
  lemma ReplaceKeepsValid(us: seq<User>, k: nat, u: User)
    requires Valid(us) && k < |us| && Stored(u) && u.id == us[k].id
    requires forall i :: 0 <= i < |us| && i != k ==> us[i].email != u.email
    ensures Valid(us[k := u])
  {
    UpdateKeepsUnique(us, k, u);
    UpdateKeepsStored(us, k, u);
  }
}

=== FILE: wrappers.dfy ===
/** Failure-carrying result types shared by every module of the store model. */
module Wrappers {

  /** A value that may be absent: JavaScript's `undefined`/`null` for a field or a lookup. */
  datatype Option<+T> = None | Some(value: T) {
    function GetOr(default: T): T {
      match this
      case Some(v) => v
      case None => default
    }
  }

  /** An optional string JavaScript treats as true (`if (f)`): present and non-empty. */
  predicate Given(f: Option<string>) {
    f.Some? && f.value != []
  }

  /** The outcome of a request handler: the new value, or the error the handler throws. */
  datatype Result<+T, +E> = Ok(value: T) | Err(error: E) {
    predicate IsFailure() {
      Err?
    }

    function PropagateFailure<U>(): Result<U, E>
      requires Err?
    {
      Err(error)
    }

    function Extract(): T
      requires Ok?
    {
      value
    }
  }
}
